=== FILE: README.md ===
# note-md-publisher in Dafny

A model of the deterministic core of note-md-publisher, a Node.js tool that
publishes Markdown/MDX articles to note.com. The tool has two routes. The REST
route converts the body, creates an empty article, then saves the body and
header image into it. The browser route drives the note.com editor with
Playwright and uploads body images one by one. The model covers:

- **Content loading** (`ContentLoader`). Picks the input file, reads the title,
  tags and header image from the frontmatter, and falls back to the first
  `# ` heading for the title.
- **Markdown transforms.**
  - `MarkdownConverter` is the MDX line filter of the REST route.
  - `MdToHtml` is the block-level Markdown-to-HTML converter of the browser
    route.
  - `MdSplitter` splits a body into text and image sections.
- **Small parsers.**
  - `Hashtag` parses comma-separated tags.
  - `Browser` reads an article key out of a URL or key.
  - `ImageUploader` holds the upload pre-flight checks, the form and the
    response reading.
- **The REST client** (`NoteApi`). The process-wide rate limiter, the retrying
  `fetch` wrapper with its status classification and exponential backoff, and
  the two-step create-then-update protocol.
- **Authentication** (`Auth`). The 24-hour cookie cache, the cookie check
  against the creators API, the browser login that builds the cookie
  dictionary, and the reuse-or-relogin decision.
- **The browser publisher** (`PlaywrightPublisher`). The editor actions for
  each section, the article URL read off the editor URL, and when the browser
  is closed.

Every effect is an explicit input:

- The outcome of each `fetch` is an oracle `nat -> Outcome`, indexed by request
  number.
- The clock and `lastRequestTime` are fields of a `Net` state, and sleeping
  advances the clock.
- The file system, `path.resolve`/`dirname`/`extname` and gray-matter form a
  `Host` record of functions.
- A browser run is a record saying which step throws and what the page shows.
- `inlineFmt` is an uninterpreted `string -> string` function.
- `JSON.stringify` of a parsed response is a `Json -> string` parameter.

Operations return the events they cause, in order. The properties are proved
against those traces.

Shared modules:

- `Results`: `Option` and `Result`.
- `Strings`: JavaScript `split`, `join` and `trim` with its whitespace set, and
  decimal rendering.
- `Scan`: leftmost regex-run search and global removal.
- `Js`: untyped values, truthiness and `String(v)`.
- `Http`: responses, outcomes and the `Cookie` header.

Facts about the code that the model keeps as written:

- Image upload calls `fetch` directly, not through the retry loop and its
  rate limiter (lib/image-uploader.mjs:51).
- Any status below 400 counts as success, not only 2xx
  (lib/note-api.mjs:112-135).
- The browser publisher waits fixed times after each paste and upload. It
  does not check that an upload finished or that the file exists
  (lib/playwright-publisher.mjs:150-177).
- Every failure is a plain `Error` that carries only its message text
  (for example lib/note-api.mjs:121 and lib/image-uploader.mjs:24).

## Model

| member | source | states |
|---|---|---|
| Http.CookieHeaderRoundTrip | lib/note-api.mjs:25-29 | Take a cookie dictionary whose names hold no `=` or `;` and whose values hold no `;`. Its `Cookie` header parses back into exactly the same (name, value) entries, in the same order. |
| Http.HeaderSplitsIntoPieces | lib/note-api.mjs:25-29 | A non-empty safe dictionary gives a non-empty header. Splitting it on `;` gives one `name=value` piece per cookie. |
| NoteApi.EnforceRateLimit | lib/note-api.mjs:61-67 | The clock moves only when a request has been recorded (time > 0) less than 1000 ms ago, and then exactly to 1000 ms after it. The first request of a process never waits. |
| NoteApi.FormatErrorMessage | lib/note-api.mjs:77-88 | 401 gives the expired-cookie message. 400 gives the bad-request prefix plus the detail, or the status text when the detail is empty. 429 gives the rate-limit message. Any other status gives exactly `API通信エラー: ` followed by the status code in decimal, a space and the status text. |
| NoteApi.FormattedIsRecognised | lib/note-api.mjs:140-147 | Every message `formatErrorMessage` produces starts with one of the four prefixes the `catch` block recognises. |
| NoteApi.HttpErrorIsRethrown | lib/note-api.mjs:120-147 | When the `catch` block receives a thrown HTTP error, it rethrows it with its formatted message unchanged, whatever attempts remain. |
| NoteApi.Caught | lib/note-api.mjs:136-155 | A rejection is retried exactly when its message is not a recognised one and attempts remain. Otherwise it is thrown as it came. |
| NoteApi.Classify | lib/note-api.mjs:109-135 | A status below 400 returns the response. A 4xx other than 429 throws the formatted error with the body as detail. A 429 or 5xx retries while attempts remain, and otherwise throws the formatted error without detail. A rejection is handled as `Caught` says. |
| NoteApi.Send | lib/note-api.mjs:105-109 | One dispatch waits out the rate limit first. It records `lastRequestTime` at the moment of sending, after the wait, and counts one more request. |
| NoteApi.Attempt | lib/note-api.mjs:101-159 | Starting at attempt `a`, the loop sends at least 1 and at most `maxRetries + 1 - a` requests. It never moves the clock backwards. |
| NoteApi.AttemptOutcome | lib/note-api.mjs:112-135 | The loop succeeds exactly when its last request got a response with status below 400. It then returns that response. |
| NoteApi.AttemptTrace | lib/note-api.mjs:104-156 | The wire carries the same request once per attempt. The sleeps are `2^i * 1000` ms for each retried attempt `i`, in order. |
| NoteApi.ClientErrorIsFinal | lib/note-api.mjs:112-122 | A 4xx other than 429 ends the call after one request with no sleep. It fails with the status, status text and body, and its message is `formatErrorMessage` of them. |
| NoteApi.LowStatusIsSuccess | lib/note-api.mjs:112-135 | Any status below 400, not only 2xx, is success on the attempt that receives it. |
| NoteApi.RetryableStatusExhausts | lib/note-api.mjs:125-133 | If every response is a 429 or a 5xx, the loop sends every remaining attempt. It fails with the last status, formatted without detail. |
| NoteApi.NetworkErrorExhausts | lib/note-api.mjs:149-158 | If every request is rejected with an unrecognised message, the loop sends every remaining attempt. It throws the last rejection. |
| NoteApi.FormattedNetworkErrorIsFinal | lib/note-api.mjs:140-147 | A rejection whose message starts with a recognised prefix ends the call after one request, with that message. |
| NoteApi.ScheduleSum | lib/note-api.mjs:127 | The backoffs of attempts `from .. from+k-1` add up to `(2^(from+k) - 2^from) * 1000` ms. |
| NoteApi.FetchWithRetryBudget | lib/note-api.mjs:101-159 | With the default three retries, one call sends at most 4 requests and sleeps at most 7000 ms in backoff. |
| NoteApi.StartIsRated | lib/note-api.mjs:17 | A fresh process, with `lastRequestTime = 0` and no dispatches, satisfies the spacing invariant. |
| NoteApi.AttemptKeepsSpacing | lib/note-api.mjs:105-108 | With a clock that never goes back, the spacing invariant holds across a whole retry loop. Consecutive dispatches are at least 1000 ms apart, and `lastRequestTime` is the last dispatch time. |
| NoteApi.UrlInjective | lib/note-api.mjs:218-219 | Two requests go to the same URL only when they are for the same endpoint. For draft saves, that means the same article id. |
| NoteApi.ExtractCreated | lib/note-api.mjs:179-189 | Creation succeeds exactly when `data.id` and `data.key` are both present and truthy, and returns them unchanged. A body that is not JSON fails with the JSON error. A parsed body fails with a message that quotes its `JSON.stringify`. |
| NoteApi.CreateArticle | lib/note-api.mjs:169-190 | One logical create sends 1 to 4 requests. A success comes from the last response: its status is below 400 and it was read by `ExtractCreated`. |
| NoteApi.CreateArticleTrace | lib/note-api.mjs:172-176 | Every request `createArticle` sends is the create request for the title, with an empty body. |
| NoteApi.UpdatePayload | lib/note-api.mjs:212-216 | The payload always carries the body, the title and the status, which defaults to `draft`. It carries the eyecatch exactly when `imageUrl` is truthy, and then that URL. |
| NoteApi.UpdateArticle | lib/note-api.mjs:204-222 | One logical update sends 1 to 4 requests. It succeeds exactly when the last one got a status below 400. The body is not read. |
| NoteApi.UpdateArticleTrace | lib/note-api.mjs:218-221 | Every request `updateArticle` sends is the draft-save request for that id, with that payload. |
| NoteApi.PostArticleProtocol | lib/note-api.mjs:239-267 | The wire shows the create requests first. If create failed, nothing else is sent and the failure is returned. Otherwise 1 to 4 update requests follow, for the returned id. A success returns `https://note.com/{username}/n/{key}` and echoes the status. |
| ImageUploader.MimeTypeTotal | lib/image-uploader.mjs:6-12 | A MIME type exists exactly for the four allowed extensions. It is `image/jpeg` for `.jpg` and `.jpeg`, and `image/png` or `image/gif` otherwise. |
| ImageUploader.MegabyteTenths | lib/image-uploader.mjs:32 | The size shown in the too-large message is the nearest tenth of a MiB, rounding half up. |
| ImageUploader.JustOverTheLimit | lib/image-uploader.mjs:29-34 | A file one byte over 10 MiB is rejected, and the message shows `10.0`. |
| ImageUploader.NoteIdFieldIffTruthy | lib/image-uploader.mjs:40-45 | The file field comes first. A `note_id` field is present exactly when `noteId` is truthy, and then holds `String(noteId)`. |
| ImageUploader.ReadResponse | lib/image-uploader.mjs:62-79 | The upload succeeds exactly when the response is OK and `data.url` is truthy. Both the key and the URL are then `data.url`. |
| ImageUploader.UploadImage | lib/image-uploader.mjs:21-80 | An extension outside the allowed set fails before any file access. A file over 10 MiB fails after `stat` only. Success needs every check, the read and an OK response with a URL. |
| ImageUploader.UploadPostsOnce | lib/image-uploader.mjs:29-60 | A file that passes the checks is stat'ed, read, then posted exactly once. The post goes to the upload URL with the cookie header and the form fields, and the MIME type is an `image/` type. |
| ImageUploader.ExactlyMaxSizeIsAccepted | lib/image-uploader.mjs:29-36 | A file of exactly 10 MiB passes the size check and is read. |
| Hashtag.ParseTags | lib/hashtag.mjs:17-27 | Input that is not a non-empty string gives `[]`. A string gives at most one tag per comma-separated piece. Every tag is non-empty and holds no comma. |
| Hashtag.CleanAllMember | lib/hashtag.mjs:22-26 | The tags are exactly the pieces that are non-empty after trimming and dropping one leading `#`. |
| Hashtag.CleanAllAppend | lib/hashtag.mjs:22-26 | Cleaning works piece by piece, so the order of the pieces is kept. |
| Hashtag.CleanTagOfWritten | lib/hashtag.mjs:24-25 | A well-formed tag, with blanks around it and at most one `#` in front, cleans back to the tag. |
| Hashtag.ParseTagsRoundTrip | lib/hashtag.mjs:17-27 | Well-formed tags joined with commas parse back to the same list. |
| Hashtag.CleanAllIdentity | lib/hashtag.mjs:22-26 | Cleaning leaves a list of well-formed tags unchanged. |
| Browser.KeyIn | lib/browser.mjs:22-33 | A key found is non-empty and uses only `[a-z0-9]`. No key is found exactly when the trimmed input has no `/n/` followed by a key character and is not itself `n[a-z0-9]+`. |
| Browser.ParseArticleInput | lib/browser.mjs:17-36 | The parse succeeds exactly for a non-empty string whose trim names a key. Any error quotes the input as `String(input)`, untrimmed. |
| Browser.KeyIsFixedPoint | lib/browser.mjs:31-33 | A bare key parses to itself. |
| Browser.KeyAfterMarker | lib/browser.mjs:25-28 | When nothing earlier matches, the key is the maximal run after the first `/n/`. A trailing `/` after it is ignored. |
| Browser.NoteUrlRoundTrip | lib/browser.mjs:17-28 | For a user name without `/` that is not `n`, and a key `n[a-z0-9]+`, the public URL `https://note.com/{user}/n/{key}` parses back to its key, with or without a trailing slash. |
| Browser.UserNamedNReadsWrongKey | lib/browser.mjs:24-28 | For the user name `n`, the first `/n/` is the user segment, so `https://note.com/n/n/{key}` reads as the key `n`, never the article key. This is why the round trip above excludes that name. |
| ContentLoader.FirstH1 | skills/note-publish/lib/content-loader.mjs:59 | Where the title regex `^#\s+(.+)$` (multiline) matches, at or after a position. |
| ContentLoader.FirstH1IsLeftmost | skills/note-publish/lib/content-loader.mjs:59 | The match found is the leftmost one. When none is found, no position matches. |
| ContentLoader.ResolveTitle | skills/note-publish/lib/content-loader.mjs:56-63 | A truthy frontmatter title wins. Otherwise the title is the trimmed capture of the first heading match. Otherwise it is `Untitled`. |
| ContentLoader.HeadingLineIsTitle | skills/note-publish/lib/content-loader.mjs:59-60 | A body starting `#`, blanks, then a line of text takes that text, trimmed, as its title. |
| ContentLoader.NoHashNoHeading | skills/note-publish/lib/content-loader.mjs:59-62 | A body without `#` has no heading title. |
| ContentLoader.LineWithoutHeadingIsSkipped | skills/note-publish/lib/content-loader.mjs:59 | A first line that is not `#` followed by a blank, such as `## x`, does not change the title found in the rest. |
| ContentLoader.HashAloneReachesNextLine | skills/note-publish/lib/content-loader.mjs:59-60 | `#` alone on a line takes the next line as the title, because `\s` matches the newline. |
| ContentLoader.Tags | skills/note-publish/lib/content-loader.mjs:17 | The tags are the frontmatter `tags` when that is an array, and `[]` otherwise. |
| ContentLoader.ImagePath | skills/note-publish/lib/content-loader.mjs:18-20 | There is no image without a truthy frontmatter image. A string image is resolved against the file's directory. A truthy non-string image fails, as `path.resolve` throws. |
| ContentLoader.FirstMarkdown | skills/note-publish/lib/content-loader.mjs:39-41 | The entry found is the first one in listing order whose extension is exactly `.md` or `.mdx`. None is found only when no entry qualifies. |
| ContentLoader.ResolveFilePath | skills/note-publish/lib/content-loader.mjs:33-51 | A failing `stat`, or a failing `readdir` on a directory, rejects with that same error. A file is taken as is. A path that is neither file nor directory fails with the not-found message. A directory gives its first Markdown entry, resolved inside it, or fails with the no-Markdown message when there is none. |
| ContentLoader.LoadContent | skills/note-publish/lib/content-loader.mjs:10-27 | The load succeeds exactly when resolving, reading, frontmatter parsing and the image path all succeed. A failure in resolving, reading or parsing rejects the load with that step's own error. A loaded file is the resolved path's file. Its body is the frontmatter parser's body. Its title, tags and image path are as `ResolveTitle`, `Tags` and `ImagePath` give them. |
| ContentLoader.MissingPathRejects | tests/unit/content-loader.test.mjs:89-93 | A path whose `stat` fails (ENOENT for a missing file) rejects the load with that error, before any read. |
| MarkdownConverter.OpenTag | lib/markdown-converter.mjs:44 | A block-opening match names a tag of a letter then letters and digits, directly after `<`, followed by a blank. |
| MarkdownConverter.InlineImageFinds | lib/markdown-converter.mjs:67 | An `![alt](src)` with no `]` in alt and no `)` in src is matched as a whole at its position. |
| MarkdownConverter.KeptFromLength | lib/markdown-converter.mjs:23-64 | At most one output line is kept per input line. |
| MarkdownConverter.KeptFromSorted | lib/markdown-converter.mjs:23-64 | The kept line indices are in range and strictly increasing, so kept lines keep their order. |
| MarkdownConverter.KeptIff | lib/markdown-converter.mjs:23-64 | A line is kept exactly when the filter step, in the loop state reached just before it, keeps it. |
| MarkdownConverter.KeptLinesArePlain | lib/markdown-converter.mjs:26-63 | Every kept line is one the filter keeps outside a block: not an import, an image line, a self-closing component or a block-opening tag. |
| MarkdownConverter.ImportLineDropped | lib/markdown-converter.mjs:26-29 | A line whose left-trimmed text starts with `import ` is dropped, and the loop state is unchanged. |
| MarkdownConverter.SampleImportDropped | tests/unit/markdown-converter.test.mjs:89-93 | Example only: the import line of the converter's tests is dropped. `ImportLineDropped` states the general fact. |
| MarkdownConverter.SampleComponentDropped | tests/unit/markdown-converter.test.mjs:95-100 | Example only: the self-closing component line of the converter's tests is dropped. `KeptLinesArePlain` states the general fact. |
| MarkdownConverter.SampleImageDropped | tests/unit/markdown-converter.test.mjs:102-106 | Example only: the image line of the converter's tests is dropped. `KeptLinesArePlain` states the general fact. |
| MarkdownConverter.OpeningLine | lib/markdown-converter.mjs:43-49 | A block-opening line is dropped and starts skipping for its tag. |
| MarkdownConverter.SkippedBlock | lib/markdown-converter.mjs:43-61 | A block is dropped from its opening line through the first line starting `</Tag>`. The filter then goes on as if neither was there. |
| MarkdownConverter.UnclosedBlockDropsRest | lib/markdown-converter.mjs:53-61 | A block that is never closed drops every line after its opening. |
| MarkdownConverter.PlainKept | lib/markdown-converter.mjs:63 | Lines of no filtered kind are all kept, verbatim and in order. |
| MarkdownConverter.PlainMarkdownUnchanged | lib/markdown-converter.mjs:17-68 | Markdown with no filtered line and no inline image passes through unchanged. |
| MarkdownConverter.FilterMdxLines | lib/markdown-converter.mjs:17-68 | The output never has more line breaks than the input. |
| MdSplitter.MatchImageLine | skills/note-draft/lib/md-splitter.mjs:18 | An image line starts `![alt](path)`, where the alt has no `]` and the path is non-empty with no `)`. |
| MdSplitter.MatchImageLineComplete | skills/note-draft/lib/md-splitter.mjs:18-27 | Every such line is matched, with that alt and path, whatever follows on the line. |
| MdSplitter.StripSlash | skills/note-draft/lib/md-splitter.mjs:29-31 | Exactly one leading `/` is removed, and only if present. |
| MdSplitter.SplitAtImagesFaithful | skills/note-draft/lib/md-splitter.mjs:13-43 | The sections unfold into the input's lines in order. A line becomes an image section, with its alt and resolved path, exactly when it is an image line. Every other line sits verbatim in a text section. |
| MdSplitter.SplitAtImagesLineCount | skills/note-draft/lib/md-splitter.mjs:17-40 | The lines of the text sections plus the image sections add up to the input's line count. |
| MdSplitter.SplitAtImagesNoAdjacentText | skills/note-draft/lib/md-splitter.mjs:19-40 | No two text sections are adjacent. |
| MdSplitter.SplitAtImagesEmpty | skills/note-draft/lib/md-splitter.mjs:38-40 | The empty body is one empty text section. |
| MdSplitter.SplitLinesAllImages | skills/note-draft/lib/md-splitter.mjs:17-35 | Lines that are all image lines give only image sections, one per line. |
| MdSplitter.RegexLinesAreSplitLines | skills/note-draft/lib/md-splitter.mjs:51-53 | Without `\r`, U+2028 or U+2029, the lines the multiline regex sees are the `\n`-split lines. |
| MdSplitter.ImageSectionImpliesHasBodyImages | skills/note-draft/lib/md-splitter.mjs:51-53 | For such input, any image section means `hasBodyImages` is true. |
| MdSplitter.HasBodyImagesWithoutImageSection | skills/note-draft/lib/md-splitter.mjs:51-53 | The converse fails: `![a]()` has body images but splits into one text section. |
| MdToHtml.EscapeHtmlIsCharwise | skills/note-draft/lib/md-to-html.mjs:132-137 | Replacing `&` first, then `<` and `>`, is the same as escaping each character once. |
| MdToHtml.EscapeHtmlRoundTrip | skills/note-draft/lib/md-to-html.mjs:132-137 | Escaped text holds no `<` or `>`, and unescaping it gives back the input. |
| MdToHtml.PrefilterKeeps | skills/note-draft/lib/md-to-html.mjs:23-25 | Markdown in which no line starts with `i` or `<` is left unchanged by the pre-filter's import and component removals. |
| MdToHtml.ImportLineMatch | skills/note-draft/lib/md-to-html.mjs:24 | `import`, one blank and a non-blank rest of line: the import pattern matches through the end of that line. |
| MdToHtml.ComponentLineMatch | skills/note-draft/lib/md-to-html.mjs:25 | `<` and an upper-case letter, then text with no earlier `/>`, then `/>` and a line break before a non-blank line: the component pattern matches up to that line break. |
| MdToHtml.PrefilterDropsImportLine | skills/note-draft/lib/md-to-html.mjs:23-25 | An import line is removed, its line break stays, and the lines after it are kept unchanged when none of them starts with `i` or `<`. |
| MdToHtml.PrefilterDropsComponentLine | skills/note-draft/lib/md-to-html.mjs:23-25 | A self-closing component line is removed, its line break stays, and the lines after it are kept unchanged when the next one starts non-blank and none starts with `i` or `<`. |
| MdToHtml.BlockAt | skills/note-draft/lib/md-to-html.mjs:31-127 | Every block consumes at least its first line and stays within the input, so the loop terminates. |
| MdToHtml.ParsePartition | skills/note-draft/lib/md-to-html.mjs:31-127 | Blocks start at non-blank lines and do not overlap. They are in source order, and every non-blank line belongs to one. |
| MdToHtml.PartsAt | skills/note-draft/lib/md-to-html.mjs:48-125 | Output part `k` is the rendering of block `k`. |
| MdToHtml.MdToHtmlAllBlank | skills/note-draft/lib/md-to-html.mjs:34-37 | Whitespace-only input converts to the empty string. |
| MdToHtml.FenceClosed | skills/note-draft/lib/md-to-html.mjs:40-52 | The lines between a fence line and the next fence line form one code block. Parsing goes on after the closing fence. |
| MdToHtml.FenceUnclosed | skills/note-draft/lib/md-to-html.mjs:40-52 | An unclosed fence takes the rest of the input as code. |
| MdToHtml.TableRowsAll | skills/note-draft/lib/md-to-html.mjs:57-61 | Without alignment rows, every trimmed table line is a row, in order. |
| MdToHtml.TableRowsNone | skills/note-draft/lib/md-to-html.mjs:57-61 | Alignment rows alone leave no rows. |
| MdToHtml.RenderTableShape | skills/note-draft/lib/md-to-html.mjs:147-163 | No rows render as `''`. Otherwise the table is the first row in `th` cells, then the other rows in `td` cells. |
| MdToHtml.RowsAfterHeader | skills/note-draft/lib/md-to-html.mjs:150-160 | Every row after the first uses `td`. |
| MdToHtml.QuoteRun | skills/note-draft/lib/md-to-html.mjs:67-77 | A maximal run of `> ` lines is one quote of their bodies. Parsing goes on after the run. |
| MdToHtml.QuoteTextOfQuoteLine | skills/note-draft/lib/md-to-html.mjs:67-71 | A quote line trims to `> ` followed by the body it contributes. |
| MdToHtml.BulletRun | skills/note-draft/lib/md-to-html.mjs:80-90 | A maximal run of `-`/`*` list lines is one unordered list of their items, in order. Parsing goes on after the run. |
| MdToHtml.NumberedRun | skills/note-draft/lib/md-to-html.mjs:93-103 | A maximal run of `1.` list lines is one ordered list of their items, in order. Parsing goes on after the run. |
| MdToHtml.BulletTextOfBulletLine | skills/note-draft/lib/md-to-html.mjs:80-83 | A list item is the trimmed line with the marker and the blanks after it cut off. It is a non-empty suffix and starts with a non-blank character. |
| MdToHtml.NumberedTextOfNumberedLine | skills/note-draft/lib/md-to-html.mjs:93-96 | A list item is the trimmed line with the digits, the dot and the blanks after them cut off. It is a non-empty suffix and starts with a non-blank character. |
| MdToHtml.H3Line | skills/note-draft/lib/md-to-html.mjs:106-110 | A `### ` line is a third-level heading of the rest of the line. |
| MdToHtml.H2Line | skills/note-draft/lib/md-to-html.mjs:111-115 | A `## ` line is a second-level heading of the rest of the line. |
| MdToHtml.RuleLine | skills/note-draft/lib/md-to-html.mjs:118-122 | A line that trims to exactly `---` is a rule. |
| MdToHtml.H1LineIsParagraph | skills/note-draft/lib/md-to-html.mjs:124-126 | A `# ` line is not a heading. It becomes a paragraph of the trimmed line. |
| Auth.LoadCookiesWithRaw | lib/auth.mjs:138-153 | A cache is used exactly when the file reads and parses and is not older than 24 hours. It gives the stored dictionary and raw cookies as stored. |
| Auth.LoadCookies | lib/auth.mjs:158-161 | The cookie dictionary of a usable cache, when it has one. |
| Auth.CacheRoundTrip | lib/auth.mjs:138-175 | Cookies saved at time `t` load back unchanged up to `t` + 24 h, and not after. |
| Auth.ExpiryBoundary | lib/auth.mjs:7 | A cache exactly 24 h old is still used. One a millisecond older is not. |
| Auth.UndatedCacheNeverExpires | lib/auth.mjs:141-142 | A cache whose save time does not parse (`NaN`) is used however old it is. |
| Auth.ValidateProbe | lib/auth.mjs:186-187 | The check goes to the creators API for the username. |
| Auth.ProbeCarriesCookies | lib/auth.mjs:182-190 | The check's `Cookie` header carries exactly the cached dictionary. |
| Auth.ValidateCookies | lib/auth.mjs:180-200 | Cookies are valid exactly when the check got a 2xx response. A rejection means invalid. |
| Auth.NoteCookies | lib/auth.mjs:77-80 | The login keeps exactly the cookies whose domain contains `note.com`. |
| Auth.NoteCookiesAppend | lib/auth.mjs:77-80 | The domain filter works cookie by cookie, so order is kept. |
| Auth.CookieDictDistinct | lib/auth.mjs:82-85 | The login dictionary never holds a name twice. |
| Auth.CookieDictLookup | lib/auth.mjs:82-85 | A name's value in the dictionary is the value of its last cookie: later entries overwrite earlier ones. |
| Auth.LoginDictLookup | lib/auth.mjs:77-85 | A name's value in the login dictionary is the value of its last `note.com` cookie. |
| Auth.LoginDictEmpty | lib/auth.mjs:82-89 | The login dictionary is empty exactly when no cookie is a `note.com` cookie. |
| Auth.LoginCauseRoundTrip | lib/auth.mjs:93-95 | A login error is passed through unchanged exactly when its message contains `未設定`. Otherwise it gets the `ログインに失敗しました: ` prefix, and its cause can be read back. |
| Auth.CredentialsMessageIsMarked | lib/auth.mjs:42-46 | The missing-credentials message contains `未設定`, so it passes through the login's `catch` unchanged. |
| Auth.LoginWithPlaywright | lib/auth.mjs:39-99 | Missing credentials fail before any browser. Once the browser launches it is always closed. Login succeeds exactly when the session works and some `note.com` cookie exists. It returns the dictionary and the filtered raw cookies. Every error is the pass-through message or carries the login prefix. |
| Auth.Relogin | lib/auth.mjs:129-131 | The fallback logs in. On success it saves both formats as its last step. |
| Auth.Authenticate | lib/auth.mjs:14-34 | A missing username fails before the cache is read. The cache is checked only when one loads. The cached dictionary is returned without a login exactly when it loads and validates. Otherwise the login's dictionary is returned, saved last. |
| Auth.AuthenticateWithRaw | lib/auth.mjs:106-132 | A missing username fails before the cache is read. The cache is reused without a login exactly when its dictionary validates and its raw cookies are non-empty. Otherwise the login's result is returned and, on success, saved last. |
| Auth.SavedLoginIsReused | lib/auth.mjs:115-131 | After a login, a second call within 24 hours with a passing check reuses what the first saved, with no login. |
| Auth.SavedCookiesAreReused | lib/auth.mjs:22-26 | Cookies saved within 24 hours that pass the check are returned as saved, with no login. |
| PlaywrightPublisher.ProcessSections | lib/playwright-publisher.mjs:132-178 | The section loop emits the section-by-section action trace. Its image counter ends at the number of image sections. |
| PlaywrightPublisher.SectionsInOrder | lib/playwright-publisher.mjs:133-178 | Each section is handled once, in order. The trace of `a + b` is the trace of `a`, then the trace of `b` with image numbers continuing. |
| PlaywrightPublisher.ImagesNumberedInOrder | lib/playwright-publisher.mjs:51-171 | The images uploaded are exactly the image sections' paths, in order, numbered 1, 2, ... up to the image count. |
| PlaywrightPublisher.BodyActionsKinds | lib/playwright-publisher.mjs:136-177 | The section loop only pastes HTML and uploads images. |
| PlaywrightPublisher.BlankTextSkipped | lib/playwright-publisher.mjs:136-149 | A text section emits nothing exactly when its HTML trims to `''`, as it does for a blank section. Otherwise it pastes that HTML once. |
| PlaywrightPublisher.NoteKey | lib/playwright-publisher.mjs:186 | A key read off the editor URL is `n` followed by at least one of `[a-f0-9]`. |
| PlaywrightPublisher.EditorUrlGivesNoteUrl | lib/playwright-publisher.mjs:185-189 | Take an editor URL `https://editor.note.com/notes/{key}` followed by nothing or by a non-hex character. It gives the public URL of that key. |
| PlaywrightPublisher.NoteUrlOf | lib/playwright-publisher.mjs:187-189 | Without a key in the editor URL, the editor URL itself is reported. |
| PlaywrightPublisher.PublishWithImages | lib/playwright-publisher.mjs:39-194 | Corrected definition (see ## Findings): Missing credentials, then a missing username, fail with no browser action. The browser launches exactly when both are set, and launching is the first action. Any run that gets past the launch ends by closing the browser, whether it succeeds or fails. A run that stops at the launch failed there. |
| PlaywrightPublisher.PublishWithImagesAsWritten | lib/playwright-publisher.mjs:39-194 | The code as written: the same checks before any browser action, and the launch is the first action. A run that got past the launch ends by closing the browser exactly when it did not fail at the launch or at the page setup (`newContext`, `newPage`, `setDefaultTimeout`, which run before the `try`). A failure in the page setup leaves the browser open. |
| PlaywrightPublisher.PublishSucceeds | lib/playwright-publisher.mjs:64-191 | A run without failures logs in, navigates, sets the header and title, clears the body, runs the section loop, saves, closes, and reports the URL read off the editor. |
| PlaywrightPublisher.HeaderImageOnlyForNewArticles | lib/playwright-publisher.mjs:93-114 | The header image is set exactly when there is no draft URL and a header image path is given, and with that path. |
| PlaywrightPublisher.TitleOnlyForNewArticles | lib/playwright-publisher.mjs:117-120 | The title is typed exactly when there is no draft URL and the title is non-empty, and it is that title. |
| PlaywrightPublisher.PageSetupFailureLeaksBrowser | lib/playwright-publisher.mjs:56-64 | As written: a browser that launched and then failed to open its page is never closed. |

## Left out

- `fetch`, the file system, Playwright, gray-matter, `path.resolve`/`dirname`/`basename`/`extname`, `Date.now` and `setTimeout` are oracles or function parameters, as described above. `console.log` output is not modelled.
- `inlineFmt` (skills/note-draft/lib/md-to-html.mjs:139-145) is an uninterpreted `string -> string` function. Its regexes use lookbehind and lazy matching.
- `convert` (lib/markdown-converter.mjs:79-88) runs the unified/remark pipeline, a foreign library. Only `filterMdx` is modelled.
- Not modelled, because they only drive the browser and hold no logic of their own to state:
  - `setHashtags` (lib/hashtag.mjs:37-67);
  - `getLocator`, `openArticlePublishPage`, `openArticleEditor` and `closeBrowser` (lib/browser.mjs:44-141);
  - lib/publish-action.mjs.
- lib/selectors.mjs and skills/note-automation/lib/selectors.mjs are configuration constants.
- The scripts under scripts/ and skills/note-draft/scripts/ parse CLI arguments, load `.env` and print. They are outside the model. So are the contract tests, which call the live API.
- The `User-Agent`, `Content-Type` and `X-Requested-With` headers are fixed and not modelled. Payloads are a datatype, not JSON text.
- lib/playwright-publisher.mjs imports `./md-splitter.mjs` and `./md-to-html.mjs` from lib/. Those two files are not part of this model. The skills/note-draft/lib versions stand in for them.
- PlaywrightPublisher.PublishWithImages: each editor step is one action. Left out:
  - fixed waits, keyboard presses, clipboard writes and file choosers;
  - the crop dialog, whose failure the source swallows (lib/playwright-publisher.mjs:105-112). A `Page` that does not throw at the header step covers it.
  - A non-string `title` is modelled as the empty string.
- Http.Reply: the body is always readable. When `response.text()` fails, both callers substitute `''` (lib/note-api.mjs:113-119, lib/image-uploader.mjs:63). The model represents that case by an empty body, which gives the same message.
- Http.JsonSyntaxError: the message of `response.json()` on a non-JSON body comes from the JavaScript engine. The model uses a fixed placeholder text.
- ImageUploader.UploadImage: ASCII lower-casing stands in for `toLowerCase` (lib/image-uploader.mjs:22). Extensions with non-ASCII letters may lower-case differently in the source. This affects at most the text of the unsupported-format message.
- Http.FormatCookieHeader: cookie dictionaries keep insertion order. JavaScript enumerates integer-like keys first, in ascending order, so a cookie named like `123` would move to the front of the header in the source.
- Auth.CookieDict: same as above. Overwriting a name keeps its first position, as in JavaScript, but integer-like names are not moved to the front.
- Http.Data: `data.id` is an integer and `data.key` a string. The source accepts any truthy value there (lib/note-api.mjs:179-188).
- ImageUploader.ReadResponse: a JSON body of `null` makes `json.data` throw a `TypeError` in the source (lib/image-uploader.mjs:70). The model has no `null` document, so it reports an unexpected response instead.
- Auth.Authenticate: `saveCookies` (lib/auth.mjs:166-175) always succeeds. Failures of `mkdir`, `writeFile` or `chmod` are not modelled, and neither are file permissions.
- Auth.LoginWithPlaywright: `browser.close()` (lib/auth.mjs:97) always succeeds. The login form steps collapse into one session outcome.
- Js.Value: numbers are integers, apart from `NaN`. The fractions, infinities and `-0` a parsed file could hold are not modelled.

## Findings

| source | as written | input that shows it | evidently intended | confidence | as-written member | corrected member |
|---|---|---|---|---|---|---|
| lib/playwright-publisher.mjs:56-64 | The browser launches, then `newContext`, `newPage` and `setDefaultTimeout` run before the `try` whose `finally` closes it. | `newContext` or `newPage` rejects, which is step 1 of the run: the browser is left running. | The browser is closed on every path after launch, as `loginWithPlaywright` does by declaring it before its `try` (lib/auth.mjs:48-98). | medium, not executed | PlaywrightPublisher.PageSetupFailureLeaksBrowser | PlaywrightPublisher.PublishWithImages |

=== FILE: auth.dfy ===
/** The note.com session of lib/auth.mjs: a cookie cache on disk that is
    trusted for 24 hours and re-checked against the creators API, and a
    headless-browser login that rebuilds it. The file system, the clock,
    the validation request and the browser run are parameters: a
    `CacheFile` is what the cache file parses to, `now` is `Date.now()`, an
    `Outcome` is the one validation `fetch`, and a `BrowserRun` says how far
    the browser got and which cookies it ended with. */
module Auth {
  import opened Results
  import opened Strings
  import opened Http

  const CookieMaxAgeMs: int := 24 * 60 * 60 * 1000
  const ApiBase: string := "https://note.com/api"
  const CreatorsPath: string := "/v2/creators/"
  const NoteDomain: string := "note.com"

  /** Messages carrying this word ("not set") leave the login unwrapped. */
  const NotSetMarker: string := "未設定"
  const NotSetAdvice: string := "です。.env ファイルを確認してください"
  const UsernameMissing: string := "NOTE_USERNAME が" + NotSetMarker + NotSetAdvice
  const CredentialsSubject: string := "NOTE_EMAIL / NOTE_PASSWORD が"
  const CredentialsMissing: string := CredentialsSubject + NotSetMarker + NotSetAdvice
  const NoCookiesAfterLogin: string := "ログイン後にCookieを取得できませんでした"
  const LoginFailedPrefix: string := "ログインに失敗しました: "

  /** `sub` occurs in `s` at position `i`. */
  predicate IncludesAt(s: string, sub: string, i: nat)
  {
    i + |sub| <= |s| && s[i..i + |sub|] == sub
  }

  /** `s.includes(sub)` */
  predicate Includes(s: string, sub: string)
  {
    exists i :: 0 <= i <= |s| && IncludesAt(s, sub, i)
  }

  // ------------------------------------------------------------ environment

  /** The three variables the module reads from `process.env`. */
  datatype Env = Env(username: Option<string>, email: Option<string>, password: Option<string>)

  /** A variable is usable when it is defined and not empty (`!v` is false). */
  predicate IsSet(v: Option<string>)
  {
    v.Some? && v.value != ""
  }

  // ----------------------------------------------------------- cookie cache

  /** A cookie as the browser context reports it (the fields read here). */
  datatype RawCookie = RawCookie(name: string, value: string, domain: string)

  /** What reading and `JSON.parse`-ing the cache file gives. `Unreadable`
      covers a missing or unreadable file, text that is not JSON and JSON
      that has no fields to read (the loader's `catch` turns each into
      `null`). In `Stored`, `savedAt` is `new Date(data.savedAt).getTime()`,
      `None` when that is `NaN`; `cookies` and `rawCookies` are `None` when
      the field is missing or falsy. */
  datatype CacheFile =
    | Unreadable
    | Stored(savedAt: Option<int>, cookies: Option<Cookies>, rawCookies: Option<seq<RawCookie>>)

  datatype Saved = Saved(cookies: Option<Cookies>, rawCookies: Option<seq<RawCookie>>)

  /** `Date.now() - savedAt > COOKIE_MAX_AGE_MS`; any comparison with `NaN`
      is false, so an undated cache never counts as expired. */
  predicate Expired(savedAt: Option<int>, now: int)
  {
    savedAt.Some? && now - savedAt.value > CookieMaxAgeMs
  }

  /** `loadCookiesWithRaw()` */
  function LoadCookiesWithRaw(file: CacheFile, now: int): (r: Option<Saved>)
    ensures r.Some? <==> file.Stored? && !Expired(file.savedAt, now)
    ensures r.Some? ==> r.value.cookies == file.cookies && r.value.rawCookies == file.rawCookies
  {
    match file
    case Unreadable => None
    case Stored(savedAt, cookies, rawCookies) =>
      if Expired(savedAt, now) then None else Some(Saved(cookies, rawCookies))
  }

  /** `loadCookies()`: the cookie dictionary of a usable cache. */
  function LoadCookies(file: CacheFile, now: int): (r: Option<Cookies>)
    ensures r.Some? <==> file.Stored? && !Expired(file.savedAt, now) && file.cookies.Some?
    ensures r.Some? ==> r == file.cookies
  {
    var saved := LoadCookiesWithRaw(file, now);
    if saved.Some? then saved.value.cookies else None
  }

  /** `saveCookies(cookies, rawCookies)` at time `at`: the file then holds
      both values and the save time. */
  function SaveCookies(cookies: Cookies, rawCookies: seq<RawCookie>, at: int): CacheFile
  {
    Stored(Some(at), Some(cookies), Some(rawCookies))
  }

  /** What is saved reads back, both halves, until 24 hours have passed and
      not after. */
  lemma CacheRoundTrip(cookies: Cookies, rawCookies: seq<RawCookie>, at: int, now: int)
    ensures now - at <= CookieMaxAgeMs ==>
      LoadCookiesWithRaw(SaveCookies(cookies, rawCookies, at), now) == Some(Saved(Some(cookies), Some(rawCookies)))
    ensures now - at > CookieMaxAgeMs ==>
      LoadCookiesWithRaw(SaveCookies(cookies, rawCookies, at), now) == None
  {
  }

  /** The boundary: a cache exactly 24 hours old is still used, one a
      millisecond older is not. */
  lemma ExpiryBoundary(cookies: Cookies, rawCookies: seq<RawCookie>, at: int)
    ensures LoadCookies(SaveCookies(cookies, rawCookies, at), at + 86400000) == Some(cookies)
    ensures LoadCookies(SaveCookies(cookies, rawCookies, at), at + 86400001) == None
  {
  }

  /** A cache whose save time does not parse is used however old it is. */
  lemma UndatedCacheNeverExpires(cookies: Option<Cookies>, rawCookies: Option<seq<RawCookie>>, now: int)
    ensures LoadCookiesWithRaw(Stored(None, cookies, rawCookies), now) == Some(Saved(cookies, rawCookies))
  {
  }

  // ------------------------------------------------------------- validation

  /** The request `validateCookies` sends: its URL and `Cookie` header. */
  datatype Probe = Probe(url: string, cookieHeader: string)

  function ValidateProbe(cookies: Cookies, username: string): (p: Probe)
    ensures StartsWith(p.url, ApiBase + CreatorsPath) && p.url[|ApiBase + CreatorsPath|..] == username
  {
    Probe(ApiBase + CreatorsPath + username, FormatCookieHeader(cookies))
  }

  /** The probe carries exactly the cookies it was built from, when their
      names and values can travel in a header. */
  lemma ProbeCarriesCookies(cookies: Cookies, username: string)
    requires HeaderSafe(cookies)
    ensures ParseCookieHeader(ValidateProbe(cookies, username).cookieHeader) == cookies
  {
    CookieHeaderRoundTrip(cookies);
  }

  /** `validateCookies`: `response.ok`, and `false` when `fetch` rejects. */
  function ValidateCookies(o: Outcome): (valid: bool)
    ensures valid <==> o.Got? && 200 <= o.reply.status <= 299
  {
    match o
    case Got(reply, _) => IsOk(reply)
    case NetErr(_, _) => false
  }

  // -------------------------------------------------------------- login

  /** How the browser session went. `launchError`: importing Playwright or
      launching Chromium rejected, so no browser exists. `sessionError`: a
      later step (context, page, navigation, form, click, redirect wait,
      cookie read) rejected. Otherwise the context ended with `cookies`. */
  datatype BrowserRun = BrowserRun(launchError: Option<string>, sessionError: Option<string>, cookies: seq<RawCookie>)

  /** The observable effects of authenticating, in order. */
  datatype Event =
    | ReadCache
    | Validate(probe: Probe)
    | Launch
    | Close
    | Save(cookies: Cookies, rawCookies: seq<RawCookie>)

  datatype Session<+T> = Session(result: Result<T>, events: seq<Event>)

  predicate IsNoteCookie(c: RawCookie)
  {
    Includes(c.domain, NoteDomain)
  }

  /** `allCookies.filter(c => c.domain.includes('note.com'))` */
  function NoteCookies(cs: seq<RawCookie>): (r: seq<RawCookie>)
    ensures |r| <= |cs|
    ensures forall c :: c in r <==> c in cs && IsNoteCookie(c)
  {
    if |cs| == 0 then []
    else
      var last := cs[|cs| - 1];
      assert cs == cs[..|cs| - 1] + [last];
      NoteCookies(cs[..|cs| - 1]) + (if IsNoteCookie(last) then [last] else [])
  }

  /** The filter keeps the order of the cookies: it distributes over
      concatenation. */
  lemma {:induction false} NoteCookiesAppend(a: seq<RawCookie>, b: seq<RawCookie>)
    ensures NoteCookies(a + b) == NoteCookies(a) + NoteCookies(b)
    decreases |b|
  {
    if |b| == 0 {
      assert a + b == a;
    } else {
      var ab := a + b;
      var init := b[..|b| - 1];
      assert ab[..|ab| - 1] == a + init;
      assert ab[|ab| - 1] == b[|b| - 1];
      NoteCookiesAppend(a, init);
      var tail := if IsNoteCookie(b[|b| - 1]) then [b[|b| - 1]] else [];
      assert NoteCookies(ab) == NoteCookies(a + init) + tail;
      assert NoteCookies(b) == NoteCookies(init) + tail;
      AppendAssoc(NoteCookies(a), NoteCookies(init), tail);
    }
  }

  /** A single cookie is kept exactly when its domain contains `note.com`. */
  lemma NoteCookiesOne(c: RawCookie)
    ensures NoteCookies([c]) == if IsNoteCookie(c) then [c] else []
  {
    assert [c][..0] == [];
  }

  /** `dict[name] = value` on a dictionary kept as its entries: an existing
      key keeps its place and takes the new value, a new key goes last. */
  function Assign(d: Cookies, name: string, value: string): (r: Cookies)
    ensures |r| >= 1
  {
    if |d| == 0 then [(name, value)]
    else if d[0].0 == name then [(name, value)] + d[1..]
    else [d[0]] + Assign(d[1..], name, value)
  }

  /** The login loop `for (const c of noteCookies) cookieDict[c.name] = c.value`. */
  function CookieDict(cs: seq<RawCookie>): (d: Cookies)
    ensures |d| == 0 <==> |cs| == 0
  {
    if |cs| == 0 then []
    else
      var last := cs[|cs| - 1];
      Assign(CookieDict(cs[..|cs| - 1]), last.name, last.value)
  }

  /** `dict[name]`: the value of the entry with that key. */
  function Lookup(d: Cookies, name: string): Option<string>
  {
    if |d| == 0 then None
    else if d[0].0 == name then Some(d[0].1)
    else Lookup(d[1..], name)
  }

  /** Independent reading of the loop: a name maps to the value of the last
      cookie that carries it. */
  function LastValue(cs: seq<RawCookie>, name: string): Option<string>
  {
    if |cs| == 0 then None
    else if cs[|cs| - 1].name == name then Some(cs[|cs| - 1].value)
    else LastValue(cs[..|cs| - 1], name)
  }

  /** The value of the last `note.com` cookie with that name. */
  function LastNoteValue(cs: seq<RawCookie>, name: string): Option<string>
  {
    if |cs| == 0 then None
    else if IsNoteCookie(cs[|cs| - 1]) && cs[|cs| - 1].name == name then Some(cs[|cs| - 1].value)
    else LastNoteValue(cs[..|cs| - 1], name)
  }

  predicate DistinctKeys(d: Cookies)
  {
    forall i, j :: 0 <= i < j < |d| ==> d[i].0 != d[j].0
  }

  /** A key is absent exactly when no entry carries it. */
  lemma {:induction false} LookupNone(d: Cookies, name: string)
    ensures Lookup(d, name).None? <==> forall j :: 0 <= j < |d| ==> d[j].0 != name
  {
    if |d| > 0 && d[0].0 != name {
      LookupNone(d[1..], name);
      forall j | 1 <= j < |d|
        ensures d[j].0 == d[1..][j - 1].0
      {
      }
    }
  }

  /** Assigning a key changes what that key reads and nothing else. */
  lemma {:induction false} AssignLookup(d: Cookies, name: string, value: string, key: string)
    ensures Lookup(Assign(d, name, value), key) == if key == name then Some(value) else Lookup(d, key)
  {
    if |d| > 0 && d[0].0 != name {
      AssignLookup(d[1..], name, value, key);
    }
  }

  /** Assigning keeps the keys distinct. */
  lemma {:induction false} AssignDistinct(d: Cookies, name: string, value: string)
    requires DistinctKeys(d)
    ensures DistinctKeys(Assign(d, name, value))
  {
    var r := Assign(d, name, value);
    if |d| > 0 {
      if d[0].0 == name {
        assert forall i :: 0 <= i < |r| ==> r[i].0 == d[i].0;
      } else {
        var e := d[1..];
        var a := Assign(e, name, value);
        assert DistinctKeys(e) by {
          forall i, j | 0 <= i < j < |e| ensures e[i].0 != e[j].0 {
            assert e[i] == d[i + 1] && e[j] == d[j + 1];
          }
        }
        AssignDistinct(e, name, value);
        AssignLookup(e, name, value, d[0].0);
        assert Lookup(e, d[0].0).None? by {
          LookupNone(e, d[0].0);
          forall j | 0 <= j < |e| ensures e[j].0 != d[0].0 {
            assert e[j] == d[j + 1];
          }
        }
        LookupNone(a, d[0].0);
        assert r == [d[0]] + a;
        forall i, j | 0 <= i < j < |r|
          ensures r[i].0 != r[j].0
        {
          assert r[j] == a[j - 1];
          if i > 0 {
            assert r[i] == a[i - 1];
          }
        }
      }
    }
  }

  /** The dictionary never holds a key twice. */
  lemma {:induction false} CookieDictDistinct(cs: seq<RawCookie>)
    ensures DistinctKeys(CookieDict(cs))
  {
    if |cs| > 0 {
      var last := cs[|cs| - 1];
      CookieDictDistinct(cs[..|cs| - 1]);
      AssignDistinct(CookieDict(cs[..|cs| - 1]), last.name, last.value);
    }
  }

  /** Last write wins: each name reads the value of the last cookie with
      that name, and names no cookie carries are absent. */
  lemma {:induction false} CookieDictLookup(cs: seq<RawCookie>, name: string)
    ensures Lookup(CookieDict(cs), name) == LastValue(cs, name)
  {
    if |cs| > 0 {
      var last := cs[|cs| - 1];
      CookieDictLookup(cs[..|cs| - 1], name);
      AssignLookup(CookieDict(cs[..|cs| - 1]), last.name, last.value, name);
    }
  }

  /** A name has a value exactly when some cookie carries it. */
  lemma {:induction false} LastValueNone(cs: seq<RawCookie>, name: string)
    ensures LastValue(cs, name).None? <==> forall i :: 0 <= i < |cs| ==> cs[i].name != name
  {
    if |cs| > 0 && cs[|cs| - 1].name != name {
      var init := cs[..|cs| - 1];
      LastValueNone(init, name);
      assert forall i :: 0 <= i < |init| ==> init[i] == cs[i];
    }
  }

  /** Filtering then reading the last value is reading the last `note.com`
      value. */
  lemma {:induction false} LastValueOfNoteCookies(cs: seq<RawCookie>, name: string)
    ensures LastValue(NoteCookies(cs), name) == LastNoteValue(cs, name)
  {
    if |cs| > 0 {
      var init := cs[..|cs| - 1];
      var last := cs[|cs| - 1];
      var kept := NoteCookies(init);
      LastValueOfNoteCookies(init, name);
      if IsNoteCookie(last) {
        var all := kept + [last];
        assert NoteCookies(cs) == all;
        assert all[|all| - 1] == last && all[..|all| - 1] == kept;
      } else {
        assert kept + [] == kept;
        assert NoteCookies(cs) == kept;
        assert LastNoteValue(cs, name) == LastNoteValue(init, name);
      }
    }
  }

  /** The login dictionary maps each name to the value of the last
      `note.com` cookie with that name; cookies of other domains play no
      part. */
  lemma LoginDictLookup(cs: seq<RawCookie>, name: string)
    ensures Lookup(CookieDict(NoteCookies(cs)), name) == LastNoteValue(cs, name)
  {
    CookieDictLookup(NoteCookies(cs), name);
    LastValueOfNoteCookies(cs, name);
  }

  /** The login dictionary is empty exactly when no cookie belongs to
      `note.com`. */
  lemma LoginDictEmpty(cs: seq<RawCookie>)
    ensures |CookieDict(NoteCookies(cs))| == 0 <==> forall i :: 0 <= i < |cs| ==> !IsNoteCookie(cs[i])
  {
    var kept := NoteCookies(cs);
    if |kept| > 0 {
      assert kept[0] in kept;
    } else {
      forall i | 0 <= i < |cs| ensures !IsNoteCookie(cs[i]) {
        assert cs[i] in cs;
      }
    }
  }

  /** `err.message.includes('未設定') ? err : new Error(prefix + message)` */
  function WrapLoginError(msg: string): string
  {
    if Includes(msg, NotSetMarker) then msg else LoginFailedPrefix + msg
  }

  /** Recovers the cause from a login failure message. */
  function LoginCause(msg: string): string
  {
    if !Includes(msg, NotSetMarker) && StartsWith(msg, LoginFailedPrefix) then msg[|LoginFailedPrefix|..]
    else msg
  }

  /** The prefix holds no part of the marker, so prefixing a message cannot
      make it carry the marker. */
  lemma PrefixAddsNoMarker(msg: string)
    requires !Includes(msg, NotSetMarker)
    ensures !Includes(LoginFailedPrefix + msg, NotSetMarker)
  {
    var s := LoginFailedPrefix + msg;
    var n := |LoginFailedPrefix|;
    assert forall k :: 0 <= k < n ==> LoginFailedPrefix[k] != NotSetMarker[0];
    forall i | 0 <= i <= |s|
      ensures !IncludesAt(s, NotSetMarker, i)
    {
      if i < n {
        assert s[i] == LoginFailedPrefix[i];
        if i + |NotSetMarker| <= |s| {
          assert s[i..i + |NotSetMarker|][0] == s[i];
        }
      } else if i + |NotSetMarker| <= |s| {
        var j := i - n;
        assert s[i..i + |NotSetMarker|] == msg[j..j + |NotSetMarker|];
        assert !IncludesAt(msg, NotSetMarker, j);
      }
    }
  }

  /** A message is passed through unchanged exactly when it carries the
      marker, and the cause can always be read back from the wrapped
      message. */
  lemma LoginCauseRoundTrip(msg: string)
    ensures WrapLoginError(msg) == msg <==> Includes(msg, NotSetMarker)
    ensures LoginCause(WrapLoginError(msg)) == msg
  {
    if !Includes(msg, NotSetMarker) {
      PrefixAddsNoMarker(msg);
      assert |WrapLoginError(msg)| > |msg|;
      assert (LoginFailedPrefix + msg)[|LoginFailedPrefix|..] == msg;
    }
  }

  lemma CredentialsMessageIsMarked()
    ensures Includes(CredentialsMissing, NotSetMarker)
  {
    var n := |CredentialsSubject|;
    assert CredentialsMissing[n..n + |NotSetMarker|] == NotSetMarker;
    assert IncludesAt(CredentialsMissing, NotSetMarker, n);
  }

  /** `loginWithPlaywright()`: the credentials are checked before anything is
      launched; a launched browser is always closed; the login succeeds with
      the `note.com` cookies, as a dictionary and as they came. */
  function LoginWithPlaywright(env: Env, run: BrowserRun): (r: Session<(Cookies, seq<RawCookie>)>)
    ensures !IsSet(env.email) || !IsSet(env.password) ==> r == Session(Err(CredentialsMissing), [])
    ensures Launch in r.events <==> IsSet(env.email) && IsSet(env.password) && run.launchError.None?
    ensures Launch in r.events ==> r.events == [Launch, Close]
    ensures Launch !in r.events ==> r.events == []
    ensures r.result.Ok? <==>
              && IsSet(env.email) && IsSet(env.password) && run.launchError.None? && run.sessionError.None?
              && exists i :: 0 <= i < |run.cookies| && IsNoteCookie(run.cookies[i])
    ensures r.result.Ok? ==> r.result.value == (CookieDict(NoteCookies(run.cookies)), NoteCookies(run.cookies))
    ensures r.result.Ok? ==> |r.result.value.1| > 0
    ensures r.result.Err? ==> Includes(r.result.msg, NotSetMarker) || StartsWith(r.result.msg, LoginFailedPrefix)
  {
    CredentialsMessageIsMarked();
    LoginDictEmpty(run.cookies);
    if !IsSet(env.email) || !IsSet(env.password) then Session(Err(CredentialsMissing), [])
    else if run.launchError.Some? then Session(Err(WrapLoginError(run.launchError.value)), [])
    else if run.sessionError.Some? then Session(Err(WrapLoginError(run.sessionError.value)), [Launch, Close])
    else
      var noteCookies := NoteCookies(run.cookies);
      var dict := CookieDict(noteCookies);
      if |dict| == 0 then Session(Err(WrapLoginError(NoCookiesAfterLogin)), [Launch, Close])
      else Session(Ok((dict, noteCookies)), [Launch, Close])
  }

  // ----------------------------------------------------------- entry points

  /** Logs in after the events `before` and, on success, saves before
      returning. */
  function Relogin(env: Env, run: BrowserRun, before: seq<Event>): (r: Session<(Cookies, seq<RawCookie>)>)
    ensures r.result == LoginWithPlaywright(env, run).result
    ensures |r.events| >= |before| && r.events[..|before|] == before
    ensures Launch in r.events <==> Launch in before || Launch in LoginWithPlaywright(env, run).events
    ensures r.result.Ok? ==> r.events[|r.events| - 1] == Save(r.result.value.0, r.result.value.1)
    ensures r.result.Err? ==> r.events == before + LoginWithPlaywright(env, run).events
  {
    var login := LoginWithPlaywright(env, run);
    match login.result
    case Err(m) => Session(Err(m), before + login.events)
    case Ok(p) =>
      assert (before + login.events + [Save(p.0, p.1)])[..|before|] == before;
      Session(Ok(p), before + login.events + [Save(p.0, p.1)])
  }

  /** The cache `authenticate` reuses: loaded, and accepted by the API. */
  predicate Reusable(file: CacheFile, now: int, validation: Outcome)
  {
    LoadCookies(file, now).Some? && ValidateCookies(validation)
  }

  /** `authenticate()` */
  function Authenticate(env: Env, file: CacheFile, now: int, validation: Outcome, run: BrowserRun)
    : (r: Session<Cookies>)
    ensures !IsSet(env.username) ==> r == Session(Err(UsernameMissing), [])
    ensures IsSet(env.username) ==> |r.events| >= 1 && r.events[0] == ReadCache
    ensures (exists probe :: Validate(probe) in r.events)
              <==> IsSet(env.username) && LoadCookies(file, now).Some?
    ensures r.result.Ok? && Launch !in r.events <==> IsSet(env.username) && Reusable(file, now, validation)
    ensures IsSet(env.username) && Reusable(file, now, validation) ==> r.result == Ok(LoadCookies(file, now).value)
    ensures IsSet(env.username) && !Reusable(file, now, validation) ==>
              && (r.result.Ok? <==> LoginWithPlaywright(env, run).result.Ok?)
              && (r.result.Ok? ==>
                    && r.result.value == LoginWithPlaywright(env, run).result.value.0
                    && r.events[|r.events| - 1] == Save(r.result.value, LoginWithPlaywright(env, run).result.value.1))
  {
    if !IsSet(env.username) then Session(Err(UsernameMissing), [])
    else
      var saved := LoadCookies(file, now);
      if saved.None? then
        var s := Relogin(env, run, [ReadCache]);
        Session(if s.result.Ok? then Ok(s.result.value.0) else Err(s.result.msg), s.events)
      else
        var checked := [ReadCache, Validate(ValidateProbe(saved.value, env.username.value))];
        if ValidateCookies(validation) then Session(Ok(saved.value), checked)
        else
          var s := Relogin(env, run, checked);
          Session(if s.result.Ok? then Ok(s.result.value.0) else Err(s.result.msg), s.events)
  }

  /** The cache `authenticateWithRaw` reuses: loaded with a cookie
      dictionary, accepted by the API, and holding raw cookies. */
  predicate ReusableWithRaw(file: CacheFile, now: int, validation: Outcome)
  {
    var saved := LoadCookiesWithRaw(file, now);
    && saved.Some? && saved.value.cookies.Some? && ValidateCookies(validation)
    && saved.value.rawCookies.Some? && |saved.value.rawCookies.value| > 0
  }

  /** `authenticateWithRaw()` */
  function AuthenticateWithRaw(env: Env, file: CacheFile, now: int, validation: Outcome, run: BrowserRun)
    : (r: Session<(Cookies, seq<RawCookie>)>)
    ensures !IsSet(env.username) ==> r == Session(Err(UsernameMissing), [])
    ensures IsSet(env.username) ==> |r.events| >= 1 && r.events[0] == ReadCache
    ensures r.result.Ok? && Launch !in r.events <==> IsSet(env.username) && ReusableWithRaw(file, now, validation)
    ensures IsSet(env.username) && ReusableWithRaw(file, now, validation) ==>
              r.result == Ok((LoadCookiesWithRaw(file, now).value.cookies.value,
                              LoadCookiesWithRaw(file, now).value.rawCookies.value))
    ensures IsSet(env.username) && !ReusableWithRaw(file, now, validation) ==>
              && r.result == LoginWithPlaywright(env, run).result
              && (r.result.Ok? ==> r.events[|r.events| - 1] == Save(r.result.value.0, r.result.value.1))
  {
    if !IsSet(env.username) then Session(Err(UsernameMissing), [])
    else
      var saved := LoadCookiesWithRaw(file, now);
      if saved.None? || saved.value.cookies.None? then Relogin(env, run, [ReadCache])
      else
        var cookies := saved.value.cookies.value;
        var checked := [ReadCache, Validate(ValidateProbe(cookies, env.username.value))];
        var raw := saved.value.rawCookies;
        if ValidateCookies(validation) && raw.Some? && |raw.value| > 0 then Session(Ok((cookies, raw.value)), checked)
        else Relogin(env, run, checked)
  }

  /** What a login saved is reused, without a browser, by a later
      `authenticateWithRaw` within 24 hours that the API accepts: a
      successful login always saves raw cookies. */
  lemma SavedLoginIsReused(env: Env, file: CacheFile, now: int, validation: Outcome, run: BrowserRun,
                           later: int, validation2: Outcome, run2: BrowserRun)
    requires IsSet(env.username)
    requires !ReusableWithRaw(file, now, validation) && LoginWithPlaywright(env, run).result.Ok?
    requires later - now <= CookieMaxAgeMs && ValidateCookies(validation2)
    ensures var first := AuthenticateWithRaw(env, file, now, validation, run);
            var saved := SaveCookies(first.result.value.0, first.result.value.1, now);
            && first.events[|first.events| - 1] == Save(first.result.value.0, first.result.value.1)
            && AuthenticateWithRaw(env, saved, later, validation2, run2) == Session(first.result, [ReadCache,
                 Validate(ValidateProbe(first.result.value.0, env.username.value))])
  {
    var first := AuthenticateWithRaw(env, file, now, validation, run);
    var saved := SaveCookies(first.result.value.0, first.result.value.1, now);
    CacheRoundTrip(first.result.value.0, first.result.value.1, now, later);
    assert ReusableWithRaw(saved, later, validation2);
  }

  /** Cookies saved by `authenticate` are reused by a later call within 24
      hours that the API accepts. */
  lemma SavedCookiesAreReused(env: Env, cookies: Cookies, raw: seq<RawCookie>, at: int, now: int,
                              validation: Outcome, run: BrowserRun)
    requires IsSet(env.username) && now - at <= CookieMaxAgeMs && ValidateCookies(validation)
    ensures Authenticate(env, SaveCookies(cookies, raw, at), now, validation, run)
            == Session(Ok(cookies), [ReadCache, Validate(ValidateProbe(cookies, env.username.value))])
  {
    CacheRoundTrip(cookies, raw, at, now);
  }
}

=== FILE: browser.dfy ===
/** `parseArticleInput` of lib/browser.mjs: an article URL or a bare article
    key, as typed on the command line, becomes the article key. */
module Browser {
  import opened Results
  import opened Strings
  import opened Scan
  import opened Js
  import NoteApi

  const InvalidInputPrefix: string := "記事の指定形式が不正です: "

  /** `[a-z0-9]` */
  predicate IsKeyChar(c: char)
  {
    IsLower(c) || IsDigit(c)
  }

  /** `/^n[a-z0-9]+$/` */
  predicate IsArticleKey(s: string)
  {
    |s| >= 2 && s[0] == 'n' && forall i :: 1 <= i < |s| ==> IsKeyChar(s[i])
  }

  /** The key a trimmed input names: the `[a-z0-9]+` run after its first
      `/n/`, else the whole input if it is a key. */
  function KeyIn(trimmed: string): (r: Option<string>)
    ensures r.Some? ==> |r.value| >= 1 && forall k :: 0 <= k < |r.value| ==> IsKeyChar(r.value[k])
    ensures r.None? <==> FindRun(trimmed, 0, "/n/", IsKeyChar).None? && !IsArticleKey(trimmed)
  {
    match FindRun(trimmed, 0, "/n/", IsKeyChar)
    case Some(q) => Some(RunAfter(trimmed, q, "/n/", IsKeyChar))
    case None => if IsArticleKey(trimmed) then Some(trimmed) else None
  }

  /** `parseArticleInput(input)`: the key named by the trimmed input, or an
      error quoting the input as given. */
  function ParseArticleInput(input: Value): (r: Result<string>)
    ensures r.Ok? <==> input.Str? && input.s != "" && KeyIn(Trim(input.s)).Some?
    ensures r.Ok? ==> r.value == KeyIn(Trim(input.s)).value
    ensures r.Err? ==> r.msg == InvalidInputPrefix + ToJsString(input)
  {
    if !Truthy(input) || !input.Str? then Err(InvalidInputPrefix + ToJsString(input))
    else
      match KeyIn(Trim(input.s))
      case Some(key) => Ok(key)
      case None => Err(InvalidInputPrefix + input.s)
  }

  /** A bare key reads as itself: keys are fixed points of the parser. */
  lemma KeyIsFixedPoint(key: string)
    requires IsArticleKey(key)
    ensures ParseArticleInput(Str(key)) == Ok(key)
  {
    assert IsKeyChar(key[|key| - 1]);
    TrimIdentity(key);
    forall k | 0 <= k < |key|
      ensures key[k] != '/'
    {
      if k > 0 {
        assert IsKeyChar(key[k]);
      }
    }
    NoMarkerWithoutSlash(key);
    assert KeyIn(key) == Some(key);
  }

  /** Without a `/` there is no `/n/` to find. */
  lemma NoMarkerWithoutSlash(s: string)
    requires '/' !in s
    ensures FindRun(s, 0, "/n/", IsKeyChar).None?
  {
    forall p | 0 <= p <= |s|
      ensures !RunAt(s, p, "/n/", IsKeyChar)
    {
      if p < |s| {
        assert s[p] != '/';
      }
    }
  }

  /** The leftmost match is the one `FindRun` reports. */
  lemma FindRunLeftmost(s: string, q: nat)
    requires RunAt(s, q, "/n/", IsKeyChar)
    requires forall p :: 0 <= p < q ==> !RunAt(s, p, "/n/", IsKeyChar)
    ensures FindRun(s, 0, "/n/", IsKeyChar) == Some(q)
  {
  }

  const Origin: string := "https://note.com/"

  /** No `/n/` marker starts inside `https://note.com/{user}` when the user
      name has no `/` and is not `n` itself. */
  lemma NoMarkerInOrigin(user: string, rest: string, p: nat)
    requires '/' !in user && user != "n"
    requires |rest| >= 1 && rest[0] == '/'
    requires p < |Origin + user|
    ensures !RunAt((Origin + user) + rest, p, "/n/", IsKeyChar)
  {
    var s := (Origin + user) + rest;
    MarkerChars(s, p);
    if p >= |Origin| {
      assert s[p] == user[p - |Origin|];
    } else if p == 16 {
      if |user| == 0 {
        assert s[17] == rest[0];
      } else if |user| == 1 {
        assert user == [user[0]];
        assert s[17] == user[0] && s[18] == rest[0];
      } else {
        assert s[18] == user[1];
      }
    } else if p == 15 {
      assert s[15] == Origin[15];
    } else {
      assert s[p] == Origin[p] && s[p + 1] == Origin[p + 1] && s[p + 2] == Origin[p + 2];
      OriginHasNoMarker(p);
    }
  }

  /** What a `/n/` marker at `p` means character by character. */
  lemma MarkerChars(s: string, p: nat)
    ensures RunAt(s, p, "/n/", IsKeyChar) ==> p + 3 < |s| && s[p] == '/' && s[p + 1] == 'n' && s[p + 2] == '/'
  {
    if RunAt(s, p, "/n/", IsKeyChar) {
      assert s[p..p + 3][0] == s[p] && s[p..p + 3][1] == s[p + 1] && s[p..p + 3][2] == s[p + 2];
    }
  }

  lemma OriginHasNoMarker(p: nat)
    requires p < 15
    ensures Origin[p] != '/' || Origin[p + 1] != 'n' || Origin[p + 2] != '/'
  {
    if p < 6 {
      assert Origin[..6] == "https:";
      assert Origin[p] == Origin[..6][p];
      assert Origin[p] in "https:";
    } else if p == 6 {
      assert Origin[7] == '/';
    } else if p == 7 {
      assert Origin[9] == 'o';
    } else {
      assert Origin[8..15] == "note.co";
      assert Origin[p] == Origin[8..15][p - 8];
      assert Origin[p] in "note.co";
    }
  }

  /** A key right after the first `/n/` marker, ended by the end of the
      input or a `/`, is the key found. */
  lemma KeyAfterMarker(prefix: string, key: string, tail: string)
    requires forall p :: 0 <= p < |prefix| ==> !RunAt(prefix + ("/n/" + key + tail), p, "/n/", IsKeyChar)
    requires |key| >= 1 && forall k :: 0 <= k < |key| ==> IsKeyChar(key[k])
    requires tail == "" || tail[0] == '/'
    ensures KeyIn(prefix + ("/n/" + key + tail)) == Some(key)
  {
    var s := prefix + ("/n/" + key + tail);
    var q := |prefix|;
    assert s[q..q + 3] == "/n/" && s[q + 3] == key[0];
    FindRunLeftmost(s, q);
    var e := q + 3 + |key|;
    assert s[q + 3..e] == key;
    assert e == |s| || s[e] == '/';
    RunEndUnique(s, q + 4, IsKeyChar, e);
  }

  /** The public URL the REST client returns for an article, with or without
      a trailing slash, reads back as the article's key. */
  lemma NoteUrlRoundTrip(user: string, key: string, slash: bool)
    requires '/' !in user && user != "n"
    requires IsArticleKey(key)
    ensures ParseArticleInput(Str(NoteApi.NoteUrl(user, key) + (if slash then "/" else ""))) == Ok(key)
  {
    var tail: string := if slash then "/" else "";
    var rest := "/n/" + key + tail;
    var url := (Origin + user) + rest;
    UrlShape(user, key, tail);
    forall p | 0 <= p < |Origin + user|
      ensures !RunAt(url, p, "/n/", IsKeyChar)
    {
      NoMarkerInOrigin(user, rest, p);
    }
    KeyAfterMarker(Origin + user, key, tail);
  }

  /** Why `NoteUrlRoundTrip` excludes the user name `n`: the first `/n/` in
      `https://note.com/n/n/{key}` is the user segment, so the parser
      reads the key `n`, whatever the article key is. */
  lemma UserNamedNReadsWrongKey(key: string)
    requires IsArticleKey(key)
    ensures ParseArticleInput(Str(NoteApi.NoteUrl("n", key))) == Ok("n")
    ensures key != "n"
  {
    var prefix := Origin[..16];
    assert Origin == prefix + "/";
    var s := prefix + ("/n/" + "n" + ("/" + key));
    assert s == NoteApi.NoteUrl("n", key);
    forall p | 0 <= p < |prefix|
      ensures !RunAt(s, p, "/n/", IsKeyChar)
    {
      MarkerChars(s, p);
      if p < 15 {
        OriginHasNoMarker(p);
        assert s[p] == Origin[p] && s[p + 1] == Origin[p + 1] && s[p + 2] == Origin[p + 2];
      } else {
        assert s[p] == 'm';
      }
    }
    KeyAfterMarker(prefix, "n", "/" + key);
    TrimIdentity(s);
  }

  lemma UrlShape(user: string, key: string, tail: string)
    requires |key| >= 1 && !IsSpace(key[|key| - 1])
    requires tail == "" || tail == "/"
    ensures NoteApi.NoteUrl(user, key) + tail == (Origin + user) + ("/n/" + key + tail)
    ensures Trim(NoteApi.NoteUrl(user, key) + tail) == NoteApi.NoteUrl(user, key) + tail
  {
    var url := NoteApi.NoteUrl(user, key) + tail;
    assert url == (Origin + user) + ("/n/" + key + tail);
    assert url[0] == 'h';
    assert url[|url| - 1] == if tail == "/" then '/' else key[|key| - 1];
    TrimIdentity(url);
  }
}

=== FILE: content_loader.dfy ===
/** `loadContent` of skills/note-publish/lib/content-loader.mjs: which file a
    path names, and the title, tags and header image read from its
    frontmatter and body.

    The host is an input: Node's path functions, `stat`, `readdir`,
    `readFile` and gray-matter's `matter` are the fields of `Host`, each
    answering for the path it is given (or failing with its error). */
module ContentLoader {
  import opened Results
  import opened Strings
  import opened Scan
  import opened Js

  /** The frontmatter object gray-matter parsed: a missing key reads as
      `undefined`. */
  type Frontmatter = map<string, Value>

  function Field(fm: Frontmatter, key: string): Value
  {
    if key in fm then fm[key] else Undefined
  }

  datatype Kind = File | Directory | Neither

  datatype Host = Host(
    resolve: string -> string,              // path.resolve(p)
    resolveIn: (string, string) -> string,  // path.resolve(dir, p)
    dirname: string -> string,
    extname: string -> string,
    stat: string -> Result<Kind>,
    readdir: string -> Result<seq<string>>,
    readFile: string -> Result<string>,
    matter: string -> Result<(Frontmatter, string)>)

  // ------------------------------------------------------------- the title

  /** `/^#\s+(.+)$/m` matches at position `p`: a line starts there with `#`
      and a blank, and some character after that blank is not a line
      terminator. `\s` also matches line terminators, so the blanks may run
      onto later lines; backtracking lets `.+` take a blank when the blanks
      run to the end of the input. */
  predicate Matches(s: string, p: nat)
    requires p <= |s|
  {
    Opens(s, p) && HasLineCharFrom(s, p + 2)
  }

  /** `^#\s`: a line starts at `p` with `#` and a blank. */
  predicate Opens(s: string, p: nat)
    requires p <= |s|
  {
    AtLineStart(s, p) && p + 1 < |s| && s[p] == '#' && IsSpace(s[p + 1])
  }

  /** Some character at or after `i` is not a line terminator. */
  predicate HasLineCharFrom(s: string, i: nat)
    decreases |s| - i
  {
    i < |s| && (IsLineChar(s[i]) || HasLineCharFrom(s, i + 1))
  }

  /** The capture of a match at `p`, up to trimming: the rest of the line
      the blanks run to. When they run to the end of the input, what `.+`
      takes back from them is blank and trims to nothing, as `""` does. */
  function Capture(s: string, p: nat): string
    requires p < |s|
  {
    var w := RunEnd(s, p + 1, IsSpace);
    if w < |s| then LineFrom(s, w) else ""
  }

  /** The title a match at `p` gives: its capture, trimmed. */
  function TitleAt(s: string, p: nat): string
    requires p <= |s| && Opens(s, p)
  {
    Trim(Capture(s, p))
  }

  /** `.*` from `w`: the rest of the line. */
  function LineFrom(s: string, w: nat): string
    requires w <= |s|
  {
    s[w..RunEnd(s, w, IsLineChar)]
  }

  /** Where the title regex first matches at or after `p`. */
  function FirstH1(s: string, p: nat): (r: Option<nat>)
    requires p <= |s|
    ensures r.Some? ==> p <= r.value <= |s| && Matches(s, r.value)
    decreases |s| - p
  {
    if Matches(s, p) then Some(p)
    else if p == |s| then None
    else FirstH1(s, p + 1)
  }

  /** The search finds the leftmost match, and finds none only when there
      is none. */
  lemma {:induction false} FirstH1IsLeftmost(s: string, p: nat)
    requires p <= |s|
    ensures FirstH1(s, p).Some? ==> forall q :: p <= q < FirstH1(s, p).value ==> !Matches(s, q)
    ensures FirstH1(s, p).None? ==> forall q :: p <= q <= |s| ==> !Matches(s, q)
    decreases |s| - p
  {
    if !Matches(s, p) && p < |s| {
      FirstH1IsLeftmost(s, p + 1);
    }
  }

  /** The capture of the first match, if any. */
  function FirstCapture(body: string): Option<string>
  {
    match FirstH1(body, 0)
    case Some(q) => Some(Capture(body, q))
    case None => None
  }

  /** `body.match(/^#\s+(.+)$/m)?.[1].trim()` */
  function H1Title(body: string): Option<string>
  {
    match FirstCapture(body)
    case Some(c) => Some(Trim(c))
    case None => None
  }

  /** `resolveTitle(frontmatter, body)`: a truthy frontmatter title as it
      is; else the first `# ` heading, trimmed; else `Untitled`. */
  function ResolveTitle(fm: Frontmatter, body: string): (title: Value)
    ensures Truthy(Field(fm, "title")) ==> title == Field(fm, "title")
    ensures !Truthy(Field(fm, "title")) ==> title.Str?
    ensures !Truthy(Field(fm, "title")) && FirstH1(body, 0).Some?
            ==> title.s == TitleAt(body, FirstH1(body, 0).value)
    ensures !Truthy(Field(fm, "title")) && FirstH1(body, 0).None? ==> title == Str("Untitled")
  {
    if Truthy(Field(fm, "title")) then Field(fm, "title")
    else
      match H1Title(body)
      case Some(t) => Str(t)
      case None => Str("Untitled")
  }

  lemma {:induction false} HasLineCharAt(s: string, i: nat, k: nat)
    requires i <= k < |s| && IsLineChar(s[k])
    ensures HasLineCharFrom(s, i)
    decreases k - i
  {
    if i < k {
      HasLineCharAt(s, i + 1, k);
    }
  }

  /** A body that starts with `# ` and a heading text has that text, trimmed,
      as its title. */
  lemma HeadingLineIsTitle(blanks: string, text: string, rest: string)
    requires |blanks| >= 1 && AllSpace(blanks)
    requires |text| >= 1 && !IsSpace(text[0]) && forall k :: 0 <= k < |text| ==> IsLineChar(text[k])
    requires rest == "" || IsLineTerminator(rest[0])
    ensures H1Title("#" + blanks + text + rest) == Some(Trim(text))
  {
    var s := "#" + blanks + text + rest;
    var w := 1 + |blanks|;
    var e := w + |text|;
    HeadingLineChars(blanks, text, rest);
    HasLineCharAt(s, 2, w);
    RunEndUnique(s, 1, IsSpace, w);
    RunEndUnique(s, w, IsLineChar, e);
    assert Matches(s, 0);
  }

  /** Where the blanks, the text and the rest sit in a heading line. */
  lemma HeadingLineChars(blanks: string, text: string, rest: string)
    requires |blanks| >= 1 && AllSpace(blanks)
    requires |text| >= 1 && !IsSpace(text[0]) && forall k :: 0 <= k < |text| ==> IsLineChar(text[k])
    requires rest == "" || IsLineTerminator(rest[0])
    ensures var s := "#" + blanks + text + rest;
      var w := 1 + |blanks|;
      var e := w + |text|;
      && e <= |s| && s[0] == '#' && IsSpace(s[1]) && s[w] == text[0] && IsLineChar(s[w])
      && (forall k :: 1 <= k < w ==> IsSpace(s[k]))
      && (forall k :: w <= k < e ==> IsLineChar(s[k]))
      && (e < |s| ==> !IsLineChar(s[e]))
      && s[w..e] == text
  {
    var s := "#" + blanks + text + rest;
    var w := 1 + |blanks|;
    var e := w + |text|;
    assert s[0] == '#' && s[1] == blanks[0];
    forall k | 1 <= k < w
      ensures IsSpace(s[k])
    {
      assert s[k] == blanks[k - 1];
    }
    assert s[w] == text[0];
    forall k | w <= k < e
      ensures IsLineChar(s[k])
    {
      assert s[k] == text[k - w];
    }
    if e < |s| {
      assert s[e] == rest[0];
    }
    assert s[w..e] == text;
  }

  /** Without any `#` there is no heading title. */
  lemma NoHashNoHeading(body: string)
    requires '#' !in body
    ensures H1Title(body) == None
  {
    forall q | 0 <= q <= |body|
      ensures !Matches(body, q)
    {
      if q < |body| {
        assert body[q] != '#';
      }
    }
  }

  /** A line that does not open a heading (for instance `## x`, or a
      paragraph) is skipped: the title is the one of the lines after it.
      A line that is `#` alone is excluded: the regex's `\s+` may run from
      it onto the following lines (`HashAloneReachesNextLine`). */
  lemma LineWithoutHeadingIsSkipped(line: string, rest: string)
    requires forall k :: 0 <= k < |line| ==> IsLineChar(line[k])
    requires !(|line| >= 1 && line[0] == '#' && (|line| == 1 || IsSpace(line[1])))
    ensures H1Title(line + "\n" + rest) == H1Title(rest)
  {
    NoOpeningInLine(line, rest);
    SkipPrefix(line + "\n", rest);
  }

  /** A prefix ending in a line break with no heading opening in it does not
      change the title. */
  lemma SkipPrefix(x: string, rest: string)
    requires |x| >= 1 && x[|x| - 1] == '\n'
    requires forall q :: 0 <= q < |x| ==> !Opens(x + rest, q)
    ensures H1Title(x + rest) == H1Title(rest)
  {
    FirstH1SkipsPrefix(x + rest, 0, |x|);
    FirstH1FromShift(x, rest, 0);
    TitleOfShiftedSearch(x, rest);
  }

  /** When the search in the longer text finds what the search in its tail
      finds, moved, both titles agree. */
  lemma TitleOfShiftedSearch(x: string, rest: string)
    requires |x| >= 1 && x[|x| - 1] == '\n'
    requires FirstH1(x + rest, 0) == Moved(FirstH1(rest, 0), |x|)
    ensures H1Title(x + rest) == H1Title(rest)
  {
    if FirstH1(rest, 0).Some? {
      TitleShift(x, rest, FirstH1(rest, 0).value);
    }
    assert FirstCapture(x + rest) == FirstCapture(rest);
  }

  lemma NoOpeningInLine(line: string, rest: string)
    requires forall k :: 0 <= k < |line| ==> IsLineChar(line[k])
    requires !(|line| >= 1 && line[0] == '#' && (|line| == 1 || IsSpace(line[1])))
    ensures forall q :: 0 <= q < |line + "\n"| ==> !Opens((line + "\n") + rest, q)
  {
    var s := (line + "\n") + rest;
    forall q | 0 <= q < |line + "\n"|
      ensures !Opens(s, q)
    {
      if q > 0 {
        assert s[q - 1] == line[q - 1];
      } else if |line| >= 1 {
        assert s[0] == line[0];
        if |line| >= 2 {
          assert s[1] == line[1];
        }
      } else {
        assert s[0] == '\n';
      }
    }
  }

  /** Positions where no heading opens are passed over. */
  lemma {:induction false} FirstH1SkipsPrefix(s: string, p: nat, n: nat)
    requires p <= n <= |s|
    requires forall q :: p <= q < n ==> !Opens(s, q)
    ensures FirstH1(s, p) == FirstH1(s, n)
    decreases n - p
  {
    if p < n {
      assert !Opens(s, p);
      FirstH1SkipsPrefix(s, p + 1, n);
    }
  }

  /** The search in a longer text, from a line start on, finds what the
      search in its tail finds, moved by the prefix. */
  lemma {:induction false} FirstH1FromShift(x: string, rest: string, q: nat)
    requires |x| >= 1 && x[|x| - 1] == '\n'
    requires q <= |rest|
    ensures FirstH1(x + rest, |x| + q) == Moved(FirstH1(rest, q), |x|)
    decreases |rest| - q
  {
    MatchShift(x, rest, q);
    if !Matches(rest, q) && q < |rest| {
      FirstH1FromShift(x, rest, q + 1);
    }
  }

  function Moved(o: Option<nat>, n: nat): Option<nat>
  {
    match o
    case Some(r) => Some(r + n)
    case None => None
  }

  /** The title regex matches the same way at a line start inside a longer
      text. */
  lemma MatchShift(x: string, rest: string, q: nat)
    requires |x| >= 1 && x[|x| - 1] == '\n'
    requires q <= |rest|
    ensures Matches(x + rest, |x| + q) == Matches(rest, q)
  {
    OpensShift(x, rest, q);
    if q + 2 <= |rest| {
      HasLineCharShift(x, rest, q + 2);
    }
  }

  /** ... and captures the same title there. */
  lemma TitleShift(x: string, rest: string, q: nat)
    requires |x| >= 1 && x[|x| - 1] == '\n'
    requires q <= |rest| && Opens(rest, q)
    ensures Opens(x + rest, |x| + q)
    ensures Capture(x + rest, |x| + q) == Capture(rest, q)
  {
    OpensShift(x, rest, q);
    CaptureShift(x, rest, q);
  }

  lemma CaptureShift(x: string, rest: string, q: nat)
    requires q < |rest|
    ensures Capture(x + rest, |x| + q) == Capture(rest, q)
  {
    var s := x + rest;
    var w := RunEnd(rest, q + 1, IsSpace);
    RunEndShift(x, rest, q + 1, IsSpace);
    if w < |rest| {
      LineShift(x, rest, w);
      assert Capture(s, |x| + q) == LineFrom(s, |x| + w);
      assert Capture(rest, q) == LineFrom(rest, w);
    } else {
      assert Capture(s, |x| + q) == "" == Capture(rest, q);
    }
  }

  lemma OpensShift(x: string, rest: string, q: nat)
    requires |x| >= 1 && x[|x| - 1] == '\n'
    requires q <= |rest|
    ensures Opens(x + rest, |x| + q) == Opens(rest, q)
  {
    var s := x + rest;
    var p := |x| + q;
    if q == 0 {
      assert s[p - 1] == '\n';
    } else {
      assert s[p - 1] == rest[q - 1];
    }
    if p + 1 < |s| {
      assert s[p] == rest[q] && s[p + 1] == rest[q + 1];
    }
  }

  lemma LineShift(x: string, rest: string, w: nat)
    requires w <= |rest|
    ensures LineFrom(x + rest, |x| + w) == LineFrom(rest, w)
  {
    RunEndShift(x, rest, w, IsLineChar);
    var e := RunEnd(rest, w, IsLineChar);
    assert (x + rest)[|x| + w..|x| + e] == rest[w..e];
  }

  lemma {:induction false} HasLineCharShift(x: string, rest: string, i: nat)
    requires i <= |rest|
    ensures HasLineCharFrom(x + rest, |x| + i) == HasLineCharFrom(rest, i)
    decreases |rest| - i
  {
    if i < |rest| {
      assert (x + rest)[|x| + i] == rest[i];
      HasLineCharShift(x, rest, i + 1);
    }
  }

  /** `#` alone on a line followed by a text line gives that text as the
      title: the regex's `\s+` crosses the line break. */
  lemma HashAloneReachesNextLine(text: string)
    requires |text| >= 1 && !IsSpace(text[0]) && forall k :: 0 <= k < |text| ==> IsLineChar(text[k])
    ensures H1Title("#\n" + text) == Some(Trim(text))
  {
    var nl: string := "\n";
    assert "#" + nl + text + "" == "#\n" + text;
    assert AllSpace(nl) by { assert IsSpace(nl[0]); }
    HeadingLineIsTitle(nl, text, "");
  }

  // ----------------------------------------------------- the other fields

  /** `Array.isArray(frontmatter.tags) ? frontmatter.tags : []` */
  function Tags(fm: Frontmatter): (tags: seq<Value>)
    ensures Field(fm, "tags").Arr? ==> tags == Field(fm, "tags").items
    ensures !Field(fm, "tags").Arr? ==> tags == []
  {
    match Field(fm, "tags")
    case Arr(items) => items
    case _ => []
  }

  /** The error `path.resolve` throws for an argument that is not a string;
      Node's message also names the type it received. */
  const NotAStringPath: string := "The \"paths[1]\" argument must be of type string"

  /** `frontmatter.image ? resolve(dirname(filePath), frontmatter.image) :
      null` */
  function ImagePath(host: Host, fm: Frontmatter, filePath: string): (r: Result<Option<string>>)
    ensures !Truthy(Field(fm, "image")) ==> r == Ok(None)
    ensures Truthy(Field(fm, "image")) && Field(fm, "image").Str?
            ==> r == Ok(Some(host.resolveIn(host.dirname(filePath), Field(fm, "image").s)))
    ensures Truthy(Field(fm, "image")) && !Field(fm, "image").Str? ==> r.Err?
  {
    var image := Field(fm, "image");
    if !Truthy(image) then Ok(None)
    else if image.Str? then Ok(Some(host.resolveIn(host.dirname(filePath), image.s)))
    else Err(NotAStringPath)
  }

  // ------------------------------------------------------------- the file

  predicate IsMarkdownName(host: Host, f: string)
  {
    host.extname(f) == ".md" || host.extname(f) == ".mdx"
  }

  /** `files.find(f => extname(f) === '.md' || extname(f) === '.mdx')`, as
      an index. */
  function FirstMarkdown(host: Host, files: seq<string>, i: nat): (r: Option<nat>)
    requires i <= |files|
    ensures r.Some? ==> i <= r.value < |files| && IsMarkdownName(host, files[r.value])
    ensures r.Some? ==> forall j :: i <= j < r.value ==> !IsMarkdownName(host, files[j])
    ensures r.None? ==> forall j :: i <= j < |files| ==> !IsMarkdownName(host, files[j])
    decreases |files| - i
  {
    if i == |files| then None
    else if IsMarkdownName(host, files[i]) then Some(i)
    else FirstMarkdown(host, files, i + 1)
  }

  const NoMarkdownInDirectory: string := "ディレクトリ内にMD/MDXファイルが見つかりません: "
  const PathNotFound: string := "パスが見つかりません: "

  /** `resolveFilePath(inputPath)`: a file is itself; a directory gives its
      first `.md`/`.mdx` entry in listing order; anything else fails. */
  function ResolveFilePath(host: Host, path: string): (r: Result<string>)
    ensures host.stat(path).Err? ==> r == Err(host.stat(path).msg)
    ensures host.stat(path) == Ok(Directory) && host.readdir(path).Err? ==> r == Err(host.readdir(path).msg)
    ensures host.stat(path) == Ok(File) ==> r == Ok(path)
    ensures host.stat(path) == Ok(Neither) ==> r == Err(PathNotFound + path)
    ensures host.stat(path) == Ok(Directory) && r.Ok? ==>
              host.readdir(path).Ok? &&
              exists i :: 0 <= i < |host.readdir(path).value|
                && r.value == host.resolveIn(path, host.readdir(path).value[i])
                && IsMarkdownName(host, host.readdir(path).value[i])
                && forall j :: 0 <= j < i ==> !IsMarkdownName(host, host.readdir(path).value[j])
    ensures host.stat(path) == Ok(Directory) && host.readdir(path).Ok?
            && (forall j :: 0 <= j < |host.readdir(path).value| ==> !IsMarkdownName(host, host.readdir(path).value[j]))
            ==> r == Err(NoMarkdownInDirectory + path)
  {
    match host.stat(path)
    case Err(msg) => Err(msg)
    case Ok(File) => Ok(path)
    case Ok(Neither) => Err(PathNotFound + path)
    case Ok(Directory) =>
      match host.readdir(path)
      case Err(msg) => Err(msg)
      case Ok(files) =>
        match FirstMarkdown(host, files, 0)
        case None => Err(NoMarkdownInDirectory + path)
        case Some(i) => Ok(host.resolveIn(path, files[i]))
  }

  datatype Metadata = Metadata(title: Value, tags: seq<Value>, imagePath: Option<string>)

  datatype Content = Content(metadata: Metadata, body: string, filePath: string)

  /** `loadContent(inputPath)`. */
  function LoadContent(host: Host, inputPath: string): (r: Result<Content>)
    ensures var found := ResolveFilePath(host, host.resolve(inputPath));
            found.Err? ==> r == Err(found.msg)
    ensures var found := ResolveFilePath(host, host.resolve(inputPath));
            found.Ok? && host.readFile(found.value).Err? ==> r == Err(host.readFile(found.value).msg)
    ensures var found := ResolveFilePath(host, host.resolve(inputPath));
            found.Ok? && host.readFile(found.value).Ok? && host.matter(host.readFile(found.value).value).Err?
            ==> r == Err(host.matter(host.readFile(found.value).value).msg)
    ensures r.Ok? <==>
              var found := ResolveFilePath(host, host.resolve(inputPath));
              && found.Ok? && host.readFile(found.value).Ok?
              && host.matter(host.readFile(found.value).value).Ok?
              && ImagePath(host, host.matter(host.readFile(found.value).value).value.0, found.value).Ok?
    ensures r.Ok? ==> ResolveFilePath(host, host.resolve(inputPath)) == Ok(r.value.filePath)
    ensures r.Ok? ==> host.readFile(r.value.filePath).Ok?
                      && host.matter(host.readFile(r.value.filePath).value).Ok?
                      && var (fm, body) := host.matter(host.readFile(r.value.filePath).value).value;
                         && r.value.body == body
                         && r.value.metadata.title == ResolveTitle(fm, body)
                         && r.value.metadata.tags == Tags(fm)
                         && ImagePath(host, fm, r.value.filePath) == Ok(r.value.metadata.imagePath)
  {
    var filePath :- ResolveFilePath(host, host.resolve(inputPath));
    var raw :- host.readFile(filePath);
    var parsed :- host.matter(raw);
    var (fm, body) := parsed;
    var imagePath :- ImagePath(host, fm, filePath);
    Ok(Content(Metadata(ResolveTitle(fm, body), Tags(fm), imagePath), body, filePath))
  }

  /** A path that does not exist rejects the load with `stat`'s own error,
      before anything is read. */
  lemma MissingPathRejects(host: Host, inputPath: string, msg: string)
    requires host.stat(host.resolve(inputPath)) == Err(msg)
    ensures LoadContent(host, inputPath) == Err(msg)
  {
  }
}

=== FILE: hashtag.dfy ===
/** `parseTags` of lib/hashtag.mjs: a comma-separated tag string becomes the
    list of tag names typed into the editor's hashtag field. */
module Hashtag {
  import opened Strings
  import opened Js

  /** One comma-separated piece, cleaned: trimmed, then at most one leading
      `#` removed. */
  function CleanTag(piece: string): (t: string)
    ensures forall c :: c in t ==> c in piece
  {
    var trimmed := Trim(piece);
    TrimShape(piece);
    if StartsWith(trimmed, "#") then trimmed[1..] else trimmed
  }

  /** Clean every piece and keep the non-empty results, in order. */
  function CleanAll(pieces: seq<string>): (tags: seq<string>)
    ensures |tags| <= |pieces|
  {
    if |pieces| == 0 then []
    else
      var t := CleanTag(pieces[0]);
      (if t == "" then [] else [t]) + CleanAll(pieces[1..])
  }

  /** `parseTags(input)`: anything but a non-empty string gives no tags;
      otherwise every tag is non-empty, free of commas, and there are no
      more tags than comma-separated pieces. */
  function ParseTags(input: Value): (tags: seq<string>)
    ensures !(input.Str? && input.s != "") ==> tags == []
    ensures input.Str? ==> |tags| <= Count(input.s, ',') + 1
    ensures forall i :: 0 <= i < |tags| ==> tags[i] != "" && ',' !in tags[i]
  {
    if !Truthy(input) || !input.Str? then []
    else
      var pieces := Split(input.s, ',');
      SplitCount(input.s, ',');
      CleanAllMembers(pieces);
      CleanAll(pieces)
  }

  /** The tags are exactly the non-empty cleaned pieces. */
  lemma {:induction false} CleanAllMember(pieces: seq<string>, t: string)
    ensures t in CleanAll(pieces) <==> t != "" && exists j :: 0 <= j < |pieces| && CleanTag(pieces[j]) == t
  {
    if |pieces| > 0 {
      CleanAllMember(pieces[1..], t);
      var head := CleanTag(pieces[0]);
      var rest := CleanAll(pieces[1..]);
      assert CleanAll(pieces) == (if head == "" then [] else [head]) + rest;
      if exists j :: 0 <= j < |pieces[1..]| && CleanTag(pieces[1..][j]) == t {
        var j :| 0 <= j < |pieces[1..]| && CleanTag(pieces[1..][j]) == t;
        assert CleanTag(pieces[j + 1]) == t;
      }
      if exists j :: 0 <= j < |pieces| && CleanTag(pieces[j]) == t {
        var j :| 0 <= j < |pieces| && CleanTag(pieces[j]) == t;
        if j > 0 {
          assert CleanTag(pieces[1..][j - 1]) == t;
        }
      }
    }
  }

  /** Consequence of `CleanAllMember` for comma-free pieces. */
  lemma CleanAllMembers(pieces: seq<string>)
    requires forall j :: 0 <= j < |pieces| ==> ',' !in pieces[j]
    ensures forall i :: 0 <= i < |CleanAll(pieces)| ==> CleanAll(pieces)[i] != "" && ',' !in CleanAll(pieces)[i]
  {
    forall i | 0 <= i < |CleanAll(pieces)|
      ensures CleanAll(pieces)[i] != "" && ',' !in CleanAll(pieces)[i]
    {
      CleanAllMember(pieces, CleanAll(pieces)[i]);
    }
  }

  /** Cleaning distributes over concatenation, so the tags of the earlier
      pieces come first: order is preserved. */
  lemma {:induction false} CleanAllAppend(a: seq<string>, b: seq<string>)
    ensures CleanAll(a + b) == CleanAll(a) + CleanAll(b)
  {
    if |a| > 0 {
      assert (a + b)[0] == a[0];
      assert (a + b)[1..] == a[1..] + b;
      CleanAllAppend(a[1..], b);
      var h := CleanTag(a[0]);
      AppendAssoc(if h == "" then [] else [h], CleanAll(a[1..]), CleanAll(b));
    } else {
      assert a + b == b;
    }
  }

  /** A tag as the editor shows it: non-empty, no comma, no surrounding
      whitespace, not starting with `#`. */
  predicate WellFormed(t: string)
  {
    && t != "" && ',' !in t && t[0] != '#'
    && !IsSpace(t[0]) && !IsSpace(t[|t| - 1])
  }

  /** Writing a well-formed tag with any surrounding blanks and an optional
      `#` gives the tag back. */
  lemma CleanTagOfWritten(t: string, hash: bool, before: string, after: string)
    requires WellFormed(t) && AllSpace(before) && AllSpace(after)
    ensures CleanTag(before + (if hash then "#" else "") + t + after) == t
  {
    var h: string := if hash then "#" else "";
    AppendAssoc(before, h, t);
    TrimAround(before, h + t, after);
    CleanCore(h, t);
  }

  lemma CleanCore(h: string, t: string)
    requires WellFormed(t) && (h == "" || h == "#")
    ensures |h + t| > 0 && !IsSpace((h + t)[0]) && !IsSpace((h + t)[|h + t| - 1])
    ensures (if StartsWith(h + t, "#") then (h + t)[1..] else h + t) == t
  {
    if h == "" {
      assert h + t == t;
    } else {
      assert (h + t)[1..] == t;
    }
  }

  /** Trimming strips exactly the blank margins around a core that starts and
      ends with non-blank characters. */
  lemma TrimAround(before: string, core: string, after: string)
    requires AllSpace(before) && AllSpace(after)
    requires |core| > 0 && !IsSpace(core[0]) && !IsSpace(core[|core| - 1])
    ensures Trim(before + core + after) == core
  {
    TrimStartAfterSpace(before, core + after);
    AppendAssoc(before, core, after);
    TrimEndBeforeSpace(core, after);
  }

  lemma {:induction false} TrimStartAfterSpace(before: string, s: string)
    requires AllSpace(before) && |s| > 0 && !IsSpace(s[0])
    ensures TrimStart(before + s) == s
  {
    if |before| > 0 {
      assert (before + s)[1..] == before[1..] + s;
      TrimStartAfterSpace(before[1..], s);
    } else {
      assert before + s == s;
    }
  }

  lemma {:induction false} TrimEndBeforeSpace(s: string, after: string)
    requires AllSpace(after) && |s| > 0 && !IsSpace(s[|s| - 1])
    ensures TrimEnd(s + after) == s
  {
    if |after| > 0 {
      var n := |after|;
      assert (s + after)[..|s + after| - 1] == s + after[..n - 1];
      TrimEndBeforeSpace(s, after[..n - 1]);
    } else {
      assert s + after == s;
    }
  }

  /** Well-formed tags survive a round trip through their comma-joined
      text. */
  lemma ParseTagsRoundTrip(tags: seq<string>)
    requires forall i :: 0 <= i < |tags| ==> WellFormed(tags[i])
    ensures ParseTags(Str(Join(tags, ","))) == tags
  {
    if |tags| > 0 {
      SplitJoin(tags, ',');
      JoinPrefix(tags, ",");
      CleanAllIdentity(tags);
    }
  }

  lemma {:induction false} CleanAllIdentity(tags: seq<string>)
    requires forall i :: 0 <= i < |tags| ==> WellFormed(tags[i])
    ensures CleanAll(tags) == tags
  {
    if |tags| > 0 {
      CleanTagOfWritten(tags[0], false, "", "");
      assert "" + "" + tags[0] + "" == tags[0];
      CleanAllIdentity(tags[1..]);
      HeadTail(tags);
    }
  }
}

=== FILE: http.dfy ===
/** What the publisher sees of HTTP: a response (status, status text, body
    text and the parsed JSON fields it reads), a transport outcome that
    `fetch` may instead reject with, and the `Cookie` header built from a
    cookie dictionary. */
module Http {
  import opened Results
  import opened Strings

  /** A cookie dictionary as its `Object.entries`: (name, value) pairs in
      enumeration order. */
  type Cookies = seq<(string, string)>

  /** The fields of the response's `data` object that any caller reads. */
  datatype Data = Data(id: Option<int>, key: Option<string>, url: Option<string>)

  /** The result of `response.json()`: a syntax error, or an object whose
      `data` member may be missing. */
  datatype Json = NotJson | Parsed(data: Option<Data>)

  datatype Reply = Reply(status: int, statusText: string, body: string, json: Json)

  /** Message of the error `response.json()` raises on a body that is not
      JSON; its text comes from the JavaScript engine. */
  const JsonSyntaxError: string := "SyntaxError: response body is not valid JSON"

  /** `response.ok` */
  predicate IsOk(r: Reply)
  {
    200 <= r.status <= 299
  }

  /** One call of `fetch`: a response, or a rejection with an error message;
      either takes `latency` milliseconds of the clock. */
  datatype Outcome = Got(reply: Reply, latency: nat) | NetErr(msg: string, latency: nat)

  // ------------------------------------------------------- cookie header

  function Entry(c: (string, string)): string
  {
    c.0 + "=" + c.1
  }

  function Entries(cookies: Cookies): (r: seq<string>)
    ensures |r| == |cookies|
  {
    if |cookies| == 0 then [] else [Entry(cookies[0])] + Entries(cookies[1..])
  }

  /** `formatCookieHeader(cookies)`: `name=value` pairs joined by `; `. */
  function FormatCookieHeader(cookies: Cookies): string
  {
    Join(Entries(cookies), "; ")
  }

  /** A cookie whose name has no `=` or `;` and whose value has no `;`: one
      that a header carries unambiguously. */
  predicate SafeEntry(c: (string, string))
  {
    '=' !in c.0 && ';' !in c.0 && ';' !in c.1
  }

  /** Every cookie of the dictionary is safe. */
  predicate HeaderSafe(cookies: Cookies)
  {
    |cookies| == 0 || (SafeEntry(cookies[0]) && HeaderSafe(cookies[1..]))
  }

  /** Reading a `Cookie` header back: split at `;`, drop the one space the
      formatter puts after each `;`, cut each piece at its first `=`. */
  function ParseCookieHeader(h: string): Cookies
  {
    if h == "" then []
    else
      var pieces := Split(h, ';');
      [ParsePair(pieces[0])] + ParseRest(pieces[1..])
  }

  function ParseRest(pieces: seq<string>): Cookies
  {
    if |pieces| == 0 then []
    else
      var p := pieces[0];
      [ParsePair(if |p| > 0 && p[0] == ' ' then p[1..] else p)] + ParseRest(pieces[1..])
  }

  function ParsePair(piece: string): (string, string)
  {
    if '=' !in piece then (piece, "")
    else
      var i := FirstIndex(piece, '=');
      (piece[..i], piece[i + 1..])
  }

  function FirstIndex(s: string, c: char): (i: nat)
    requires c in s
    ensures i < |s| && s[i] == c && c !in s[..i]
  {
    if s[0] == c then 0 else 1 + FirstIndex(s[1..], c)
  }

  /** The header pieces after the first, as `;`-split sees them. */
  function Spaced(parts: seq<string>): (r: seq<string>)
    ensures |r| == |parts|
  {
    if |parts| == 0 then [] else [" " + parts[0]] + Spaced(parts[1..])
  }

  lemma {:induction false} JoinSemicolonSpace(parts: seq<string>)
    requires |parts| >= 1
    ensures Join(parts, "; ") == Join([parts[0]] + Spaced(parts[1..]), ";")
  {
    if |parts| >= 2 {
      JoinSemicolonSpace(parts[1..]);
      var sp := Spaced(parts[1..]);
      assert ([parts[0]] + sp)[1..] == sp;
      assert sp == [" " + parts[1]] + Spaced(parts[2..]);
      assert parts[1..][1..] == parts[2..];
      assert Join(sp, ";") == " " + Join(parts[1..], "; ");
    }
  }

  lemma EntryParses(c: (string, string))
    requires '=' !in c.0
    ensures ParsePair(Entry(c)) == c
  {
    var e := Entry(c);
    assert e[|c.0|] == '=';
    var i := FirstIndex(e, '=');
    assert e[..|c.0|] == c.0;
    assert i == |c.0|;
  }

  lemma ParseRestCons(e: string, rest: seq<string>)
    ensures ParseRest([" " + e] + rest) == [ParsePair(e)] + ParseRest(rest)
  {
    var pieces := [" " + e] + rest;
    assert pieces[0][1..] == e;
    assert pieces[1..] == rest;
  }

  lemma SpacedEntriesCons(cookies: Cookies)
    requires |cookies| > 0
    ensures Spaced(Entries(cookies)) == [" " + Entry(cookies[0])] + Spaced(Entries(cookies[1..]))
  {
    var es := Entries(cookies);
    assert es[1..] == Entries(cookies[1..]);
  }

  lemma {:induction false} ParseRestSpaced(cookies: Cookies)
    requires HeaderSafe(cookies)
    ensures ParseRest(Spaced(Entries(cookies))) == cookies
  {
    if |cookies| > 0 {
      var tail := cookies[1..];
      SpacedEntriesCons(cookies);
      ParseRestCons(Entry(cookies[0]), Spaced(Entries(tail)));
      EntryParses(cookies[0]);
      ParseRestSpaced(tail);
      HeadTail(cookies);
    }
  }

  /** No entry of a safe dictionary, spaced or not, holds a `;`. */
  lemma {:induction false} EntriesHaveNoSemicolon(cookies: Cookies)
    requires HeaderSafe(cookies)
    ensures forall i :: 0 <= i < |cookies| ==> ';' !in Entries(cookies)[i] && ';' !in Spaced(Entries(cookies))[i]
  {
    if |cookies| > 0 {
      EntriesHaveNoSemicolon(cookies[1..]);
      var es := Entries(cookies);
      assert es[1..] == Entries(cookies[1..]);
      var sp := Spaced(es);
      assert sp[1..] == Spaced(es[1..]);
      forall i | 0 <= i < |cookies|
        ensures ';' !in es[i] && ';' !in sp[i]
      {
        if i > 0 {
          assert es[i] == es[1..][i - 1] && sp[i] == sp[1..][i - 1];
        }
      }
    }
  }

  /** The pieces `;`-split finds in a formatted header: the first entry,
      then every later entry behind its space. */
  function Pieces(cookies: Cookies): seq<string>
    requires |cookies| > 0
  {
    [Entry(cookies[0])] + Spaced(Entries(cookies[1..]))
  }

  lemma PiecesHaveNoSemicolon(cookies: Cookies)
    requires |cookies| > 0 && HeaderSafe(cookies)
    ensures forall i :: 0 <= i < |Pieces(cookies)| ==> ';' !in Pieces(cookies)[i]
  {
    var pieces := Pieces(cookies);
    var tail := Spaced(Entries(cookies[1..]));
    EntriesHaveNoSemicolon(cookies[1..]);
    forall i | 0 <= i < |pieces|
      ensures ';' !in pieces[i]
    {
      if i > 0 {
        assert pieces[i] == tail[i - 1];
      }
    }
  }

  lemma HeaderSplitsIntoPieces(cookies: Cookies)
    requires |cookies| > 0 && HeaderSafe(cookies)
    ensures FormatCookieHeader(cookies) != ""
    ensures Split(FormatCookieHeader(cookies), ';') == Pieces(cookies)
  {
    var es := Entries(cookies);
    assert es[1..] == Entries(cookies[1..]);
    JoinSemicolonSpace(es);
    PiecesHaveNoSemicolon(cookies);
    SplitJoin(Pieces(cookies), ';');
    assert |Entry(cookies[0])| > 0;
    JoinPrefix(es, "; ");
  }

  /** The header round-trips: parsing a formatted header gives back the same
      entries, in the same order. */
  lemma CookieHeaderRoundTrip(cookies: Cookies)
    requires HeaderSafe(cookies)
    ensures ParseCookieHeader(FormatCookieHeader(cookies)) == cookies
  {
    if |cookies| > 0 {
      HeaderSplitsIntoPieces(cookies);
      var pieces := Pieces(cookies);
      assert pieces[1..] == Spaced(Entries(cookies[1..]));
      EntryParses(cookies[0]);
      ParseRestSpaced(cookies[1..]);
    }
  }
}

=== FILE: image_uploader.dfy ===
/** `uploadImage` of lib/image-uploader.mjs: the checks made before a header
    image is uploaded, the multipart form that is posted, and how the
    response is read.

    The file system and the network are inputs: `ext` and `fileName` are
    what `extname` and `basename` return for the path, `size` is what
    `stat` reports (or its error), `read` is whether `readFile` succeeds,
    `response` is the outcome of the one `fetch`, and `stringify` renders
    a parsed response as `JSON.stringify` does. The effects the call makes
    are returned in order. */
module ImageUploader {
  import opened Results
  import opened Strings
  import opened Js
  import opened Http

  const MaxSize: nat := 10 * 1024 * 1024
  const UploadUrl: string := "https://note.com/api/v1/image_upload/note_eyecatch"

  /** `ALLOWED_EXTENSIONS.has(ext)` */
  predicate Allowed(ext: string)
  {
    ext == ".jpg" || ext == ".jpeg" || ext == ".png" || ext == ".gif"
  }

  /** `MIME_TYPES[ext]` */
  function MimeType(ext: string): Option<string>
  {
    if ext == ".jpg" || ext == ".jpeg" then Some("image/jpeg")
    else if ext == ".png" then Some("image/png")
    else if ext == ".gif" then Some("image/gif")
    else None
  }

  /** The MIME table covers exactly the allowed extensions, and each entry
      names the format its extension names (`jpg` being short for `jpeg`). */
  lemma MimeTypeTotal(ext: string)
    ensures MimeType(ext).Some? <==> Allowed(ext)
    ensures Allowed(ext) ==> MimeType(ext) == Some("image/" + (if ext == ".jpg" then "jpeg" else ext[1..]))
  {
    if ext == ".jpg" {
      assert "image/" + "jpeg" == "image/jpeg";
    } else if ext == ".jpeg" {
      assert ext[1] == 'j' && ext[1..] == "jpeg";
      assert "image/" + "jpeg" == "image/jpeg";
    } else if ext == ".png" {
      assert ext[1] == 'p' && ".jpg"[1] == 'j' && ".jpeg"[1] == 'j';
      assert ext[1..] == "png";
      assert "image/" + "png" == "image/png";
    } else if ext == ".gif" {
      assert ext[1] == 'g' && ".jpg"[1] == 'j' && ".jpeg"[1] == 'j' && ".png"[1] == 'p';
      assert ext[1..] == "gif";
      assert "image/" + "gif" == "image/gif";
    }
  }

  // ------------------------------------------------------------ messages

  function UnsupportedFormat(ext: string): string
  {
    "非対応の画像形式です: " + ext + "（対応形式: JPEG, PNG, GIF）"
  }

  /** `Math.round`-to-tenths of `size / 1024 / 1024` the way `toFixed(1)`
      does it: the nearest multiple of a tenth, the larger one on a tie.
      The division by powers of two is exact in binary floating point, so
      nothing is lost by computing it on integers. */
  function MegabyteTenths(size: nat): (t: nat)
    ensures 2 * (t * 1048576 - 10 * size) <= 1048576
    ensures 2 * (10 * size - t * 1048576) < 1048576
  {
    (10 * size + 524288) / 1048576
  }

  /** `(size / 1024 / 1024).toFixed(1)` */
  function MegabytesText(size: nat): string
  {
    var t := MegabyteTenths(size);
    NatToString(t / 10) + "." + [DigitChar(t % 10)]
  }

  function TooLarge(size: nat): string
  {
    "画像ファイルが大きすぎます: " + MegabytesText(size) + "MB（上限: 10MB）"
  }

  function UploadFailed(status: int, statusText: string, text: string): string
  {
    "画像アップロードに失敗しました: " + IntToString(status) + " " + statusText + " " + text
  }

  function Unexpected(shown: string): string
  {
    "画像APIの応答が想定外です: " + shown
  }

  /** A file one byte over the limit is rejected, and the message rounds its
      size to the limit itself. */
  lemma JustOverTheLimit()
    ensures MegabytesText(MaxSize + 1) == "10.0"
  {
    assert MegabyteTenths(MaxSize + 1) == 100;
  }

  // ---------------------------------------------------------------- form

  datatype Field = FileField(fileName: string, mime: string) | NoteIdField(value: string)

  /** The multipart form: the file under `file`, then `note_id` for a truthy
      note id, as `String(noteId)`. */
  function FormFields(fileName: string, mime: string, noteId: Value): seq<Field>
  {
    [FileField(fileName, mime)] + (if Truthy(noteId) then [NoteIdField(ToJsString(noteId))] else [])
  }

  /** The `note_id` field is present exactly when the note id is truthy,
      and then carries its text. */
  lemma NoteIdFieldIffTruthy(fileName: string, mime: string, noteId: Value)
    ensures FormFields(fileName, mime, noteId)[0] == FileField(fileName, mime)
    ensures var fs := FormFields(fileName, mime, noteId);
            (exists i :: 0 <= i < |fs| && fs[i].NoteIdField?) <==> Truthy(noteId)
    ensures var fs := FormFields(fileName, mime, noteId);
            forall i :: 0 <= i < |fs| && fs[i].NoteIdField? ==> fs[i].value == ToJsString(noteId)
  {
    var fs := FormFields(fileName, mime, noteId);
    if Truthy(noteId) {
      assert fs[1].NoteIdField?;
    }
  }

  // -------------------------------------------------------------- upload

  datatype Effect =
    | StatFile
    | ReadFile
    | Post(url: string, cookieHeader: string, fields: seq<Field>)

  datatype Uploaded = Uploaded(imageKey: string, imageUrl: string)

  datatype Upload = Upload(result: Result<Uploaded>, effects: seq<Effect>)

  /** `json.data?.url`, when truthy. */
  function UrlOf(json: Json): Option<string>
  {
    if json.Parsed? && json.data.Some? && json.data.value.url.Some? && json.data.value.url.value != ""
    then json.data.value.url
    else None
  }

  /** What is done with the response once it arrives. */
  function ReadResponse(response: Outcome, stringify: Json -> string): (r: Result<Uploaded>)
    ensures r.Ok? <==> response.Got? && IsOk(response.reply) && UrlOf(response.reply.json).Some?
    ensures r.Ok? ==> r.value.imageKey == r.value.imageUrl == UrlOf(response.reply.json).value
  {
    match response
    case NetErr(msg, _) => Err(msg)
    case Got(rep, _) =>
      if !IsOk(rep) then Err(UploadFailed(rep.status, rep.statusText, rep.body))
      else if rep.json.NotJson? then Err(JsonSyntaxError)
      else
        match UrlOf(rep.json)
        case None => Err(Unexpected(stringify(rep.json)))
        case Some(url) => Ok(Uploaded(url, url))
  }

  /** `uploadImage(imagePath, cookies, noteId)`. */
  function UploadImage(ext: string, fileName: string, cookies: Cookies, noteId: Value, size: Result<nat>,
                       read: Result<()>, response: Outcome, stringify: Json -> string): (r: Upload)
    ensures !Allowed(AsciiLower(ext)) ==> r == Upload(Err(UnsupportedFormat(AsciiLower(ext))), [])
    ensures Allowed(AsciiLower(ext)) && size.Ok? && size.value > MaxSize
            ==> r == Upload(Err(TooLarge(size.value)), [StatFile])
    ensures r.result.Ok? <==> && Allowed(AsciiLower(ext)) && size.Ok? && size.value <= MaxSize && read.Ok?
                              && response.Got? && IsOk(response.reply) && UrlOf(response.reply.json).Some?
    ensures r.result.Ok? ==> r.result.value.imageKey == r.result.value.imageUrl == UrlOf(response.reply.json).value
  {
    var lowered := AsciiLower(ext);
    if !Allowed(lowered) then Upload(Err(UnsupportedFormat(lowered)), [])
    else if size.Err? then Upload(Err(size.msg), [StatFile])
    else if size.value > MaxSize then Upload(Err(TooLarge(size.value)), [StatFile])
    else if read.Err? then Upload(Err(read.msg), [StatFile, ReadFile])
    else
      var fields := FormFields(fileName, MimeType(lowered).value, noteId);
      var post := Post(UploadUrl, FormatCookieHeader(cookies), fields);
      Upload(ReadResponse(response, stringify), [StatFile, ReadFile, post])
  }

  /** Every upload that gets as far as the network posts exactly once, to the
      eyecatch endpoint, with the file under the MIME type its extension
      names and the session's cookie header. */
  lemma UploadPostsOnce(ext: string, fileName: string, cookies: Cookies, noteId: Value, size: Result<nat>,
                        read: Result<()>, response: Outcome, stringify: Json -> string)
    requires Allowed(AsciiLower(ext)) && size.Ok? && size.value <= MaxSize && read.Ok?
    ensures var r := UploadImage(ext, fileName, cookies, noteId, size, read, response, stringify);
            && |r.effects| == 3 && r.effects[..2] == [StatFile, ReadFile]
            && r.effects[2] == Post(UploadUrl, FormatCookieHeader(cookies),
                                    FormFields(fileName, MimeType(AsciiLower(ext)).value, noteId))
            && r.effects[2].fields[0].mime[..6] == "image/"
  {
    MimeTypeTotal(AsciiLower(ext));
  }

  /** The size limit is inclusive: a file of exactly 10 MiB passes it and
      is read. */
  lemma ExactlyMaxSizeIsAccepted(ext: string, fileName: string, cookies: Cookies, noteId: Value,
                                 read: Result<()>, response: Outcome, stringify: Json -> string)
    requires Allowed(AsciiLower(ext))
    ensures var r := UploadImage(ext, fileName, cookies, noteId, Ok(MaxSize), read, response, stringify);
            |r.effects| >= 2 && r.effects[1] == ReadFile
  {
  }
}

=== FILE: js.dfy ===
/** The JavaScript values the publisher inspects without knowing their type
    in advance (CLI arguments, parsed frontmatter, a parsed cookie file),
    with the two coercions it applies to them: truthiness and string
    conversion (`String(v)`, `${v}`). */
module Js {
  import opened Results
  import opened Strings

  /** Numbers are integers here (no fractions, no `-0`, no infinities);
      `NaN` is kept because the cookie cache meets it. An object's fields
      are not needed anywhere it is coerced. */
  datatype Value =
    | Undefined
    | Null
    | Bool(b: bool)
    | Num(n: int)
    | NaN
    | Str(s: string)
    | Arr(items: seq<Value>)
    | Obj

  /** `!!v` */
  predicate Truthy(v: Value)
  {
    match v
    case Undefined => false
    case Null => false
    case Bool(b) => b
    case Num(n) => n != 0
    case NaN => false
    case Str(s) => s != ""
    case Arr(_) => true
    case Obj => true
  }

  /** `String(v)`: arrays join their items with `,`, writing `undefined` and
      `null` items as nothing. */
  function ToJsString(v: Value): (r: string)
    ensures v.Str? ==> r == v.s
    decreases v, 1
  {
    match v
    case Undefined => "undefined"
    case Null => "null"
    case Bool(b) => if b then "true" else "false"
    case Num(n) => IntToString(n)
    case NaN => "NaN"
    case Str(s) => s
    case Arr(items) => ItemsToString(v, 0)
    case Obj => "[object Object]"
  }

  function ItemsToString(a: Value, i: nat): string
    requires a.Arr? && i <= |a.items|
    decreases a, 0, |a.items| - i
  {
    if i == |a.items| then ""
    else
      var x := a.items[i];
      var text := if x.Undefined? || x.Null? then "" else ToJsString(x);
      (if i == 0 then "" else ",") + text + ItemsToString(a, i + 1)
  }

  /** `v.length` for the values that have one. */
  function Length(v: Value): Option<nat>
  {
    match v
    case Str(s) => Some(|s|)
    case Arr(items) => Some(|items|)
    case _ => None
  }
}

=== FILE: markdown_converter.dfy ===
/** `filterMdx`: the line filter that strips MDX constructs from an article
    before it goes to the Markdown renderer. Lines are examined one at a time
    after `trimStart`; imports, whole-line images and self-closing component
    tags are dropped, a tag opened with a JSX-only attribute starts a block
    that is dropped up to its closing tag, and every other line is kept
    verbatim. The kept lines are joined again and inline image references are
    removed from the result. */
module MarkdownConverter {
  import opened Results
  import opened Strings
  import opened Scan

  // -------------------------------------------------------- line patterns

  /** Every character in `[lo, hi)` is a line character (what `.` takes). */
  predicate LineChars(t: string, lo: nat, hi: nat)
  {
    forall k :: lo <= k < hi && k < |t| ==> IsLineChar(t[k])
  }

  /** Whitespace only from `p` to the end (`\s*$`). */
  predicate SpaceFrom(t: string, p: nat)
  {
    forall k :: p <= k < |t| ==> IsSpace(t[k])
  }

  /** `](` at `a` and the final `)` at `b` of an image line. */
  predicate ImageLineAt(t: string, a: nat, b: nat)
  {
    && 2 <= a && a + 2 <= b < |t| && t[a] == ']' && t[a + 1] == '(' && t[b] == ')'
    && LineChars(t, 2, b) && SpaceFrom(t, b + 1)
  }

  /** `/^!\[.*\]\(.*\)\s*$/`: `![`, then line characters holding a `](`,
      then a `)` followed only by whitespace. The `.*` runs cannot cross a
      line terminator, but may contain brackets. */
  predicate IsImageLine(t: string)
  {
    |t| >= 2 && t[0] == '!' && t[1] == '[' && exists a, b :: 0 <= a < b < |t| && ImageLineAt(t, a, b)
  }

  /** A `/>` at `p` followed only by whitespace. */
  predicate SelfCloseAt(t: string, p: nat)
  {
    2 <= p && p + 2 <= |t| && t[p] == '/' && t[p + 1] == '>' && SpaceFrom(t, p + 2)
  }

  /** `/^<[A-Z][A-Za-z0-9]*[\s\S]*\/>\s*$/`: the middle `[\s\S]*` takes
      anything, so the line is a self-closing tag when some `/>` after the
      capital is followed only by whitespace. */
  predicate IsSelfClosingTag(t: string)
  {
    |t| >= 2 && t[0] == '<' && IsUpper(t[1]) && exists p :: 0 <= p < |t| && SelfCloseAt(t, p)
  }

  /** The attribute names that mark a tag as JSX rather than HTML. */
  const JsxAttributes: seq<string> :=
    ["className", "onClick", "onChange", "onSubmit", "htmlFor", "tabIndex", "dangerouslySetInnerHTML"]

  /** Attribute name number `w` occurs at `x`. */
  predicate AttributeIs(t: string, x: nat, w: nat)
  {
    w < |JsxAttributes| && x + |JsxAttributes[w]| <= |t| && t[x..x + |JsxAttributes[w]|] == JsxAttributes[w]
  }

  /** An attribute name at `x` and the closing `>` at `g`, with line
      characters from `from` up to `g` and whitespace after it. */
  predicate OpenTagRestAt(t: string, from: nat, x: nat, g: nat)
  {
    && from <= x < g < |t| && (exists w :: 0 <= w < |JsxAttributes| && AttributeIs(t, x, w)) && t[g] == '>'
    && LineChars(t, from, g) && SpaceFrom(t, g + 1)
  }

  /** `.*(?:className|…).*>\s*$` from `from`. */
  predicate OpenTagRest(t: string, from: nat)
  {
    exists x, g :: 0 <= x < g < |t| && OpenTagRestAt(t, from, x, g)
  }

  /** The group of `/^<([A-Za-z][A-Za-z0-9]*)[\s].*(?:className|…).*>\s*$/`.
      The name run is greedy and must be followed by whitespace, which no
      letter or digit is, so the captured name is the whole run. */
  function OpenTag(t: string): (r: Option<string>)
    ensures r.Some? ==> |r.value| >= 1 && |r.value| + 2 <= |t| && t[0] == '<' && t[1..|r.value| + 1] == r.value
    ensures r.Some? ==> IsLetter(r.value[0]) && forall k :: 0 <= k < |r.value| ==> IsAlnum(r.value[k])
    ensures r.Some? ==> IsSpace(t[|r.value| + 1]) && OpenTagRest(t, |r.value| + 2)
  {
    if |t| >= 2 && t[0] == '<' && IsLetter(t[1]) then
      var a := RunEnd(t, 2, IsAlnum);
      if a < |t| && IsSpace(t[a]) && OpenTagRest(t, a + 1) then Some(t[1..a]) else None
    else None
  }

  // ------------------------------------------------------------- the loop

  /** One pass of the `for` loop: whether `line` is kept, and the tag whose
      block is being skipped afterwards (`skipBlock && skipTagName`; the name
      is never empty, so the two flags travel together). */
  function Step(line: string, skip: Option<string>): (r: (bool, Option<string>))
  {
    var t := TrimStart(line);
    if StartsWith(t, "import ") || IsImageLine(t) || IsSelfClosingTag(t) then (false, skip)
    else if skip.None? && OpenTag(t).Some? then (false, OpenTag(t))
    else if skip.Some? then (false, if StartsWith(t, "</" + skip.value + ">") then None else skip)
    else (true, None)
  }

  /** The state a pass of the loop reads and writes. */
  type Stepper = (string, Option<string>) -> (bool, Option<string>)

  /** The indices of the lines a loop driven by `step` keeps, from line `i`
      in state `skip`. The structural facts below hold for any `step`. */
  function Loop(lines: seq<string>, i: nat, skip: Option<string>, step: Stepper): seq<nat>
    requires i <= |lines|
    decreases |lines| - i
  {
    if i == |lines| then []
    else (if step(lines[i], skip).0 then [i] else []) + Loop(lines, i + 1, step(lines[i], skip).1, step)
  }

  /** The indices of the lines `filterMdx`'s loop keeps, from line `i` in
      state `skip`. */
  function KeptFrom(lines: seq<string>, i: nat, skip: Option<string>): seq<nat>
    requires i <= |lines|
  {
    Loop(lines, i, skip, Step)
  }

  /** The lines at the given indices, in that order. */
  function Select(lines: seq<string>, idx: seq<nat>): seq<string>
  {
    if |idx| == 0 then []
    else (if idx[0] < |lines| then [lines[idx[0]]] else []) + Select(lines, idx[1..])
  }

  /** `/!\[[^\]]*\]\([^)]*\)/` at `q`. Each bracketed run takes anything but
      its closing character, line breaks included, so it ends at the first
      closer and there is nothing to backtrack. */
  function InlineImage(s: string, q: nat): (r: Option<nat>)
    ensures r.Some? ==> q + 5 <= r.value <= |s|
  {
    if q + 2 <= |s| && s[q] == '!' && s[q + 1] == '[' then
      var a := RunEnd(s, q + 2, NotCloseBracket);
      if a + 1 < |s| && s[a + 1] == '(' then
        var b := RunEnd(s, a + 2, NotCloseParen);
        if b < |s| then Some(b + 1) else None
      else None
    else None
  }

  predicate NotCloseBracket(c: char) { c != ']' }
  predicate NotCloseParen(c: char) { c != ')' }

  /** `filterMdx(markdown)` */
  function FilterMdx(markdown: string): string
  {
    var lines := Split(markdown, '\n');
    RemoveFrom(Join(Select(lines, KeptFrom(lines, 0, None)), "\n"), 0, InlineImage)
  }

  // ------------------------------------------------------- inline images

  /** An image reference `![alt](src)` with no `]` in `alt` and no `)` in
      `src`. */
  predicate ImageRef(alt: string, src: string)
  {
    ']' !in alt && ')' !in src
  }

  /** The match at `q` is exactly an image reference. */
  lemma InlineImageShape(s: string, q: nat)
    requires InlineImage(s, q).Some?
    ensures exists alt, src :: ImageRef(alt, src) && s[q..InlineImage(s, q).value] == "![" + alt + "](" + src + ")"
  {
    var a := RunEnd(s, q + 2, NotCloseBracket);
    var b := RunEnd(s, a + 2, NotCloseParen);
    CharNotInRun(s, q + 2, a, ']');
    CharNotInRun(s, a + 2, b, ')');
    ImageSlices(s, q, a, b);
    assert ImageRef(s[q + 2..a], s[a + 2..b]);
  }

  lemma CharNotInRun(s: string, lo: nat, hi: nat, c: char)
    requires lo <= hi <= |s|
    requires forall k :: lo <= k < hi ==> s[k] != c
    ensures c !in s[lo..hi]
  {
    var r := s[lo..hi];
    forall k | 0 <= k < |r| ensures r[k] != c { assert r[k] == s[lo + k]; }
  }

  lemma ImageSlices(s: string, q: nat, a: nat, b: nat)
    requires q + 2 <= a && a + 2 <= b < |s|
    requires s[q] == '!' && s[q + 1] == '[' && s[a] == ']' && s[a + 1] == '(' && s[b] == ')'
    ensures s[q..b + 1] == "![" + s[q + 2..a] + "](" + s[a + 2..b] + ")"
  {
    assert s[q..q + 2] == "![" && s[a..a + 2] == "](" && s[b..b + 1] == ")";
    assert s[q..a] == s[q..q + 2] + s[q + 2..a];
    assert s[a + 2..b + 1] == s[a + 2..b] + s[b..b + 1];
    assert s[a..b + 1] == s[a..a + 2] + s[a + 2..b + 1];
    assert s[q..b + 1] == s[q..a] + s[a..b + 1];
  }

  /** Every image reference is matched where it starts, and the match ends
      right after its `)`. */
  lemma InlineImageFinds(s: string, q: nat, alt: string, src: string)
    requires ImageRef(alt, src)
    requires q + |alt| + |src| + 5 <= |s| && s[q..q + |alt| + |src| + 5] == "![" + alt + "](" + src + ")"
    ensures InlineImage(s, q) == Some(q + |alt| + |src| + 5)
  {
    var r := "![" + alt + "](" + src + ")";
    var a := q + 2 + |alt|;
    var b := a + 2 + |src|;
    assert s[q] == r[0] && s[q + 1] == r[1];
    assert s[a] == r[2 + |alt|] && s[a + 1] == r[3 + |alt|] && s[b] == r[4 + |alt| + |src|];
    forall k | q + 2 <= k < a ensures NotCloseBracket(s[k]) {
      assert s[k] == r[k - q] == alt[k - q - 2];
    }
    forall k | a + 2 <= k < b ensures NotCloseParen(s[k]) {
      assert s[k] == r[k - q] == src[k - a - 2];
    }
    RunEndUnique(s, q + 2, NotCloseBracket, a);
    RunEndUnique(s, a + 2, NotCloseParen, b);
  }

  // ------------------------------------------------------------ the loop

  /** The state in force when a loop driven by `step` reaches line `k`,
      having started at line `i` in state `skip`. */
  function StateAt(lines: seq<string>, i: nat, skip: Option<string>, k: nat, step: Stepper): Option<string>
    requires i <= k <= |lines|
    decreases k - i
  {
    if k == i then skip else step(lines[k - 1], StateAt(lines, i, skip, k - 1, step)).1
  }

  /** The skip state in force when `filterMdx`'s loop reaches line `k`. */
  function StateBefore(lines: seq<string>, i: nat, skip: Option<string>, k: nat): Option<string>
    requires i <= k <= |lines|
  {
    StateAt(lines, i, skip, k, Step)
  }

  lemma {:induction false} StateAtShift(lines: seq<string>, i: nat, skip: Option<string>, k: nat, step: Stepper)
    requires i < k <= |lines|
    ensures StateAt(lines, i, skip, k, step) == StateAt(lines, i + 1, step(lines[i], skip).1, k, step)
    decreases k - i
  {
    if k > i + 1 {
      StateAtShift(lines, i, skip, k - 1, step);
    }
  }

  lemma {:induction false} LoopLength(lines: seq<string>, i: nat, skip: Option<string>, step: Stepper)
    requires i <= |lines|
    ensures |Loop(lines, i, skip, step)| <= |lines| - i
    decreases |lines| - i
  {
    if i < |lines| {
      LoopLength(lines, i + 1, step(lines[i], skip).1, step);
    }
  }

  lemma {:induction false} LoopInRange(lines: seq<string>, i: nat, skip: Option<string>, step: Stepper)
    requires i <= |lines|
    ensures forall k :: 0 <= k < |Loop(lines, i, skip, step)| ==> i <= Loop(lines, i, skip, step)[k] < |lines|
    decreases |lines| - i
  {
    if i < |lines| {
      LoopInRange(lines, i + 1, step(lines[i], skip).1, step);
    }
  }

  lemma {:induction false} LoopSorted(lines: seq<string>, i: nat, skip: Option<string>, step: Stepper)
    requires i <= |lines|
    ensures forall k, m :: 0 <= k < m < |Loop(lines, i, skip, step)|
              ==> Loop(lines, i, skip, step)[k] < Loop(lines, i, skip, step)[m]
    decreases |lines| - i
  {
    if i < |lines| {
      var next := step(lines[i], skip).1;
      LoopInRange(lines, i + 1, next, step);
      LoopSorted(lines, i + 1, next, step);
    }
  }

  lemma {:induction false} LoopIff(lines: seq<string>, i: nat, skip: Option<string>, k: nat, step: Stepper)
    requires i <= k < |lines|
    ensures k in Loop(lines, i, skip, step) <==> step(lines[k], StateAt(lines, i, skip, k, step)).0
    decreases k - i
  {
    var next := step(lines[i], skip).1;
    LoopInRange(lines, i + 1, next, step);
    if k > i {
      LoopIff(lines, i + 1, next, k, step);
      StateAtShift(lines, i, skip, k, step);
    }
  }

  /** When every line a step keeps satisfies `p`, so does every line the
      loop keeps. */
  lemma {:induction false} LoopKeepsOnly(lines: seq<string>, i: nat, skip: Option<string>, step: Stepper,
                                         p: string -> bool)
    requires i <= |lines|
    requires forall line, s :: step(line, s).0 ==> p(line)
    ensures forall k :: 0 <= k < |Select(lines, Loop(lines, i, skip, step))| ==> p(Select(lines, Loop(lines, i, skip, step))[k])
    decreases |lines| - i
  {
    if i < |lines| {
      var next := step(lines[i], skip).1;
      var rest := Loop(lines, i + 1, next, step);
      LoopKeepsOnly(lines, i + 1, next, step, p);
      if step(lines[i], skip).0 {
        var idx := [i] + rest;
        assert Loop(lines, i, skip, step) == idx;
        assert idx[0] == i && idx[1..] == rest;
        assert Select(lines, idx) == [lines[i]] + Select(lines, rest);
      } else {
        assert Loop(lines, i, skip, step) == rest;
      }
    }
  }

  /** At most one index per line from `i` on is kept. */
  lemma KeptFromLength(lines: seq<string>, i: nat, skip: Option<string>)
    requires i <= |lines|
    ensures |KeptFrom(lines, i, skip)| <= |lines| - i
  {
    LoopLength(lines, i, skip, Step);
  }

  /** The kept indices lie in `[i, |lines|)` and increase: lines keep their
      order. */
  lemma KeptFromSorted(lines: seq<string>, i: nat, skip: Option<string>)
    requires i <= |lines|
    ensures forall k :: 0 <= k < |KeptFrom(lines, i, skip)| ==> i <= KeptFrom(lines, i, skip)[k] < |lines|
    ensures forall k, m :: 0 <= k < m < |KeptFrom(lines, i, skip)|
              ==> KeptFrom(lines, i, skip)[k] < KeptFrom(lines, i, skip)[m]
  {
    LoopInRange(lines, i, skip, Step);
    LoopSorted(lines, i, skip, Step);
  }

  /** Line `k` is kept exactly when the loop reaches it outside a skipped
      block and the line is none of the dropped kinds. */
  lemma KeptIff(lines: seq<string>, i: nat, skip: Option<string>, k: nat)
    requires i <= k < |lines|
    ensures k in KeptFrom(lines, i, skip) <==> Step(lines[k], StateBefore(lines, i, skip, k)).0
  {
    LoopIff(lines, i, skip, k, Step);
  }

  /** A pass keeps a line only outside a block, and then the line is plain. */
  lemma KeptStepIsPlain(line: string, skip: Option<string>)
    requires Step(line, skip).0
    ensures PlainLine(line)
  {
  }

  /** Every line the filter keeps is a plain line: the output holds no
      import, image line, self-closing tag or opening JSX tag, and no line
      from inside a skipped block. */
  lemma KeptLinesArePlain(lines: seq<string>, i: nat, skip: Option<string>)
    requires i <= |lines|
    ensures var kept := Select(lines, KeptFrom(lines, i, skip));
            forall k :: 0 <= k < |kept| ==> PlainLine(kept[k])
  {
    forall line, s | Step(line, s).0
      ensures PlainLine(line)
    {
      KeptStepIsPlain(line, s);
    }
    LoopKeepsOnly(lines, i, skip, Step, PlainLine);
  }

  /** Dropping a line leaves the state unchanged unless it opens or closes a
      block. */
  lemma ImportLineDropped(lines: seq<string>, i: nat, skip: Option<string>)
    requires i < |lines| && StartsWith(TrimStart(lines[i]), "import ")
    ensures KeptFrom(lines, i, skip) == KeptFrom(lines, i + 1, skip)
  {
  }

  lemma TrimStartKeeps(s: string)
    requires |s| > 0 && !IsSpace(s[0])
    ensures TrimStart(s) == s
  {
  }

  /** The import line of the converter's tests is dropped. */
  lemma SampleImportDropped(skip: Option<string>)
    ensures !Step("import { Comp } from \"./comp\"", skip).0
  {
    var imp := "import { Comp } from \"./comp\"";
    TrimStartKeeps(imp);
    assert imp[..7] == "import ";
  }

  /** The image line of the converter's tests is dropped. */
  lemma SampleImageDropped(skip: Option<string>)
    ensures !Step("![alt](image.png)", skip).0
  {
    var img := "![alt](image.png)";
    TrimStartKeeps(img);
    assert ImageLineAt(img, 5, 16);
  }

  /** The self-closing component of the converter's tests is dropped. */
  lemma SampleComponentDropped(skip: Option<string>)
    ensures !Step("<Component prop=\"value\" />", skip).0
  {
    var tag := "<Component prop=\"value\" />";
    TrimStartKeeps(tag);
    assert SelfCloseAt(tag, 24);
  }

  // ----------------------------------------------------- skipped blocks

  /** Inside a block the lines that do not close it are dropped and the
      block stays open. */
  lemma {:induction false} InsideBlock(lines: seq<string>, i: nat, j: nat, tag: string)
    requires i <= j < |lines|
    requires forall k :: i <= k < j ==> !StartsWith(TrimStart(lines[k]), "</" + tag + ">")
    requires StartsWith(TrimStart(lines[j]), "</" + tag + ">")
    ensures KeptFrom(lines, i, Some(tag)) == KeptFrom(lines, j + 1, None)
    decreases j - i
  {
    var t := TrimStart(lines[i]);
    if i < j {
      assert Step(lines[i], Some(tag)).1 == Some(tag);
      InsideBlock(lines, i + 1, j, tag);
    } else {
      ClosingLineIsNoOtherKind(t, tag);
    }
  }

  lemma ClosingLineIsNoOtherKind(t: string, tag: string)
    requires StartsWith(t, "</" + tag + ">")
    ensures !StartsWith(t, "import ") && !IsImageLine(t) && !IsSelfClosingTag(t)
  {
    assert t[0] == '<' && t[1] == '/';
  }

  /** A tag opened with a JSX attribute drops every line up to and including
      the first line that starts with its closing tag. */
  lemma SkippedBlock(lines: seq<string>, i: nat, j: nat, tag: string)
    requires i < j < |lines|
    requires OpenTag(TrimStart(lines[i])) == Some(tag) && !IsSelfClosingTag(TrimStart(lines[i]))
    requires forall k :: i < k < j ==> !StartsWith(TrimStart(lines[k]), "</" + tag + ">")
    requires StartsWith(TrimStart(lines[j]), "</" + tag + ">")
    ensures KeptFrom(lines, i, None) == KeptFrom(lines, j + 1, None)
  {
    OpeningLine(lines[i], tag);
    InsideBlock(lines, i + 1, j, tag);
  }

  /** Inside a block that never closes every remaining line is dropped. */
  lemma {:induction false} InsideUnclosedBlock(lines: seq<string>, i: nat, tag: string)
    requires i <= |lines|
    requires forall k :: i <= k < |lines| ==> !StartsWith(TrimStart(lines[k]), "</" + tag + ">")
    ensures KeptFrom(lines, i, Some(tag)) == []
    decreases |lines| - i
  {
    if i < |lines| {
      assert Step(lines[i], Some(tag)) == (false, Some(tag));
      InsideUnclosedBlock(lines, i + 1, tag);
    }
  }

  /** A tag opened with a JSX attribute and never closed drops its line and
      everything after it. */
  lemma UnclosedBlockDropsRest(lines: seq<string>, i: nat, tag: string)
    requires i < |lines|
    requires OpenTag(TrimStart(lines[i])) == Some(tag) && !IsSelfClosingTag(TrimStart(lines[i]))
    requires forall k :: i < k < |lines| ==> !StartsWith(TrimStart(lines[k]), "</" + tag + ">")
    ensures KeptFrom(lines, i, None) == []
  {
    OpeningLine(lines[i], tag);
    InsideUnclosedBlock(lines, i + 1, tag);
  }

  /** A line opening a JSX block is dropped and starts skipping. */
  lemma OpeningLine(line: string, tag: string)
    requires OpenTag(TrimStart(line)) == Some(tag) && !IsSelfClosingTag(TrimStart(line))
    ensures Step(line, None) == (false, Some(tag))
  {
    var t := TrimStart(line);
    assert t[0] == '<';
    assert !StartsWith(t, "import ") by { assert "import "[0] == 'i'; }
    assert !IsImageLine(t);
  }

  // --------------------------------------------------------- plain text

  /** A line that is none of the filtered kinds. */
  predicate PlainLine(line: string)
  {
    Step(line, None) == (true, None)
  }

  /** Plain lines are all kept. */
  lemma {:induction false} PlainKept(lines: seq<string>, i: nat)
    requires i <= |lines|
    requires forall k :: i <= k < |lines| ==> PlainLine(lines[k])
    ensures Select(lines, KeptFrom(lines, i, None)) == lines[i..]
    decreases |lines| - i
  {
    if i < |lines| {
      var rest := KeptFrom(lines, i + 1, None);
      PlainKept(lines, i + 1);
      assert Step(lines[i], None) == (true, None);
      assert KeptFrom(lines, i, None) == [i] + rest;
      assert ([i] + rest)[1..] == rest;
      assert lines[i..] == [lines[i]] + lines[i + 1..];
    }
  }

  /** Markdown without MDX constructs or image references passes through
      unchanged. */
  lemma PlainMarkdownUnchanged(markdown: string)
    requires forall k :: 0 <= k < |Split(markdown, '\n')| ==> PlainLine(Split(markdown, '\n')[k])
    requires forall q :: 0 <= q < |markdown| ==> InlineImage(markdown, q).None?
    ensures FilterMdx(markdown) == markdown
  {
    var lines := Split(markdown, '\n');
    PlainKept(lines, 0);
    assert lines[0..] == lines;
    JoinSplit(markdown, '\n');
  }

  // ----------------------------------------------------------- newlines

  lemma {:induction false} SelectLength(lines: seq<string>, idx: seq<nat>)
    ensures |Select(lines, idx)| <= |idx|
    ensures forall k :: 0 <= k < |Select(lines, idx)| ==> Select(lines, idx)[k] in lines
  {
    if |idx| > 0 {
      SelectLength(lines, idx[1..]);
    }
  }

  /** Filtering never adds a line: the output has at most as many line
      breaks as the input. */
  lemma FilterMdxLines(markdown: string)
    ensures Count(FilterMdx(markdown), '\n') <= Count(markdown, '\n')
  {
    var lines := Split(markdown, '\n');
    var idx := KeptFrom(lines, 0, None);
    var kept := Select(lines, idx);
    KeptFromLength(lines, 0, None);
    SelectLength(lines, idx);
    SplitCount(markdown, '\n');
    var joined := Join(kept, "\n");
    if |kept| >= 1 {
      forall k | 0 <= k < |kept| ensures '\n' !in kept[k] {
        var n :| 0 <= n < |lines| && lines[n] == kept[k];
      }
      JoinCount(kept, '\n');
    } else {
      assert joined == "";
    }
    RemoveFromCount(joined, 0, InlineImage, '\n');
    assert joined[0..] == joined;
  }
}

=== FILE: md_splitter.dfy ===
/** The content segmenter of skills/note-draft/lib/md-splitter.mjs: a
    Markdown body becomes an ordered list of text sections and image
    sections, one line at a time, and a cheap check tells whether the body
    has any inline image at all. */
module MdSplitter {
  import opened Results
  import opened Strings
  import opened Scan

  datatype Section = Text(content: string) | Image(alt: string, path: string)

  // ------------------------------------------------------ one image line

  predicate NotCloseBracket(c: char) { c != ']' }
  predicate NotCloseParen(c: char) { c != ')' }

  /** `line.match(/^!\[([^\]]*)\]\(([^)]+)\)/)`: the alt text (group 1) and
      the raw path (group 2), or nothing. Whatever follows the closing `)` is
      not part of the match. */
  function MatchImageLine(line: string): (r: Option<(string, string)>)
    ensures r.Some? ==> ']' !in r.value.0 && |r.value.1| > 0 && ')' !in r.value.1
    ensures r.Some? ==> StartsWith(line, "![" + r.value.0 + "](" + r.value.1 + ")")
  {
    if !StartsWith(line, "![") then None
    else
      var j := RunEnd(line, 2, NotCloseBracket);
      if j + 1 < |line| && line[j + 1] == '(' then
        var k := RunEnd(line, j + 2, NotCloseParen);
        if j + 2 < k < |line| then
          var alt, path := line[2..j], line[j + 2..k];
          assert line[..k + 1] == "![" + alt + "](" + path + ")";
          Some((alt, path))
        else None
      else None
  }


  /** Every line of the shape `![alt](path)...` is an image line with exactly
      that alt and path: the converse of `MatchImageLine`'s contract. */
  lemma MatchImageLineComplete(alt: string, path: string, rest: string)
    requires ']' !in alt && ')' !in path && |path| > 0
    ensures MatchImageLine("![" + alt + "](" + path + ")" + rest) == Some((alt, path))
  {
    var line := "![" + alt + "](" + path + ")" + rest;
    var j := 2 + |alt|;
    assert line[j] == ']';
    RunEndUnique(line, 2, NotCloseBracket, j);
    var k := j + 2 + |path|;
    assert line[k] == ')';
    forall i | j + 2 <= i < k
      ensures NotCloseParen(line[i])
    {
      assert line[i] == path[i - j - 2];
    }
    RunEndUnique(line, j + 2, NotCloseParen, k);
    assert line[2..j] == alt;
    assert line[j + 2..k] == path;
  }

  // ------------------------------------------------------------ sections

  /** `p.startsWith('/') ? p.slice(1) : p`: one leading separator is read as
      relative to the image base. */
  function StripSlash(p: string): (r: string)
    ensures StartsWith(p, "/") ==> "/" + r == p
    ensures !StartsWith(p, "/") ==> r == p
  {
    if StartsWith(p, "/") then p[1..] else p
  }

  /** The text lines gathered since the last image, as one section. */
  function Flush(pending: seq<string>): seq<Section>
  {
    if |pending| > 0 then [Text(Join(pending, "\n"))] else []
  }

  /** The loop of `splitAtImages` over the remaining `lines`, with the text
      lines gathered so far in `pending`. */
  function SplitLines(lines: seq<string>, imageBase: string, resolve: (string, string) -> string,
                      pending: seq<string>): seq<Section>
    decreases |lines|
  {
    if |lines| == 0 then Flush(pending)
    else match MatchImageLine(lines[0])
      case Some((alt, p)) =>
        Flush(pending) + [Image(alt, resolve(imageBase, StripSlash(p)))]
          + SplitLines(lines[1..], imageBase, resolve, [])
      case None => SplitLines(lines[1..], imageBase, resolve, pending + [lines[0]])
  }

  /** `splitAtImages(markdown, imageBase)`; `resolve` stands for Node's
      `path.resolve`. */
  function SplitAtImages(markdown: string, imageBase: string, resolve: (string, string) -> string): (r: seq<Section>)
  {
    SplitLines(Split(markdown, '\n'), imageBase, resolve, [])
  }

  // -------------------------------------------------- reference reading

  /** What one source line becomes: a line of some text section, or an
      image section of its own. */
  datatype LineRole = TextLine(line: string) | ImageLine(alt: string, path: string)

  function Classify(line: string, imageBase: string, resolve: (string, string) -> string): LineRole
  {
    match MatchImageLine(line)
    case Some((alt, p)) => ImageLine(alt, resolve(imageBase, StripSlash(p)))
    case None => TextLine(line)
  }

  function ClassifyAll(lines: seq<string>, imageBase: string, resolve: (string, string) -> string): (r: seq<LineRole>)
    ensures |r| == |lines|
  {
    if |lines| == 0 then [] else [Classify(lines[0], imageBase, resolve)] + ClassifyAll(lines[1..], imageBase, resolve)
  }

  function AsTextLines(lines: seq<string>): (r: seq<LineRole>)
    ensures |r| == |lines|
  {
    if |lines| == 0 then [] else [TextLine(lines[0])] + AsTextLines(lines[1..])
  }

  /** Unfold sections back into the source lines they stand for. */
  function Expand(sections: seq<Section>): seq<LineRole>
  {
    if |sections| == 0 then []
    else
      var head := match sections[0]
        case Text(c) => AsTextLines(Split(c, '\n'))
        case Image(alt, path) => [ImageLine(alt, path)];
      head + Expand(sections[1..])
  }

  /** Lines a section accounts for: a text section its `\n`-separated lines,
      an image section one. */
  function LineCount(sections: seq<Section>): nat
  {
    if |sections| == 0 then 0
    else
      (match sections[0] case Text(c) => |Split(c, '\n')| case Image(_, _) => 1)
        + LineCount(sections[1..])
  }

  predicate NoAdjacentText(sections: seq<Section>)
  {
    forall i :: 0 <= i < |sections| - 1 ==> !(sections[i].Text? && sections[i + 1].Text?)
  }

  lemma ExpandAppend(a: seq<Section>, b: seq<Section>)
    ensures Expand(a + b) == Expand(a) + Expand(b)
  {
    if |a| > 0 {
      assert (a + b)[1..] == a[1..] + b;
      ExpandAppend(a[1..], b);
    } else {
      assert a + b == b;
    }
  }

  lemma ExpandLength(sections: seq<Section>)
    ensures |Expand(sections)| == LineCount(sections)
  {
  }

  lemma {:induction false} AsTextLinesAppend(a: seq<string>, b: seq<string>)
    ensures AsTextLines(a + b) == AsTextLines(a) + AsTextLines(b)
  {
    if |a| == 0 {
      assert a + b == b;
    } else {
      assert (a + b)[1..] == a[1..] + b;
      AsTextLinesAppend(a[1..], b);
      AppendAssoc([TextLine(a[0])], AsTextLines(a[1..]), AsTextLines(b));
    }
  }

  lemma ClassifyAllCons(lines: seq<string>, imageBase: string, resolve: (string, string) -> string)
    requires |lines| > 0
    ensures ClassifyAll(lines, imageBase, resolve)
         == [Classify(lines[0], imageBase, resolve)] + ClassifyAll(lines[1..], imageBase, resolve)
  {
  }

  /** Pending lines are newline-free, so a flushed text section expands back
      to exactly those lines. */
  lemma ExpandFlush(pending: seq<string>)
    requires NoNewlines(pending)
    ensures Expand(Flush(pending)) == AsTextLines(pending)
  {
    if |pending| > 0 {
      SplitJoin(pending, '\n');
      assert Expand([Text(Join(pending, "\n"))]) == AsTextLines(Split(Join(pending, "\n"), '\n')) + Expand([]);
    }
  }

  /** The classification of the `k`-th line is the `k`-th role. */
  lemma {:induction false} ClassifyAllAt(lines: seq<string>, imageBase: string, resolve: (string, string) -> string, k: nat)
    requires k < |lines|
    ensures ClassifyAll(lines, imageBase, resolve)[k] == Classify(lines[k], imageBase, resolve)
    decreases k
  {
    if k > 0 {
      ClassifyAllAt(lines[1..], imageBase, resolve, k - 1);
    }
  }

  predicate NoNewlines(lines: seq<string>)
  {
    forall i :: 0 <= i < |lines| ==> '\n' !in lines[i]
  }

  lemma NoNewlinesTail(lines: seq<string>)
    requires |lines| > 0 && NoNewlines(lines)
    ensures NoNewlines(lines[1..])
  {
    forall i | 0 <= i < |lines| - 1
      ensures '\n' !in lines[1..][i]
    {
      assert lines[1..][i] == lines[i + 1];
    }
  }

  lemma NoNewlinesSnoc(pending: seq<string>, line: string)
    requires NoNewlines(pending) && '\n' !in line
    ensures NoNewlines(pending + [line])
  {
  }

  /** One step of the scan at an image line. */
  lemma SplitLinesAtImage(lines: seq<string>, imageBase: string, resolve: (string, string) -> string,
                          pending: seq<string>, alt: string, p: string)
    requires |lines| > 0 && MatchImageLine(lines[0]) == Some((alt, p))
    ensures SplitLines(lines, imageBase, resolve, pending)
         == Flush(pending) + [Image(alt, resolve(imageBase, StripSlash(p)))]
            + SplitLines(lines[1..], imageBase, resolve, [])
  {
  }

  /** One step of the scan at a text line. */
  lemma SplitLinesAtText(lines: seq<string>, imageBase: string, resolve: (string, string) -> string,
                         pending: seq<string>)
    requires |lines| > 0 && MatchImageLine(lines[0]).None?
    ensures SplitLines(lines, imageBase, resolve, pending)
         == SplitLines(lines[1..], imageBase, resolve, pending + [lines[0]])
  {
  }

  /** Flushing the pending lines before an image section expands to those
      lines followed by the image line. */
  lemma ExpandImageStep(pending: seq<string>, alt: string, path: string, rest: seq<Section>)
    requires NoNewlines(pending)
    ensures Expand(Flush(pending) + [Image(alt, path)] + rest)
         == AsTextLines(pending) + ([ImageLine(alt, path)] + Expand(rest))
  {
    var img := Image(alt, path);
    ExpandAppend(Flush(pending) + [img], rest);
    ExpandAppend(Flush(pending), [img]);
    ExpandFlush(pending);
    assert Expand([img]) == [ImageLine(alt, path)] + Expand([]);
    AppendAssoc(AsTextLines(pending), [ImageLine(alt, path)], Expand(rest));
  }

  /** The scan from any point reproduces the pending lines followed by the
      classification of every remaining line. */
  lemma {:induction false} SplitLinesExpand(lines: seq<string>, imageBase: string, resolve: (string, string) -> string,
                                            pending: seq<string>)
    requires NoNewlines(lines) && NoNewlines(pending)
    ensures Expand(SplitLines(lines, imageBase, resolve, pending))
         == AsTextLines(pending) + ClassifyAll(lines, imageBase, resolve)
    decreases |lines|
  {
    if |lines| == 0 {
      ExpandFlush(pending);
      assert AsTextLines(pending) + [] == AsTextLines(pending);
    } else {
      var tail := lines[1..];
      NoNewlinesTail(lines);
      ClassifyAllCons(lines, imageBase, resolve);
      match MatchImageLine(lines[0])
      case Some((alt, p)) =>
        var path := resolve(imageBase, StripSlash(p));
        var rest := SplitLines(tail, imageBase, resolve, []);
        SplitLinesAtImage(lines, imageBase, resolve, pending, alt, p);
        SplitLinesExpand(tail, imageBase, resolve, []);
        assert AsTextLines([]) + ClassifyAll(tail, imageBase, resolve) == ClassifyAll(tail, imageBase, resolve);
        ExpandImageStep(pending, alt, path, rest);
        assert Classify(lines[0], imageBase, resolve) == ImageLine(alt, path);
      case None =>
        SplitLinesAtText(lines, imageBase, resolve, pending);
        NoNewlinesSnoc(pending, lines[0]);
        SplitLinesExpand(tail, imageBase, resolve, pending + [lines[0]]);
        AsTextLinesAppend(pending, [lines[0]]);
        assert AsTextLines([lines[0]]) == [TextLine(lines[0])];
        assert Classify(lines[0], imageBase, resolve) == TextLine(lines[0]);
        AppendAssoc(AsTextLines(pending), [TextLine(lines[0])], ClassifyAll(tail, imageBase, resolve));
    }
  }

  /** Sections unfold to the source lines in source order: every line is an
      image section exactly when it starts with an image reference, with that
      alt text and the resolved path, and every other line sits, verbatim and
      in order, in some text section. */
  lemma SplitAtImagesFaithful(markdown: string, imageBase: string, resolve: (string, string) -> string)
    ensures Expand(SplitAtImages(markdown, imageBase, resolve))
         == ClassifyAll(Split(markdown, '\n'), imageBase, resolve)
  {
    SplitLinesExpand(Split(markdown, '\n'), imageBase, resolve, []);
  }

  /** Text section lines plus image sections add up to the input's line
      count. */
  lemma SplitAtImagesLineCount(markdown: string, imageBase: string, resolve: (string, string) -> string)
    ensures LineCount(SplitAtImages(markdown, imageBase, resolve)) == Count(markdown, '\n') + 1
  {
    SplitAtImagesFaithful(markdown, imageBase, resolve);
    ExpandLength(SplitAtImages(markdown, imageBase, resolve));
    SplitCount(markdown, '\n');
  }

  /** Text is flushed only before an image or at the end, so no two text
      sections are neighbours, and a text section is never empty of lines. */
  lemma {:induction false} SplitLinesShape(lines: seq<string>, imageBase: string, resolve: (string, string) -> string,
                                           pending: seq<string>)
    ensures NoAdjacentText(SplitLines(lines, imageBase, resolve, pending))
    ensures var r := SplitLines(lines, imageBase, resolve, pending);
            |r| > 0 && r[0].Text? ==> |pending| > 0 || (|lines| > 0 && MatchImageLine(lines[0]).None?)
    decreases |lines|
  {
    if |lines| > 0 {
      match MatchImageLine(lines[0])
      case Some((alt, p)) =>
        SplitLinesShape(lines[1..], imageBase, resolve, []);
        var rest := SplitLines(lines[1..], imageBase, resolve, []);
        var r := Flush(pending) + [Image(alt, resolve(imageBase, StripSlash(p)))] + rest;
        assert r == SplitLines(lines, imageBase, resolve, pending);
        forall i | 0 <= i < |r| - 1
          ensures !(r[i].Text? && r[i + 1].Text?)
        {
          var f := |Flush(pending)|;
          if i + 1 > f + 1 {
            assert r[i] == rest[i - f - 1] && r[i + 1] == rest[i - f];
          }
        }
      case None =>
        SplitLinesShape(lines[1..], imageBase, resolve, pending + [lines[0]]);
    }
  }

  lemma SplitAtImagesNoAdjacentText(markdown: string, imageBase: string, resolve: (string, string) -> string)
    ensures NoAdjacentText(SplitAtImages(markdown, imageBase, resolve))
  {
    SplitLinesShape(Split(markdown, '\n'), imageBase, resolve, []);
  }

  /** The empty body is one empty text section. */
  lemma SplitAtImagesEmpty(imageBase: string, resolve: (string, string) -> string)
    ensures SplitAtImages("", imageBase, resolve) == [Text("")]
  {
    assert Split("", '\n') == [""];
    assert MatchImageLine("").None?;
    assert [""][1..] == [];
    assert SplitLines([""], imageBase, resolve, []) == SplitLines([], imageBase, resolve, [""]);
  }

  /** A body made only of image lines yields only image sections, one per
      line. */
  lemma {:induction false} SplitLinesAllImages(lines: seq<string>, imageBase: string, resolve: (string, string) -> string)
    requires forall i :: 0 <= i < |lines| ==> MatchImageLine(lines[i]).Some?
    ensures var r := SplitLines(lines, imageBase, resolve, []);
            |r| == |lines| && forall i :: 0 <= i < |r| ==> r[i].Image?
    decreases |lines|
  {
    if |lines| > 0 {
      SplitLinesAllImages(lines[1..], imageBase, resolve);
    }
  }

  // --------------------------------------------------------- hasBodyImages

  /** The input cut at every line terminator: the lines a multiline regex
      anchors `^` to. */
  function RegexLines(s: string): (r: seq<string>)
    ensures |r| >= 1
  {
    if |s| == 0 then [""]
    else
      var rest := RegexLines(s[1..]);
      if IsLineTerminator(s[0]) then [""] + rest
      else [[s[0]] + rest[0]] + rest[1..]
  }

  /** A line matched by `^!\[.*\]\(.*\)`: `.` never crosses a line terminator,
      so the match stays on one line; it needs `![`, then `](` somewhere, then
      a `)` somewhere after that. */
  predicate LooseImageLine(line: string)
  {
    && StartsWith(line, "![")
    && exists i, j :: 2 <= i && i + 2 <= j < |line| && line[i] == ']' && line[i + 1] == '(' && line[j] == ')'
  }

  /** `hasBodyImages(markdown)`: `/^!\[.*\]\(.*\)/m.test(markdown)`. */
  predicate HasBodyImages(markdown: string)
  {
    var ls := RegexLines(markdown);
    exists k :: 0 <= k < |ls| && LooseImageLine(ls[k])
  }

  predicate OnlyNewlineTerminators(s: string)
  {
    forall i :: 0 <= i < |s| ==> (IsLineTerminator(s[i]) ==> s[i] == '\n')
  }

  /** Without `\r`, U+2028 or U+2029 the regex's lines are the split lines. */
  lemma {:induction false} RegexLinesAreSplitLines(s: string)
    requires OnlyNewlineTerminators(s)
    ensures RegexLines(s) == Split(s, '\n')
  {
    if |s| > 0 {
      assert OnlyNewlineTerminators(s[1..]);
      RegexLinesAreSplitLines(s[1..]);
    }
  }

  /** An image line in the strict sense is an image line in the loose sense. */
  lemma StrictImageLineIsLoose(line: string)
    requires MatchImageLine(line).Some?
    ensures LooseImageLine(line)
  {
    var (alt, path) := MatchImageLine(line).value;
    var i := 2 + |alt|;
    var j := i + 2 + |path|;
    assert line[..j + 1] == "![" + alt + "](" + path + ")";
    assert line[i] == ']' && line[i + 1] == '(' && line[j] == ')';
  }

  /** Whenever the segmenter emits an image section, the cheap check agrees
      (for bodies whose only line terminator is `\n`). */
  lemma ImageSectionImpliesHasBodyImages(markdown: string, imageBase: string, resolve: (string, string) -> string)
    requires OnlyNewlineTerminators(markdown)
    requires exists i :: 0 <= i < |SplitAtImages(markdown, imageBase, resolve)|
                         && SplitAtImages(markdown, imageBase, resolve)[i].Image?
    ensures HasBodyImages(markdown)
  {
    var secs := SplitAtImages(markdown, imageBase, resolve);
    var lines := Split(markdown, '\n');
    var i :| 0 <= i < |secs| && secs[i].Image?;
    SplitAtImagesFaithful(markdown, imageBase, resolve);
    ExpandHasImageLine(secs, i);
    var k :| 0 <= k < |Expand(secs)| && Expand(secs)[k].ImageLine?;
    ClassifyAllAt(lines, imageBase, resolve, k);
    assert MatchImageLine(lines[k]).Some?;
    StrictImageLineIsLoose(lines[k]);
    RegexLinesAreSplitLines(markdown);
  }

  lemma {:induction false} ExpandHasImageLine(secs: seq<Section>, i: nat)
    requires i < |secs| && secs[i].Image?
    ensures exists k :: 0 <= k < |Expand(secs)| && Expand(secs)[k].ImageLine?
  {
    if i == 0 {
      assert Expand(secs)[0] == ImageLine(secs[0].alt, secs[0].path);
    } else {
      ExpandHasImageLine(secs[1..], i - 1);
      var k :| 0 <= k < |Expand(secs[1..])| && Expand(secs[1..])[k].ImageLine?;
      var head := Expand(secs[..1]);
      assert secs == secs[..1] + secs[1..];
      ExpandAppend(secs[..1], secs[1..]);
      assert Expand(secs)[|head| + k] == Expand(secs[1..])[k];
    }
  }

  /** The converse fails: `![a]()` passes the cheap check (`.*` may be empty)
      but is a text line for the segmenter (`[^)]+` needs a path). */
  lemma HasBodyImagesWithoutImageSection(imageBase: string, resolve: (string, string) -> string)
    ensures HasBodyImages("![a]()")
    ensures SplitAtImages("![a]()", imageBase, resolve) == [Text("![a]()")]
  {
    var line := "![a]()";
    ExampleLineIsLoose();
    ExampleLineIsNotStrict();
    SplitJoin([line], '\n');
    assert SplitLines([line], imageBase, resolve, []) == SplitLines([], imageBase, resolve, [line]);
  }

  lemma ExampleLineIsLoose()
    ensures HasBodyImages("![a]()")
  {
    var line := "![a]()";
    RegexLinesSingle(line);
    assert line[3] == ']' && line[4] == '(' && line[5] == ')';
    assert LooseImageLine(RegexLines(line)[0]);
  }

  lemma ExampleLineIsNotStrict()
    ensures MatchImageLine("![a]()").None?
  {
    var line := "![a]()";
    assert StartsWith(line, "![");
    RunEndUnique(line, 2, NotCloseBracket, 3);
    RunEndUnique(line, 5, NotCloseParen, 5);
  }

  lemma {:induction false} RegexLinesSingle(s: string)
    requires forall i :: 0 <= i < |s| ==> !IsLineTerminator(s[i])
    ensures RegexLines(s) == [s]
  {
    if |s| > 0 {
      RegexLinesSingle(s[1..]);
      assert [s[0]] + s[1..] == s;
      assert [s[1..]][1..] == [];
    }
  }
}

=== FILE: md_to_html.dfy ===
/** `mdToHtml` of skills/note-draft/lib/md-to-html.mjs: the hand-written
    block-level Markdown to HTML converter used for editor paste. Two
    multiline regexes first delete MDX import lines and self-closing JSX
    lines; the text is then cut at `\n` and read block by block: fenced
    code, tables, quotes, bullet and numbered lists, `##`/`###` headings,
    `---` rules and paragraphs, whose HTML parts are joined by `\n`.

    `inlineFmt` (bold, italic, links and inline code by lookbehind regexes)
    is a parameter `inline`: nothing here depends on what it does. */
module MdToHtml {
  import opened Results
  import opened Strings
  import opened Scan

  // ------------------------------------------------------------ escaping

  /** `s.replace(/c/g, rep)` for a one-character pattern. */
  function ReplaceAll(s: string, c: char, rep: string): string
  {
    if |s| == 0 then "" else (if s[0] == c then rep else [s[0]]) + ReplaceAll(s[1..], c, rep)
  }

  /** `escapeHtml(s)`: `&` first, then `<`, then `>`. */
  function EscapeHtml(s: string): string
  {
    ReplaceAll(ReplaceAll(ReplaceAll(s, '&', "&amp;"), '<', "&lt;"), '>', "&gt;")
  }

  /** The entity a single character stands for in escaped text. */
  function EscapeChar(c: char): string
  {
    if c == '&' then "&amp;" else if c == '<' then "&lt;" else if c == '>' then "&gt;" else [c]
  }

  /** Reference reading of escaping: every character replaced by its entity
      on its own. */
  function Escaped(s: string): string
  {
    if |s| == 0 then "" else EscapeChar(s[0]) + Escaped(s[1..])
  }

  /** Decoding the three entities, left to right. */
  function Unescape(t: string): string
  {
    if |t| == 0 then ""
    else if StartsWith(t, "&amp;") then "&" + Unescape(t[5..])
    else if StartsWith(t, "&lt;") then "<" + Unescape(t[4..])
    else if StartsWith(t, "&gt;") then ">" + Unescape(t[4..])
    else [t[0]] + Unescape(t[1..])
  }

  lemma {:induction false} ReplaceAllAppend(a: string, b: string, c: char, rep: string)
    ensures ReplaceAll(a + b, c, rep) == ReplaceAll(a, c, rep) + ReplaceAll(b, c, rep)
  {
    if |a| > 0 {
      assert (a + b)[0] == a[0];
      assert (a + b)[1..] == a[1..] + b;
      ReplaceAllAppend(a[1..], b, c, rep);
      AppendAssoc(if a[0] == c then rep else [a[0]], ReplaceAll(a[1..], c, rep), ReplaceAll(b, c, rep));
    } else {
      assert a + b == b;
    }
  }

  lemma ReplaceAllAbsent(s: string, c: char, rep: string)
    requires c !in s
    ensures ReplaceAll(s, c, rep) == s
  {
    if |s| > 0 {
      assert c !in s[1..];
      ReplaceAllAbsent(s[1..], c, rep);
    }
  }

  /** One character escapes to its entity through the three passes. */
  lemma ReplaceAllOne(c: char, d: char, rep: string)
    ensures ReplaceAll([c], d, rep) == if c == d then rep else [c]
  {
    var one: string := [c];
    assert one[0] == c && one[1..] == "";
  }

  lemma EscapeOne(c: char)
    ensures EscapeHtml([c]) == EscapeChar(c)
  {
    ReplaceAllOne(c, '&', "&amp;");
    if c == '&' {
      ReplaceAllAbsent("&amp;", '<', "&lt;");
      ReplaceAllAbsent("&amp;", '>', "&gt;");
    } else {
      ReplaceAllOne(c, '<', "&lt;");
      if c == '<' {
        ReplaceAllAbsent("&lt;", '>', "&gt;");
      } else {
        ReplaceAllOne(c, '>', "&gt;");
      }
    }
  }

  /** The three sequential passes escape each character on its own: `&` is
      replaced first, so the `&` of `&lt;` and `&gt;` is never escaped
      again. */
  lemma {:induction false} EscapeHtmlIsCharwise(s: string)
    ensures EscapeHtml(s) == Escaped(s)
  {
    if |s| > 0 {
      var head, tail := [s[0]], s[1..];
      assert s == head + tail;
      ReplaceAllAppend(head, tail, '&', "&amp;");
      var a1, a2 := ReplaceAll(head, '&', "&amp;"), ReplaceAll(tail, '&', "&amp;");
      ReplaceAllAppend(a1, a2, '<', "&lt;");
      var b1, b2 := ReplaceAll(a1, '<', "&lt;"), ReplaceAll(a2, '<', "&lt;");
      ReplaceAllAppend(b1, b2, '>', "&gt;");
      EscapeOne(s[0]);
      EscapeHtmlIsCharwise(tail);
    }
  }

  lemma {:induction false} EscapedHasNoBrackets(s: string)
    ensures '<' !in Escaped(s) && '>' !in Escaped(s)
  {
    if |s| > 0 {
      EscapedHasNoBrackets(s[1..]);
      var e := EscapeChar(s[0]);
      assert '<' !in e && '>' !in e;
    }
  }

  /** Escaped text has no tag brackets left, and decoding the entities gives
      the input back. */
  lemma EscapeHtmlRoundTrip(s: string)
    ensures '<' !in EscapeHtml(s) && '>' !in EscapeHtml(s)
    ensures Unescape(EscapeHtml(s)) == s
  {
    EscapeHtmlIsCharwise(s);
    EscapedHasNoBrackets(s);
    UnescapeEscaped(s);
  }

  lemma {:induction false} UnescapeEscaped(s: string)
    ensures Unescape(Escaped(s)) == s
  {
    if |s| > 0 {
      UnescapeEscaped(s[1..]);
      UnescapeEntity(s[0], Escaped(s[1..]));
      HeadTail(s);
    }
  }

  /** Decoding reads one escaped character back, whatever follows it. */
  lemma UnescapeEntity(c: char, rest: string)
    ensures Unescape(EscapeChar(c) + rest) == [c] + Unescape(rest)
  {
    var t := EscapeChar(c) + rest;
    if c == '&' {
      assert t[..5] == "&amp;" && t[5..] == rest;
    } else if c == '<' {
      UnescapeBracket(c, "&lt;", rest);
    } else if c == '>' {
      UnescapeBracket(c, "&gt;", rest);
      assert !StartsWith(t, "&lt;") by { assert t[1] == 'g'; }
    } else {
      assert t[0] == c && t[1..] == rest;
      assert !StartsWith(t, "&amp;") && !StartsWith(t, "&lt;") && !StartsWith(t, "&gt;") by { assert t[0] != '&'; }
    }
  }

  lemma UnescapeBracket(c: char, e: string, rest: string)
    requires (c == '<' && e == "&lt;") || (c == '>' && e == "&gt;")
    ensures var t := e + rest; t[..4] == e && t[4..] == rest && !StartsWith(t, "&amp;")
  {
    var t := e + rest;
    assert t[1] == e[1];
  }

  // ----------------------------------------------------------- pre-filter

  /** The largest position in `[lo, hi)` holding a `cls` character: where
      a backtracking greedy quantifier first succeeds when it has to give
      characters back. */
  function LastWhere(s: string, lo: nat, hi: nat, cls: char -> bool): (r: Option<nat>)
    requires lo <= hi <= |s|
    ensures r.Some? ==> lo <= r.value < hi && cls(s[r.value])
    ensures r.Some? ==> forall k :: r.value < k < hi ==> !cls(s[k])
    ensures r.None? ==> forall k :: lo <= k < hi ==> !cls(s[k])
    decreases hi
  {
    if hi == lo then None
    else if cls(s[hi - 1]) then Some(hi - 1)
    else LastWhere(s, lo, hi - 1, cls)
  }

  /** `/^import\s+.+$/m` tried at `q`: where the match ends. `\s+` takes
      the whole blank run, line breaks included; when that run reaches the
      end of the input it gives back characters until `.+` can start on a
      character that is not a line terminator. */
  function ImportMatch(s: string, q: nat): (r: Option<nat>)
    ensures r.Some? ==> q < r.value <= |s|
  {
    if !(q + 6 <= |s| && AtLineStart(s, q) && s[q..q + 6] == "import") then None
    else
      var w := RunEnd(s, q + 6, IsSpace);
      if w == q + 6 then None
      else if w < |s| then Some(RunEnd(s, w, IsLineChar))
      else
        match LastWhere(s, q + 7, w, IsLineChar)
        case Some(j) => Some(RunEnd(s, j, IsLineChar))
        case None => None
  }

  /** Where `\s*$` (multiline) ends when it starts at `y`: at the end of the
      input if the blanks run there, else at the last line terminator among
      the blanks. */
  function BlankToLineEnd(t: string, y: nat): (r: Option<nat>)
    requires y <= |t|
    ensures r.Some? ==> y <= r.value <= |t|
  {
    var w := RunEnd(t, y, IsSpace);
    if w == |t| then Some(|t|) else LastWhere(t, y, w, IsLineTerminator)
  }

  /** The lazy `[\s\S]*?\/>\s*$` from `x`: the first `/>` from which the
      rest of its line is blank. */
  function CloseFrom(t: string, x: nat): (r: Option<nat>)
    requires x <= |t|
    ensures r.Some? ==> x + 2 <= r.value <= |t|
    decreases |t| - x
  {
    if x + 2 > |t| then None
    else if t[x] == '/' && t[x + 1] == '>' && BlankToLineEnd(t, x + 2).Some? then BlankToLineEnd(t, x + 2)
    else CloseFrom(t, x + 1)
  }

  /** `/^<[A-Z][A-Za-z0-9]*[\s\S]*?\/>\s*$/m` tried at `q`. Giving back
      characters of the name never helps, since `/` is not one of them. */
  function JsxMatch(t: string, q: nat): (r: Option<nat>)
    ensures r.Some? ==> q < r.value <= |t|
  {
    if !(q + 1 < |t| && AtLineStart(t, q) && t[q] == '<' && IsUpper(t[q + 1])) then None
    else CloseFrom(t, RunEnd(t, q + 2, IsAlnum))
  }

  /** `md.replace(/^import\s+.+$/gm, '').replace(/^<[A-Z]…\/>\s*$/gm, '')` */
  function Prefilter(md: string): string
  {
    RemoveFrom(RemoveFrom(md, 0, ImportMatch), 0, JsxMatch)
  }

  /** No line of the text starts with `i` or `<`. */
  predicate NoFilteredLineStarts(s: string)
  {
    forall q :: 0 <= q < |s| && AtLineStart(s, q) ==> s[q] != 'i' && s[q] != '<'
  }

  /** Text without a line starting like an import or a tag passes the
      pre-filter unchanged. */
  lemma PrefilterKeeps(md: string)
    requires NoFilteredLineStarts(md)
    ensures Prefilter(md) == md
  {
    forall q | 0 <= q < |md|
      ensures ImportMatch(md, q).None?
    {
      NoImportAt(md, q);
    }
    assert RemoveFrom(md, 0, ImportMatch) == md[0..] == md;
    forall q | 0 <= q < |md|
      ensures JsxMatch(md, q).None?
    {
      NoJsxAt(md, q);
    }
  }

  lemma NoImportAt(s: string, q: nat)
    requires q < |s| && (AtLineStart(s, q) ==> s[q] != 'i')
    ensures ImportMatch(s, q).None?
  {
    if q + 6 <= |s| && s[q..q + 6] == "import" {
      assert s[q] == s[q..q + 6][0];
    }
  }

  lemma NoJsxAt(s: string, q: nat)
    requires q < |s| && (AtLineStart(s, q) ==> s[q] != '<')
    ensures JsxMatch(s, q).None?
  {
  }

  /** A text whose lines start like neither an import nor a tag still has
      that property behind a line break. */
  lemma NewlineKeepsStarts(rest: string)
    requires NoFilteredLineStarts(rest)
    ensures NoFilteredLineStarts("\n" + rest)
  {
    var u := "\n" + rest;
    forall q | 0 < q < |u| && AtLineStart(u, q)
      ensures u[q] != 'i' && u[q] != '<'
    {
      assert u[q] == rest[q - 1];
      if q > 1 {
        assert u[q - 1] == rest[q - 2];
      }
      assert AtLineStart(rest, q - 1);
    }
  }

  /** Positions inside `u` keep their line starts behind any `a`. */
  lemma LineStartsShift(a: string, u: string, q: nat)
    requires NoFilteredLineStarts(u) && |u| > 0 && u[0] != 'i' && u[0] != '<'
    requires |a| <= q < |a + u|
    ensures AtLineStart(a + u, q) ==> (a + u)[q] != 'i' && (a + u)[q] != '<'
  {
    var s := a + u;
    assert s[q] == u[q - |a|];
    if q > |a| && AtLineStart(s, q) {
      assert s[q - 1] == u[q - |a| - 1];
      assert AtLineStart(u, q - |a|);
    }
  }

  /** `import` and one blank followed by a non-blank rest of line matches
      up to the end of that line. */
  lemma ImportLineMatch(x: string, rest: string)
    requires x != "" && !IsSpace(x[0]) && forall k :: 0 <= k < |x| ==> IsLineChar(x[k])
    requires rest == "" || IsLineTerminator(rest[0])
    ensures ImportMatch("import " + x + rest, 0) == Some(7 + |x|)
  {
    var s := "import " + x + rest;
    assert s[0..6] == "import";
    assert s[6] == ' ' && s[7] == x[0];
    RunEndUnique(s, 6, IsSpace, 7);
    forall k | 7 <= k < 7 + |x|
      ensures IsLineChar(s[k])
    {
      assert s[k] == x[k - 7];
    }
    if rest != "" {
      assert s[7 + |x|] == rest[0];
    }
    RunEndUnique(s, 7, IsLineChar, 7 + |x|);
  }

  /** The lazy close search walks past positions that hold no `/>`. */
  lemma {:induction false} CloseFromAt(t: string, x: nat, c: nat)
    requires x <= c && c + 2 <= |t| && t[c] == '/' && t[c + 1] == '>'
    requires forall k :: x <= k < c ==> !(t[k] == '/' && t[k + 1] == '>')
    requires BlankToLineEnd(t, c + 2).Some?
    ensures CloseFrom(t, x) == BlankToLineEnd(t, c + 2)
    decreases c - x
  {
    if x < c {
      CloseFromAt(t, x + 1, c);
    }
  }

  /** A component line `<Name…/>` with no earlier `/>`, followed by a line
      break and a non-blank line, matches up to that line break. */
  lemma ComponentLineMatch(body: string, rest: string)
    requires |body| > 0 && IsUpper(body[0])
    requires forall k :: 0 <= k < |body| - 1 ==> !(body[k] == '/' && body[k + 1] == '>')
    requires |rest| >= 2 && IsLineTerminator(rest[0]) && !IsSpace(rest[1])
    ensures JsxMatch("<" + body + "/>" + rest, 0) == Some(|body| + 3)
  {
    var t := "<" + body + "/>" + rest;
    var c := |body| + 1;
    assert t[0] == '<' && t[1] == body[0];
    assert t[c] == '/' && t[c + 1] == '>' && t[c + 2] == rest[0] && t[c + 3] == rest[1];
    var x := RunEnd(t, 2, IsAlnum);
    assert x <= c;
    forall k | x <= k < c
      ensures !(t[k] == '/' && t[k + 1] == '>')
    {
      assert t[k] == body[k - 1];
      if k + 1 < c {
        assert t[k + 1] == body[k];
      }
    }
    RunEndUnique(t, c + 2, IsSpace, c + 3);
    assert LastWhere(t, c + 2, c + 3, IsLineTerminator) == Some(c + 2);
    CloseFromAt(t, x, c);
  }

  /** An import line is removed up to its line break, and the lines after
      it, none of which starts like an import or a component, are kept. */
  lemma PrefilterDropsImportLine(x: string, rest: string)
    requires x != "" && !IsSpace(x[0]) && forall k :: 0 <= k < |x| ==> IsLineChar(x[k])
    requires NoFilteredLineStarts(rest)
    ensures Prefilter("import " + x + "\n" + rest) == "\n" + rest
  {
    var a := "import " + x;
    var u := "\n" + rest;
    var s := a + u;
    assert s == "import " + x + "\n" + rest;
    ImportLineMatch(x, u);
    NewlineKeepsStarts(rest);
    forall q | |a| <= q < |s|
      ensures ImportMatch(s, q).None?
    {
      LineStartsShift(a, u, q);
      NoImportAt(s, q);
    }
    assert s[|a|..] == u;
    assert RemoveFrom(s, 0, ImportMatch) == u;
    forall q | 0 <= q < |u|
      ensures JsxMatch(u, q).None?
    {
      NoJsxAt(u, q);
    }
  }

  /** A self-closing component line is removed up to its line break, and
      the lines after it are kept when the next one is not blank. */
  lemma PrefilterDropsComponentLine(body: string, rest: string)
    requires |body| > 0 && IsUpper(body[0])
    requires forall k :: 0 <= k < |body| ==> IsLineChar(body[k])
    requires forall k :: 0 <= k < |body| - 1 ==> !(body[k] == '/' && body[k + 1] == '>')
    requires rest != "" && !IsSpace(rest[0]) && NoFilteredLineStarts(rest)
    ensures Prefilter("<" + body + "/>" + "\n" + rest) == "\n" + rest
  {
    var a := "<" + body + "/>";
    var u := "\n" + rest;
    var s := a + u;
    assert s == "<" + body + "/>" + "\n" + rest;
    NewlineKeepsStarts(rest);
    forall q | 0 <= q < |s|
      ensures ImportMatch(s, q).None?
    {
      if q >= |a| {
        LineStartsShift(a, u, q);
      } else if q > 0 {
        if q - 1 == 0 {
          assert s[q - 1] == '<';
        } else if q - 1 <= |body| {
          assert s[q - 1] == body[q - 2];
        } else {
          assert s[q - 1] == '/';
        }
      }
      NoImportAt(s, q);
    }
    assert RemoveFrom(s, 0, ImportMatch) == s[0..] == s;
    ComponentLineMatch(body, u);
    forall q | |a| <= q < |s|
      ensures JsxMatch(s, q).None?
    {
      LineStartsShift(a, u, q);
      NoJsxAt(s, q);
    }
    assert s[|a|..] == u;
  }

  // ---------------------------------------------------------------- lines

  /** A line that trims to nothing. */
  predicate Blank(line: string) { Trim(line) == "" }

  predicate IsFence(line: string) { StartsWith(Trim(line), "```") }
  predicate IsTableLine(line: string) { StartsWith(Trim(line), "|") }
  predicate IsQuoteLine(line: string) { StartsWith(Trim(line), "> ") }

  /** `/^[-*]\s+/` on a trimmed line. */
  predicate IsBullet(t: string)
  {
    |t| >= 2 && (t[0] == '-' || t[0] == '*') && IsSpace(t[1])
  }

  predicate IsBulletLine(line: string) { IsBullet(Trim(line)) }

  /** `t.replace(/^[-*]\s+/, '')` */
  function BulletItem(t: string): string
    requires IsBullet(t)
  {
    t[RunEnd(t, 1, IsSpace)..]
  }

  /** Where the digits of `/^\d+\.\s+/` end. */
  function DigitsEnd(t: string): nat
    ensures DigitsEnd(t) <= |t|
  {
    RunEnd(t, 0, IsDigit)
  }

  /** `/^\d+\.\s+/` on a trimmed line. */
  predicate IsNumbered(t: string)
  {
    var d := DigitsEnd(t);
    d >= 1 && d + 1 < |t| && t[d] == '.' && IsSpace(t[d + 1])
  }

  predicate IsNumberedLine(line: string) { IsNumbered(Trim(line)) }

  /** `t.replace(/^\d+\.\s+/, '')` */
  function NumberedItem(t: string): string
    requires IsNumbered(t)
  {
    t[RunEnd(t, DigitsEnd(t) + 1, IsSpace)..]
  }

  /** `[\s-:|]`: in a class, `-` next to the escape `\s` is a literal dash. */
  predicate SeparatorChar(c: char)
  {
    IsSpace(c) || c == '-' || c == ':' || c == '|'
  }

  /** `/^\|[\s-:|]+\|$/` on a trimmed table line: an alignment row. */
  predicate IsSeparatorRow(t: string)
  {
    |t| >= 3 && t[0] == '|' && t[|t| - 1] == '|' && forall k :: 1 <= k < |t| - 1 ==> SeparatorChar(t[k])
  }

  /** End of the run of lines from `i` that satisfy `p`: how the inner
      `while` loops of one block advance. */
  function RunOf(lines: seq<string>, i: nat, p: string -> bool): (j: nat)
    requires i <= |lines|
    ensures i <= j <= |lines|
    ensures i < |lines| && p(lines[i]) ==> i < j
    ensures j == |lines| || !p(lines[j])
    decreases |lines| - i
  {
    if i < |lines| && p(lines[i]) then RunOf(lines, i + 1, p) else i
  }

  // --------------------------------------------------------------- blocks

  datatype Block =
    | Code(code: seq<string>)
    | Table(rows: seq<string>)
    | Quote(bodies: seq<string>)
    | Bullets(items: seq<string>)
    | Numbered(items: seq<string>)
    | H3(text: string)
    | H2(text: string)
    | Rule
    | Para(text: string)

  /** A block and the source lines `[start, end)` it was read from. */
  datatype Span = Span(start: nat, end: nat, block: Block)

  /** The kept rows of a table: trimmed, alignment rows dropped, in order. */
  function TableRows(ls: seq<string>): seq<string>
  {
    if |ls| == 0 then []
    else (if IsSeparatorRow(Trim(ls[0])) then [] else [Trim(ls[0])]) + TableRows(ls[1..])
  }

  /** The block that starts at the non-blank line `i`, and the index the
      outer loop continues from. */
  function BlockAt(lines: seq<string>, i: nat): (r: (Block, nat))
    requires i < |lines|
    ensures i < r.1 <= |lines|
  {
    var t := Trim(lines[i]);
    if StartsWith(t, "```") then FenceBlock(lines, i)
    else if StartsWith(t, "|") then TableBlock(lines, i)
    else if StartsWith(t, "> ") then QuoteBlock(lines, i)
    else if IsBullet(t) then BulletBlock(lines, i)
    else if IsNumbered(t) then NumberedBlock(lines, i)
    else if StartsWith(t, "### ") then (H3(t[4..]), i + 1)
    else if StartsWith(t, "## ") then (H2(t[3..]), i + 1)
    else if t == "---" then (Rule, i + 1)
    else (Para(t), i + 1)
  }

  predicate NotFence(line: string) { !IsFence(line) }

  /** A fence: the lines up to the next line that trims to a fence start,
      which is consumed too. An unclosed fence runs to the end of the input
      (the source's index then passes the end by one, which ends the loop
      just the same). */
  function FenceBlock(lines: seq<string>, i: nat): (r: (Block, nat))
    requires i < |lines|
    ensures i < r.1 <= |lines|
  {
    var j := RunOf(lines, i + 1, NotFence);
    (Code(lines[i + 1..j]), if j < |lines| then j + 1 else j)
  }

  function TableBlock(lines: seq<string>, i: nat): (r: (Block, nat))
    requires i < |lines| && IsTableLine(lines[i])
    ensures i < r.1 <= |lines|
  {
    var j := RunOf(lines, i, IsTableLine);
    (Table(TableRows(lines[i..j])), j)
  }

  function QuoteBlock(lines: seq<string>, i: nat): (r: (Block, nat))
    requires i < |lines| && IsQuoteLine(lines[i])
    ensures i < r.1 <= |lines|
  {
    var j := RunOf(lines, i, IsQuoteLine);
    (Quote(MapLines(lines[i..j], QuoteText)), j)
  }

  function BulletBlock(lines: seq<string>, i: nat): (r: (Block, nat))
    requires i < |lines| && IsBulletLine(lines[i])
    ensures i < r.1 <= |lines|
  {
    var j := RunOf(lines, i, IsBulletLine);
    (Bullets(MapLines(lines[i..j], BulletText)), j)
  }

  function NumberedBlock(lines: seq<string>, i: nat): (r: (Block, nat))
    requires i < |lines| && IsNumberedLine(lines[i])
    ensures i < r.1 <= |lines|
  {
    var j := RunOf(lines, i, IsNumberedLine);
    (Numbered(MapLines(lines[i..j], NumberedText)), j)
  }

  /** `lines[i].trim().slice(2)`: JavaScript's `slice` past the end is empty. */
  function QuoteText(line: string): string
  {
    var t := Trim(line);
    if |t| >= 2 then t[2..] else ""
  }

  /** `lines[i].trim().replace(/^[-*]\s+/, '')`: no match leaves the text. */
  function BulletText(line: string): string
  {
    var t := Trim(line);
    if IsBullet(t) then BulletItem(t) else t
  }

  /** `lines[i].trim().replace(/^\d+\.\s+/, '')` */
  function NumberedText(line: string): string
  {
    var t := Trim(line);
    if IsNumbered(t) then NumberedItem(t) else t
  }

  /** `f` applied to every line, in order. */
  function MapLines(ls: seq<string>, f: string -> string): (r: seq<string>)
    ensures |r| == |ls|
  {
    if |ls| == 0 then [] else [f(ls[0])] + MapLines(ls[1..], f)
  }

  /** The block at line `i`, made total: past the end nothing is read. */
  function ReadAt(lines: seq<string>, i: nat): (r: (Block, nat))
    ensures i < r.1
    ensures i < |lines| ==> r == BlockAt(lines, i) && r.1 <= |lines|
  {
    if i < |lines| then BlockAt(lines, i) else (Rule, i + 1)
  }

  /** The outer `while` loop from line `i`, for a blank-line test and a
      block reader: blank lines are skipped, every other line starts a
      block, and reading resumes where the block ended. The loop stops if
      the reader does not advance, which `ReadAt` always does. */
  function Walk(lines: seq<string>, i: nat, blank: string -> bool, read: (seq<string>, nat) -> (Block, nat)): seq<Span>
    decreases |lines| - i
  {
    if i >= |lines| then []
    else if blank(lines[i]) then Walk(lines, i + 1, blank, read)
    else
      var (b, e) := read(lines, i);
      if e <= i then [] else [Span(i, e, b)] + Walk(lines, e, blank, read)
  }

  /** The outer loop of `mdToHtml` over all lines from `i`. */
  function Parse(lines: seq<string>, i: nat): seq<Span>
  {
    Walk(lines, i, Blank, ReadAt)
  }

  // ------------------------------------------------------------ rendering

  function Items(items: seq<string>, inline: string -> string): string
  {
    if |items| == 0 then "" else "<li>" + inline(items[0]) + "</li>" + Items(items[1..], inline)
  }

  /** `row.split('|').filter(Boolean)`: the non-empty pieces. */
  function NonEmpty(pieces: seq<string>): seq<string>
  {
    if |pieces| == 0 then [] else (if pieces[0] == "" then [] else [pieces[0]]) + NonEmpty(pieces[1..])
  }

  function CellsHtml(cells: seq<string>, tag: string, inline: string -> string): string
  {
    if |cells| == 0 then ""
    else "<" + tag + ">" + inline(Trim(cells[0])) + "</" + tag + ">" + CellsHtml(cells[1..], tag, inline)
  }

  function RowHtml(row: string, tag: string, inline: string -> string): string
  {
    "<tr>" + CellsHtml(NonEmpty(Split(row, '|')), tag, inline) + "</tr>"
  }

  /** The rows from index `idx` on; row 0 is the header row. */
  function RowsHtml(rows: seq<string>, idx: nat, inline: string -> string): string
    requires idx <= |rows|
    decreases |rows| - idx
  {
    if idx == |rows| then ""
    else RowHtml(rows[idx], if idx == 0 then "th" else "td", inline) + RowsHtml(rows, idx + 1, inline)
  }

  /** `renderTable(rows)` */
  function RenderTable(rows: seq<string>, inline: string -> string): string
  {
    if |rows| == 0 then "" else "<table>" + RowsHtml(rows, 0, inline) + "</table>"
  }

  function Render(b: Block, inline: string -> string): string
  {
    match b
    case Code(code) => "<pre><code>" + EscapeHtml(Join(code, "\n")) + "</code></pre>"
    case Table(rows) => RenderTable(rows, inline)
    case Quote(bodies) => "<blockquote><p>" + inline(Join(bodies, " ")) + "</p></blockquote>"
    case Bullets(items) => "<ul>" + Items(items, inline) + "</ul>"
    case Numbered(items) => "<ol>" + Items(items, inline) + "</ol>"
    case H3(text) => "<h3>" + inline(text) + "</h3>"
    case H2(text) => "<h2>" + inline(text) + "</h2>"
    case Rule => "<hr>"
    case Para(text) => "<p>" + inline(text) + "</p>"
  }

  /** `parts`: one HTML part per block, in the order of the blocks. */
  function Parts(spans: seq<Span>, inline: string -> string): (parts: seq<string>)
    ensures |parts| == |spans|
  {
    if |spans| == 0 then [] else [Render(spans[0].block, inline)] + Parts(spans[1..], inline)
  }

  /** `mdToHtml(md)` */
  function MdToHtml(md: string, inline: string -> string): string
  {
    Join(Parts(Parse(Split(Prefilter(md), '\n'), 0), inline), "\n")
  }

  // ------------------------------------------------------------ structure

  lemma ParseBlank(lines: seq<string>, i: nat)
    requires i < |lines| && Blank(lines[i])
    ensures Parse(lines, i) == Parse(lines, i + 1)
  {
  }

  lemma ParseBlock(lines: seq<string>, i: nat)
    requires i < |lines| && !Blank(lines[i])
    ensures Parse(lines, i) == [Span(i, BlockAt(lines, i).1, BlockAt(lines, i).0)] + Parse(lines, BlockAt(lines, i).1)
  {
  }

  /** Span `k` of the walk from line `i` is the block read at its start,
      which is a line at or after `i` that is not blank. */
  lemma {:induction false} WalkSpanAt(lines: seq<string>, i: nat, blank: string -> bool, read: (seq<string>, nat) -> (Block, nat), k: nat)
    requires k < |Walk(lines, i, blank, read)|
    ensures var sp := Walk(lines, i, blank, read)[k];
            && i <= sp.start < sp.end && sp.start < |lines| && !blank(lines[sp.start])
            && read(lines, sp.start) == (sp.block, sp.end)
    decreases |lines| - i
  {
    if blank(lines[i]) {
      WalkSpanAt(lines, i + 1, blank, read, k);
    } else if k > 0 {
      WalkSpanAt(lines, read(lines, i).1, blank, read, k - 1);
    }
  }

  /** Consecutive spans follow each other in source order without
      overlapping. */
  lemma {:induction false} WalkStep(lines: seq<string>, i: nat, blank: string -> bool, read: (seq<string>, nat) -> (Block, nat), k: nat)
    requires k + 1 < |Walk(lines, i, blank, read)|
    ensures Walk(lines, i, blank, read)[k].end <= Walk(lines, i, blank, read)[k + 1].start
    decreases |lines| - i
  {
    if blank(lines[i]) {
      WalkStep(lines, i + 1, blank, read, k);
    } else if k == 0 {
      WalkSpanAt(lines, read(lines, i).1, blank, read, 0);
    } else {
      WalkStep(lines, read(lines, i).1, blank, read, k - 1);
    }
  }

  /** A line from `i` on that is not blank lies in span `k`, provided the
      reader advances. */
  lemma {:induction false} WalkCovers(lines: seq<string>, i: nat, blank: string -> bool, read: (seq<string>, nat) -> (Block, nat), j: nat)
    returns (k: nat)
    requires forall x :: i <= x < |lines| ==> x < read(lines, x).1
    requires i <= j < |lines| && !blank(lines[j])
    ensures k < |Walk(lines, i, blank, read)|
    ensures Walk(lines, i, blank, read)[k].start <= j < Walk(lines, i, blank, read)[k].end
    decreases |lines| - i
  {
    if blank(lines[i]) {
      k := WalkCovers(lines, i + 1, blank, read, j);
    } else if j < read(lines, i).1 {
      k := 0;
    } else {
      var m := WalkCovers(lines, read(lines, i).1, blank, read, j);
      k := m + 1;
    }
  }

  /** Only blank lines from `i` on: no blocks. */
  lemma {:induction false} WalkAllBlank(lines: seq<string>, i: nat, blank: string -> bool, read: (seq<string>, nat) -> (Block, nat))
    requires forall j :: i <= j < |lines| ==> blank(lines[j])
    ensures Walk(lines, i, blank, read) == []
    decreases |lines| - i
  {
    if i < |lines| {
      WalkAllBlank(lines, i + 1, blank, read);
    }
  }

  /** Span `k` of the loop is the block `BlockAt` reads at its start, which
      is a non-blank line at or after `i`. */
  lemma ParseSpanAt(lines: seq<string>, i: nat, k: nat)
    requires k < |Parse(lines, i)|
    ensures var sp := Parse(lines, i)[k];
            && i <= sp.start < sp.end <= |lines| && !Blank(lines[sp.start])
            && BlockAt(lines, sp.start) == (sp.block, sp.end)
  {
    WalkSpanAt(lines, i, Blank, ReadAt, k);
  }

  /** The loop reads the lines as a partition: each non-blank line belongs
      to exactly one block, blocks are in source order, and every line no
      block holds is blank. */
  lemma ParsePartition(lines: seq<string>)
    ensures var sp := Parse(lines, 0);
            && (forall k :: 0 <= k < |sp| ==> sp[k].start < sp[k].end <= |lines| && !Blank(lines[sp[k].start]))
            && (forall k, m :: 0 <= k < m < |sp| ==> sp[k].end <= sp[m].start)
            && (forall j :: 0 <= j < |lines| && !Blank(lines[j]) ==>
                  exists k :: 0 <= k < |sp| && sp[k].start <= j < sp[k].end)
  {
    ParseSpansInRange(lines);
    ParseSpansDisjoint(lines);
    ParseCoversAll(lines);
  }

  lemma ParseSpansInRange(lines: seq<string>)
    ensures var sp := Parse(lines, 0);
            forall k :: 0 <= k < |sp| ==> sp[k].start < sp[k].end <= |lines| && !Blank(lines[sp[k].start])
  {
    var sp := Parse(lines, 0);
    forall k | 0 <= k < |sp|
      ensures sp[k].start < sp[k].end <= |lines| && !Blank(lines[sp[k].start])
    {
      ParseSpanAt(lines, 0, k);
    }
  }

  lemma ParseSpansDisjoint(lines: seq<string>)
    ensures var sp := Parse(lines, 0);
            forall k, m :: 0 <= k < m < |sp| ==> sp[k].end <= sp[m].start
  {
    var sp := Parse(lines, 0);
    ParseSpansInRange(lines);
    forall k | 0 <= k < |sp| - 1
      ensures sp[k].end <= sp[k + 1].start
    {
      WalkStep(lines, 0, Blank, ReadAt, k);
    }
    forall k, m | 0 <= k < m < |sp|
      ensures sp[k].end <= sp[m].start
    {
      OrderedChain(sp, k, m);
    }
  }

  lemma ParseCoversAll(lines: seq<string>)
    ensures var sp := Parse(lines, 0);
            forall j :: 0 <= j < |lines| && !Blank(lines[j]) ==>
              exists k :: 0 <= k < |sp| && sp[k].start <= j < sp[k].end
  {
    var sp := Parse(lines, 0);
    forall j | 0 <= j < |lines| && !Blank(lines[j])
      ensures exists k :: 0 <= k < |sp| && sp[k].start <= j < sp[k].end
    {
      var k := WalkCovers(lines, 0, Blank, ReadAt, j);
      assert sp[k].start <= j < sp[k].end;
    }
  }

  lemma {:induction false} OrderedChain(sp: seq<Span>, k: nat, m: nat)
    requires k < m < |sp|
    requires forall x :: 0 <= x < |sp| ==> sp[x].start < sp[x].end
    requires forall x :: 0 <= x < |sp| - 1 ==> sp[x].end <= sp[x + 1].start
    ensures sp[k].end <= sp[m].start
    decreases m - k
  {
    if m > k + 1 {
      OrderedChain(sp, k + 1, m);
    }
  }

  /** Part `k` of the output is the rendering of block `k`. */
  lemma {:induction false} PartsAt(spans: seq<Span>, inline: string -> string, k: nat)
    requires k < |spans|
    ensures Parts(spans, inline)[k] == Render(spans[k].block, inline)
    decreases k
  {
    if k > 0 {
      PartsAt(spans[1..], inline, k - 1);
    }
  }

  // ---------------------------------------------------------- blank input

  lemma {:induction false} SplitAllSpace(s: string, d: char)
    requires AllSpace(s)
    ensures forall k :: 0 <= k < |Split(s, d)| ==> AllSpace(Split(s, d)[k])
  {
    if |s| > 0 {
      SplitAllSpace(s[1..], d);
      var rest := Split(s[1..], d);
      var r := Split(s, d);
      if s[0] != d {
        assert r == [[s[0]] + rest[0]] + rest[1..];
        forall k | 0 <= k < |r|
          ensures AllSpace(r[k])
        {
          if k > 0 {
            assert r[k] == rest[k];
          }
        }
      } else {
        assert r == [""] + rest;
        forall k | 0 <= k < |r|
          ensures AllSpace(r[k])
        {
          if k > 0 {
            assert r[k] == rest[k - 1];
          }
        }
      }
    }
  }

  /** Whitespace-only input converts to the empty string. */
  lemma MdToHtmlAllBlank(md: string, inline: string -> string)
    requires AllSpace(md)
    ensures MdToHtml(md, inline) == ""
  {
    assert NoFilteredLineStarts(md);
    PrefilterKeeps(md);
    var lines := Split(md, '\n');
    SplitAllSpace(md, '\n');
    forall j | 0 <= j < |lines|
      ensures Blank(lines[j])
    {
      TrimEmptyIffAllSpace(lines[j]);
    }
    WalkAllBlank(lines, 0, Blank, ReadAt);
  }

  // ---------------------------------------------------------------- runs

  /** `RunOf` stops exactly at the first line failing `p`. */
  lemma {:induction false} RunEndOf(lines: seq<string>, i: nat, p: string -> bool, j: nat)
    requires i <= j <= |lines|
    requires forall k :: i <= k < j ==> p(lines[k])
    requires j == |lines| || !p(lines[j])
    ensures RunOf(lines, i, p) == j
    decreases j - i
  {
    if i < j {
      RunEndOf(lines, i + 1, p, j);
    }
  }

  /** Every line of the run satisfies `p`: with the stopping line, the run
      is maximal. */
  lemma {:induction false} RunOfAll(lines: seq<string>, i: nat, p: string -> bool)
    requires i <= |lines|
    ensures forall k :: i <= k < RunOf(lines, i, p) ==> p(lines[k])
    decreases |lines| - i
  {
    if i < |lines| && p(lines[i]) {
      RunOfAll(lines, i + 1, p);
    }
  }

  // ---------------------------------------------------------------- fences

  lemma BlockAtFence(lines: seq<string>, i: nat)
    requires i < |lines| && IsFence(lines[i])
    ensures !Blank(lines[i]) && BlockAt(lines, i) == FenceBlock(lines, i)
  {
  }

  lemma FenceRunTo(lines: seq<string>, i: nat, j: nat)
    requires i < j <= |lines|
    requires forall k :: i < k < j ==> !IsFence(lines[k])
    requires j == |lines| || IsFence(lines[j])
    ensures RunOf(lines, i + 1, NotFence) == j
  {
    forall k | i + 1 <= k < j
      ensures NotFence(lines[k])
    {
    }
    RunEndOf(lines, i + 1, NotFence, j);
  }

  /** A closed fence: the lines strictly between the two fence lines form
      one code block, and reading resumes after the closing line. */
  lemma FenceClosed(lines: seq<string>, i: nat, j: nat)
    requires i < j < |lines| && IsFence(lines[i]) && IsFence(lines[j])
    requires forall k :: i < k < j ==> !IsFence(lines[k])
    ensures Parse(lines, i) == [Span(i, j + 1, Code(lines[i + 1..j]))] + Parse(lines, j + 1)
  {
    FenceRunTo(lines, i, j);
    BlockAtFence(lines, i);
    assert BlockAt(lines, i) == (Code(lines[i + 1..j]), j + 1);
    ParseBlock(lines, i);
  }

  /** An unclosed fence swallows the rest of the input as code. */
  lemma FenceUnclosed(lines: seq<string>, i: nat)
    requires i < |lines| && IsFence(lines[i])
    requires forall k :: i < k < |lines| ==> !IsFence(lines[k])
    ensures Parse(lines, i) == [Span(i, |lines|, Code(lines[i + 1..]))]
  {
    FenceRunTo(lines, i, |lines|);
    BlockAtFence(lines, i);
    assert lines[i + 1..|lines|] == lines[i + 1..];
    assert BlockAt(lines, i) == (Code(lines[i + 1..]), |lines|);
    ParseBlock(lines, i);
    assert Parse(lines, |lines|) == [];
  }

  // ------------------------------------------------------------- tables

  lemma BlockAtTable(lines: seq<string>, i: nat)
    requires i < |lines| && IsTableLine(lines[i])
    ensures !Blank(lines[i]) && BlockAt(lines, i) == TableBlock(lines, i)
  {
    var t := Trim(lines[i]);
    assert t[0] == '|';
    assert t != "" && !StartsWith(t, "```");
  }

  /** A maximal run of table lines is one table of its kept rows. */
  lemma TableRun(lines: seq<string>, i: nat, j: nat)
    requires i < j <= |lines|
    requires forall k :: i <= k < j ==> IsTableLine(lines[k])
    requires j == |lines| || !IsTableLine(lines[j])
    ensures Parse(lines, i) == [Span(i, j, Table(TableRows(lines[i..j])))] + Parse(lines, j)
  {
    RunEndOf(lines, i, IsTableLine, j);
    BlockAtTable(lines, i);
    assert BlockAt(lines, i) == (Table(TableRows(lines[i..j])), j);
    ParseBlock(lines, i);
  }

  /** Every kept row is a trimmed line that is not an alignment row. */
  lemma {:induction false} TableRowsFrom(ls: seq<string>)
    ensures forall r :: r in TableRows(ls) ==> !IsSeparatorRow(r) && exists k :: 0 <= k < |ls| && r == Trim(ls[k])
  {
    if |ls| > 0 {
      TableRowsFrom(ls[1..]);
      var rest := TableRows(ls[1..]);
      forall r | r in TableRows(ls)
        ensures !IsSeparatorRow(r) && exists k :: 0 <= k < |ls| && r == Trim(ls[k])
      {
        if r in rest {
          var k :| 0 <= k < |ls[1..]| && r == Trim(ls[1..][k]);
          assert r == Trim(ls[k + 1]);
        } else {
          assert r == Trim(ls[0]);
        }
      }
    }
  }

  /** Without alignment rows every trimmed line is kept, in order. */
  lemma {:induction false} TableRowsAll(ls: seq<string>)
    requires forall k :: 0 <= k < |ls| ==> !IsSeparatorRow(Trim(ls[k]))
    ensures |TableRows(ls)| == |ls|
    ensures forall k :: 0 <= k < |ls| ==> TableRows(ls)[k] == Trim(ls[k])
  {
    if |ls| > 0 {
      var tail := ls[1..];
      assert !IsSeparatorRow(Trim(ls[0]));
      forall k | 0 <= k < |tail|
        ensures !IsSeparatorRow(Trim(tail[k]))
      {
        assert tail[k] == ls[k + 1];
      }
      TableRowsAll(tail);
      var r := TableRows(ls);
      assert r == [Trim(ls[0])] + TableRows(tail);
      forall k | 0 <= k < |ls|
        ensures r[k] == Trim(ls[k])
      {
        if k > 0 {
          assert r[k] == TableRows(tail)[k - 1];
          assert tail[k - 1] == ls[k];
        }
      }
    }
  }

  /** Alignment rows alone leave no rows. */
  lemma {:induction false} TableRowsNone(ls: seq<string>)
    requires forall k :: 0 <= k < |ls| ==> IsSeparatorRow(Trim(ls[k]))
    ensures TableRows(ls) == []
  {
    if |ls| > 0 {
      assert IsSeparatorRow(Trim(ls[0]));
      assert forall k :: 0 <= k < |ls[1..]| ==> ls[1..][k] == ls[k + 1];
      TableRowsNone(ls[1..]);
    }
  }

  /** Body rows, each with `td` cells. */
  function BodyRows(rows: seq<string>, inline: string -> string): string
  {
    if |rows| == 0 then "" else RowHtml(rows[0], "td", inline) + BodyRows(rows[1..], inline)
  }

  lemma {:induction false} RowsAfterHeader(rows: seq<string>, idx: nat, inline: string -> string)
    requires 1 <= idx <= |rows|
    ensures RowsHtml(rows, idx, inline) == BodyRows(rows[idx..], inline)
    decreases |rows| - idx
  {
    var tail := rows[idx..];
    if idx < |rows| {
      RowsAfterHeader(rows, idx + 1, inline);
      RowsHtmlStep(rows, idx, inline);
      BodyRowsCons(tail, inline);
      assert tail[0] == rows[idx] && tail[1..] == rows[idx + 1..];
    } else {
      assert tail == [];
    }
  }

  /** A row after the header renders with `td` cells ahead of the rest. */
  lemma RowsHtmlStep(rows: seq<string>, idx: nat, inline: string -> string)
    requires 1 <= idx < |rows|
    ensures RowsHtml(rows, idx, inline) == RowHtml(rows[idx], "td", inline) + RowsHtml(rows, idx + 1, inline)
  {
  }

  lemma BodyRowsCons(rows: seq<string>, inline: string -> string)
    requires |rows| > 0
    ensures BodyRows(rows, inline) == RowHtml(rows[0], "td", inline) + BodyRows(rows[1..], inline)
  {
  }

  /** No rows render to nothing; otherwise the first kept row is the header
      row with `th` cells and every later row has `td` cells. */
  lemma RenderTableShape(rows: seq<string>, inline: string -> string)
    ensures |rows| == 0 ==> RenderTable(rows, inline) == ""
    ensures |rows| > 0 ==> RenderTable(rows, inline)
                           == "<table>" + RowHtml(rows[0], "th", inline) + BodyRows(rows[1..], inline) + "</table>"
  {
    if |rows| > 0 {
      RowsAfterHeader(rows, 1, inline);
    }
  }

  // ------------------------------------------------------------- quotes

  lemma BlockAtQuote(lines: seq<string>, i: nat)
    requires i < |lines| && IsQuoteLine(lines[i])
    ensures !Blank(lines[i]) && BlockAt(lines, i) == QuoteBlock(lines, i)
  {
    var t := Trim(lines[i]);
    assert t[0] == '>';
    assert t != "" && !StartsWith(t, "```") && !StartsWith(t, "|");
  }

  lemma {:induction false} MapLinesAt(ls: seq<string>, f: string -> string, k: nat)
    requires k < |ls|
    ensures MapLines(ls, f)[k] == f(ls[k])
    decreases k
  {
    if k > 0 {
      MapLinesAt(ls[1..], f, k - 1);
    }
  }

  /** A maximal run of `> ` lines is one quote block holding each line's
      text after the `> `, in order. */
  lemma QuoteRun(lines: seq<string>, i: nat, j: nat)
    requires i < j <= |lines|
    requires forall k :: i <= k < j ==> IsQuoteLine(lines[k])
    requires j == |lines| || !IsQuoteLine(lines[j])
    ensures Parse(lines, i) == [Span(i, j, Quote(MapLines(lines[i..j], QuoteText)))] + Parse(lines, j)
  {
    RunEndOf(lines, i, IsQuoteLine, j);
    BlockAtQuote(lines, i);
    assert BlockAt(lines, i) == (Quote(MapLines(lines[i..j], QuoteText)), j);
    ParseBlock(lines, i);
  }

  /** The body of a quote line is the text after its `> `. */
  lemma QuoteTextOfQuoteLine(line: string)
    requires IsQuoteLine(line)
    ensures Trim(line) == "> " + QuoteText(line)
  {
    var t := Trim(line);
    assert t == t[..2] + t[2..];
  }

  // -------------------------------------------------------------- lists

  lemma BlockAtBullet(lines: seq<string>, i: nat)
    requires i < |lines| && IsBulletLine(lines[i])
    ensures !Blank(lines[i]) && BlockAt(lines, i) == BulletBlock(lines, i)
  {
    var t := Trim(lines[i]);
    assert t[0] == '-' || t[0] == '*';
    assert t != "" && !StartsWith(t, "```") && !StartsWith(t, "|") && !StartsWith(t, "> ");
  }

  lemma BlockAtNumbered(lines: seq<string>, i: nat)
    requires i < |lines| && IsNumberedLine(lines[i])
    ensures !Blank(lines[i]) && BlockAt(lines, i) == NumberedBlock(lines, i)
  {
    var t := Trim(lines[i]);
    assert IsDigit(t[0]);
    assert t != "" && !StartsWith(t, "```") && !StartsWith(t, "|") && !StartsWith(t, "> ") && !IsBullet(t);
  }

  /** A maximal run of `- `/`* ` lines is one unordered list holding each
      line's text after its marker, in order; parsing goes on after it. */
  lemma BulletRun(lines: seq<string>, i: nat, j: nat)
    requires i < j <= |lines|
    requires forall k :: i <= k < j ==> IsBulletLine(lines[k])
    requires j == |lines| || !IsBulletLine(lines[j])
    ensures Parse(lines, i) == [Span(i, j, Bullets(MapLines(lines[i..j], BulletText)))] + Parse(lines, j)
  {
    RunEndOf(lines, i, IsBulletLine, j);
    BlockAtBullet(lines, i);
    assert BlockAt(lines, i) == (Bullets(MapLines(lines[i..j], BulletText)), j);
    ParseBlock(lines, i);
  }

  /** A maximal run of `1. ` lines is one ordered list holding each line's
      text after its number, in order; parsing goes on after it. */
  lemma NumberedRun(lines: seq<string>, i: nat, j: nat)
    requires i < j <= |lines|
    requires forall k :: i <= k < j ==> IsNumberedLine(lines[k])
    requires j == |lines| || !IsNumberedLine(lines[j])
    ensures Parse(lines, i) == [Span(i, j, Numbered(MapLines(lines[i..j], NumberedText)))] + Parse(lines, j)
  {
    RunEndOf(lines, i, IsNumberedLine, j);
    BlockAtNumbered(lines, i);
    assert BlockAt(lines, i) == (Numbered(MapLines(lines[i..j], NumberedText)), j);
    ParseBlock(lines, i);
  }

  /** The item of a bullet line is the trimmed line with the marker and the
      blanks after it removed; it is never empty and starts with a
      non-blank character. */
  lemma BulletTextOfBulletLine(line: string)
    requires IsBulletLine(line)
    ensures var t := Trim(line); var item := BulletText(line);
            && 0 < |item| <= |t| - 2 && t[|t| - |item|..] == item && !IsSpace(item[0])
            && forall m :: 1 <= m < |t| - |item| ==> IsSpace(t[m])
  {
    var t := Trim(line);
    TrimShape(line);
    assert !IsSpace(t[|t| - 1]);
  }

  /** The item of a numbered line is the trimmed line with the number, its
      dot and the blanks after it removed; it is never empty and starts with
      a non-blank character. */
  lemma NumberedTextOfNumberedLine(line: string)
    requires IsNumberedLine(line)
    ensures var t := Trim(line); var item := NumberedText(line);
            && 0 < |item| <= |t| - 3 && t[|t| - |item|..] == item && !IsSpace(item[0])
            && (forall m :: 0 <= m < DigitsEnd(t) ==> IsDigit(t[m]))
            && t[DigitsEnd(t)] == '.'
            && forall m :: DigitsEnd(t) < m < |t| - |item| ==> IsSpace(t[m])
  {
    var t := Trim(line);
    TrimShape(line);
    assert !IsSpace(t[|t| - 1]);
  }

  // -------------------------------------------------------- single lines

  lemma NotListOrBlock(t: string)
    requires |t| > 0 && (t[0] == '#' || t[0] == '-')
    requires t[0] == '-' ==> |t| > 1 && t[1] == '-'
    ensures !IsBullet(t) && DigitsEnd(t) == 0 && !IsNumbered(t)
    ensures !StartsWith(t, "```") && !StartsWith(t, "|") && !StartsWith(t, "> ")
  {
  }

  /** `### ` lines are third-level headings. */
  lemma H3Line(lines: seq<string>, i: nat)
    requires i < |lines| && StartsWith(Trim(lines[i]), "### ")
    ensures BlockAt(lines, i) == (H3(Trim(lines[i])[4..]), i + 1)
  {
    NotListOrBlock(Trim(lines[i]));
  }

  /** `## ` lines are second-level headings. */
  lemma H2Line(lines: seq<string>, i: nat)
    requires i < |lines| && StartsWith(Trim(lines[i]), "## ")
    ensures BlockAt(lines, i) == (H2(Trim(lines[i])[3..]), i + 1)
  {
    var t := Trim(lines[i]);
    NotListOrBlock(t);
    assert !StartsWith(t, "### ") by { assert t[2] == ' '; }
  }

  /** A `---` line is a rule. */
  lemma RuleLine(lines: seq<string>, i: nat)
    requires i < |lines| && Trim(lines[i]) == "---"
    ensures BlockAt(lines, i) == (Rule, i + 1)
  {
    var t := Trim(lines[i]);
    NotListOrBlock(t);
    assert !StartsWith(t, "### ") && !StartsWith(t, "## ");
  }

  /** A `# ` line is not a heading: it stays a paragraph. */
  lemma H1LineIsParagraph(lines: seq<string>, i: nat)
    requires i < |lines| && StartsWith(Trim(lines[i]), "# ")
    ensures BlockAt(lines, i) == (Para(Trim(lines[i])), i + 1)
  {
    var t := Trim(lines[i]);
    NotListOrBlock(t);
    assert !StartsWith(t, "### ") && !StartsWith(t, "## ") by { assert t[1] == ' '; }
    assert t != "---";
  }
}

=== FILE: note_api.dfy ===
/** The REST client of lib/note-api.mjs: a process-wide rate limiter, a
    fetch wrapper that classifies statuses and retries with exponential
    backoff, and the two-step create-then-update article protocol.

    Effects are explicit: `Net` carries the clock, the module-global
    `lastRequestTime` and the number of requests the process has sent;
    `fetch(k)` is the outcome of the k-th request it sends. Sleeping
    advances the clock, and so does a request's latency. Every operation
    also returns the events it caused, in order. */
module NoteApi {
  import opened Results
  import opened Strings
  import opened Http

  const BaseUrl: string := "https://note.com/api/v1"
  const MinRequestIntervalMs: int := 1000
  const MaxRetries: nat := 3

  /** What goes over the wire; every request is a `POST` with the same
      fixed headers apart from `Cookie`. */
  datatype Payload =
    | CreateBody(name: string)                     // { body: '', name, template_key: null }
    | UpdateBody(body: string, name: string, status: string, eyecatch: Option<string>)

  /** The two endpoints the client posts to. */
  datatype Endpoint = TextNotes | DraftSave(articleId: int)

  /** A request as the client builds it: the endpoint, the cookie
      dictionary its `Cookie` header is formatted from, and the body. */
  datatype Request = Request(endpoint: Endpoint, cookies: Cookies, payload: Payload)

  datatype Event =
    | Dispatched(at: int, req: Request)   // `lastRequestTime = Date.now()` and the request goes out
    | BackedOff(ms: int)                  // the retry loop's sleep

  datatype Net = Net(now: int, lastRequestTime: int, sent: nat)

  // ---------------------------------------------------------- rate limit

  /** `enforceRateLimit()`: wait out whatever is left of the minimum interval
      since the last request; the first request of the process (recorded time
      0) never waits. */
  function EnforceRateLimit(n: Net): (r: Net)
    ensures r.lastRequestTime == n.lastRequestTime && r.sent == n.sent
    ensures n.now <= r.now
    ensures n.lastRequestTime > 0 && n.lastRequestTime <= n.now ==> n.lastRequestTime + MinRequestIntervalMs <= r.now
    ensures r.now != n.now <==> n.lastRequestTime > 0 && n.now - n.lastRequestTime < MinRequestIntervalMs
    ensures r.now != n.now ==> r.now == n.lastRequestTime + MinRequestIntervalMs
  {
    var elapsed := n.now - n.lastRequestTime;
    if n.lastRequestTime > 0 && elapsed < MinRequestIntervalMs then
      n.(now := n.now + (MinRequestIntervalMs - elapsed))
    else n
  }

  // ------------------------------------------------------- error messages

  const ExpiredMessage: string := "Cookieが期限切れです。再認証してください"
  const BadRequestPrefix: string := "リクエストが不正です: "
  const RateLimitedMessage: string := "レート制限に達しました。時間をおいて再実行してください"
  const ApiErrorPrefix: string := "API通信エラー: "

  /** `formatErrorMessage(status, statusText, detail)`. */
  function FormatErrorMessage(status: int, statusText: string, detail: string): (m: string)
    ensures status == 401 ==> m == ExpiredMessage
    ensures status == 400 ==> m == BadRequestPrefix + (if detail != "" then detail else statusText)
    ensures status == 429 ==> m == RateLimitedMessage
    ensures status !in {400, 401, 429} ==> StartsWith(m, ApiErrorPrefix)
    ensures status !in {400, 401, 429} ==> m == ApiErrorPrefix + IntToString(status) + " " + statusText
  {
    match status
    case 401 => ExpiredMessage
    case 400 => BadRequestPrefix + (if detail != "" then detail else statusText)
    case 429 => RateLimitedMessage
    case _ => ApiErrorPrefix + IntToString(status) + " " + statusText
  }

  /** The four prefixes the retry loop recognises as its own errors. */
  const RecognisedPrefixes: seq<string> :=
    ["Cookieが期限切れです", "リクエストが不正です", "レート制限に達しました", "API通信エラー"]

  predicate StartsWithAny(msg: string, prefixes: seq<string>)
  {
    |prefixes| > 0 && (StartsWith(msg, prefixes[0]) || StartsWithAny(msg, prefixes[1..]))
  }

  /** The `catch` block's test: does the message start with a recognised
      prefix? */
  predicate IsFormatted(msg: string)
  {
    StartsWithAny(msg, RecognisedPrefixes)
  }

  lemma StartsWithAnyIndex(msg: string, prefixes: seq<string>, i: nat)
    requires i < |prefixes| && StartsWith(msg, prefixes[i])
    ensures StartsWithAny(msg, prefixes)
  {
    if i > 0 {
      StartsWithAnyIndex(msg, prefixes[1..], i - 1);
    }
  }

  /** Every message `formatErrorMessage` produces is recognised, so a
      classified HTTP error always leaves the retry loop at once. */
  lemma FormattedIsRecognised(status: int, statusText: string, detail: string)
    ensures IsFormatted(FormatErrorMessage(status, statusText, detail))
  {
    var m := FormatErrorMessage(status, statusText, detail);
    var ps := RecognisedPrefixes;
    var i := if status == 401 then 0 else if status == 400 then 1 else if status == 429 then 2 else 3;
    assert m[..|ps[i]|] == ps[i];
    StartsWithAnyIndex(m, ps, i);
  }

  // ------------------------------------------------------------ retrying

  /** Why a call failed. An HTTP error is thrown as its formatted message
      (see `Message`); a rejection of `fetch` is thrown as it came. */
  datatype Failure =
    | HttpError(status: int, statusText: string, detail: string)
    | Rejected(msg: string)
    | NotJsonBody                     // `response.json()` threw
    | NoIdOrKey(response: string)     // the create response, as `JSON.stringify` renders it, lacks `data.id` or `data.key`

  const MissingIdOrKey: string := "API通信エラー: 記事作成レスポンスに id または key が含まれていません。"
  const ResponseLabel: string := "レスポンス: "

  /** The `message` of the error a failing call throws. */
  function Message(f: Failure): string
  {
    match f
    case HttpError(status, statusText, detail) => FormatErrorMessage(status, statusText, detail)
    case Rejected(msg) => msg
    case NotJsonBody => JsonSyntaxError
    case NoIdOrKey(response) => MissingIdOrKey + ResponseLabel + response
  }

  datatype Res<+T> = Done(value: T) | Failed(failure: Failure)

  /** What one attempt decides once its outcome is known. */
  datatype Step = Return(reply: Reply) | Throw(failure: Failure) | Retry

  /** The `catch` block for a rejection: a recognised message is rethrown;
      anything else is retried while attempts remain and otherwise becomes
      `lastError`, which the loop throws after its last iteration. */
  function Caught(msg: string, canRetry: bool): (s: Step)
    ensures s.Retry? <==> !IsFormatted(msg) && canRetry
    ensures !s.Retry? ==> s == Throw(Rejected(msg))
  {
    if IsFormatted(msg) then Throw(Rejected(msg))
    else if canRetry then Retry
    else Throw(Rejected(msg))
  }

  /** The body of one iteration of `fetchWithRetry` once `fetch` settled:
      only a status below 400 returns the response; a client error other
      than 429 throws with its body as detail; 429 and 5xx are retried while
      attempts remain and then throw without detail; a rejection is
      rethrown if recognised, else retried while attempts remain, else
      thrown. An HTTP error thrown inside the `try` passes through the
      `catch`, which rethrows it because its message is recognised
      (`HttpErrorIsRethrown`); it is thrown directly here. */
  function Classify(o: Outcome, canRetry: bool): (s: Step)
    ensures s.Return? <==> o.Got? && o.reply.status < 400
    ensures s.Return? ==> s.reply == o.reply
    ensures o.Got? && 400 <= o.reply.status < 500 && o.reply.status != 429
            ==> s == Throw(HttpError(o.reply.status, o.reply.statusText, o.reply.body))
    ensures o.Got? && (o.reply.status == 429 || o.reply.status >= 500)
            ==> s == (if canRetry then Retry else Throw(HttpError(o.reply.status, o.reply.statusText, "")))
    ensures o.NetErr? && IsFormatted(o.msg) ==> s == Throw(Rejected(o.msg))
    ensures o.NetErr? && !IsFormatted(o.msg) ==> s == (if canRetry then Retry else Throw(Rejected(o.msg)))
  {
    match o
    case Got(rep, _) =>
      if 400 <= rep.status < 500 && rep.status != 429 then Throw(HttpError(rep.status, rep.statusText, rep.body))
      else if rep.status == 429 || rep.status >= 500 then
        if canRetry then Retry else Throw(HttpError(rep.status, rep.statusText, ""))
      else Return(rep)
    case NetErr(msg, _) => Caught(msg, canRetry)
  }

  /** An HTTP error's message is one the `catch` recognises, so the `catch`
      rethrows it unchanged rather than retrying it. */
  lemma HttpErrorIsRethrown(status: int, statusText: string, detail: string, canRetry: bool)
    ensures Caught(Message(HttpError(status, statusText, detail)), canRetry) == Throw(Rejected(FormatErrorMessage(status, statusText, detail)))
  {
    FormattedIsRecognised(status, statusText, detail);
  }

  function Pow2(k: nat): (r: nat)
    ensures r >= 1
  {
    if k == 0 then 1 else 2 * Pow2(k - 1)
  }

  /** Rate limit, stamp `lastRequestTime`, send the request and wait for
      its outcome. */
  function Send(fetch: nat -> Outcome, n: Net): (r: Net)
    ensures r.sent == n.sent + 1 && r.lastRequestTime == EnforceRateLimit(n).now
    ensures r.now == r.lastRequestTime + fetch(n.sent).latency
  {
    var n1 := EnforceRateLimit(n);
    Net(n1.now + fetch(n.sent).latency, n1.now, n.sent + 1)
  }

  /** The backoff after attempt `attempt`: `2^attempt` seconds. */
  function Backoff(attempt: nat): (ms: int)
    ensures ms >= 1000
  {
    Pow2(attempt) * 1000
  }

  /** The state in which the next attempt starts after a retried one. */
  function Next(fetch: nat -> Outcome, n: Net, attempt: nat): (r: Net)
    ensures r.sent == n.sent + 1 && r.lastRequestTime == EnforceRateLimit(n).now
  {
    var n2 := Send(fetch, n);
    n2.(now := n2.now + Backoff(attempt))
  }

  datatype Fetched = Fetched(result: Res<Reply>, net: Net, events: seq<Event>)

  /** The result of an attempt that did not retry. */
  function Settle(s: Step): Res<Reply>
    requires !s.Retry?
  {
    if s.Return? then Done(s.reply) else Failed(s.failure)
  }

  /** The physical attempt `attempt` of `fetchWithRetry` and the ones after
      it: rate limit, record the dispatch time, send, classify, and either
      return, throw, or back off `2^attempt` seconds and go round again. */
  function Attempt(req: Request, maxRetries: nat, attempt: nat, fetch: nat -> Outcome, n: Net): (r: Fetched)
    requires attempt <= maxRetries
    ensures n.sent < r.net.sent <= n.sent + maxRetries + 1 - attempt
    ensures n.now <= r.net.now
    decreases maxRetries - attempt
  {
    var s := Classify(fetch(n.sent), attempt < maxRetries);
    var d := Dispatched(EnforceRateLimit(n).now, req);
    if s.Retry? then
      var r := Attempt(req, maxRetries, attempt + 1, fetch, Next(fetch, n, attempt));
      Fetched(r.result, r.net, [d, BackedOff(Backoff(attempt))] + r.events)
    else Fetched(Settle(s), Send(fetch, n), [d])
  }

  /** `fetchWithRetry(url, options, maxRetries)`. */
  function FetchWithRetry(req: Request, maxRetries: nat, fetch: nat -> Outcome, n: Net): Fetched
  {
    Attempt(req, maxRetries, 0, fetch, n)
  }

  /** An attempt that stops. */
  lemma AttemptStops(req: Request, maxRetries: nat, attempt: nat, fetch: nat -> Outcome, n: Net)
    requires attempt <= maxRetries
    requires !Classify(fetch(n.sent), attempt < maxRetries).Retry?
    ensures Attempt(req, maxRetries, attempt, fetch, n)
         == Fetched(Settle(Classify(fetch(n.sent), attempt < maxRetries)), Send(fetch, n),
                    [Dispatched(EnforceRateLimit(n).now, req)])
  {
  }

  /** An attempt that goes round again. */
  lemma AttemptRetries(req: Request, maxRetries: nat, attempt: nat, fetch: nat -> Outcome, n: Net)
    requires attempt < maxRetries
    requires Classify(fetch(n.sent), true).Retry?
    ensures var r := Attempt(req, maxRetries, attempt + 1, fetch, Next(fetch, n, attempt));
            var d := Dispatched(EnforceRateLimit(n).now, req);
            Attempt(req, maxRetries, attempt, fetch, n) == Fetched(r.result, r.net, [d, BackedOff(Backoff(attempt))] + r.events)
  {
  }

  /** A logical call succeeds exactly when its last physical attempt got a
      status below 400, and then it returns that response. */
  lemma {:induction false} AttemptOutcome(req: Request, maxRetries: nat, attempt: nat, fetch: nat -> Outcome, n: Net)
    requires attempt <= maxRetries
    ensures var r := Attempt(req, maxRetries, attempt, fetch, n);
            && (r.result.Done? <==> fetch(r.net.sent - 1).Got? && fetch(r.net.sent - 1).reply.status < 400)
            && (r.result.Done? ==> r.result.value == fetch(r.net.sent - 1).reply)
    decreases maxRetries - attempt
  {
    if Classify(fetch(n.sent), attempt < maxRetries).Retry? {
      AttemptRetries(req, maxRetries, attempt, fetch, n);
      AttemptOutcome(req, maxRetries, attempt + 1, fetch, Next(fetch, n, attempt));
    } else {
      AttemptStops(req, maxRetries, attempt, fetch, n);
    }
  }

  // ---------------------------------------------------------- the trace

  function Requests(events: seq<Event>): seq<Request>
  {
    if |events| == 0 then []
    else (if events[0].Dispatched? then [events[0].req] else []) + Requests(events[1..])
  }

  function Backoffs(events: seq<Event>): seq<int>
  {
    if |events| == 0 then []
    else (if events[0].BackedOff? then [events[0].ms] else []) + Backoffs(events[1..])
  }

  function DispatchTimes(events: seq<Event>): seq<int>
  {
    if |events| == 0 then []
    else (if events[0].Dispatched? then [events[0].at] else []) + DispatchTimes(events[1..])
  }

  lemma {:induction false} TraceAppend(a: seq<Event>, b: seq<Event>)
    ensures Requests(a + b) == Requests(a) + Requests(b)
    ensures Backoffs(a + b) == Backoffs(a) + Backoffs(b)
    ensures DispatchTimes(a + b) == DispatchTimes(a) + DispatchTimes(b)
  {
    if |a| > 0 {
      assert (a + b)[1..] == a[1..] + b;
      TraceAppend(a[1..], b);
    } else {
      assert a + b == b;
    }
  }

  lemma TraceOfDispatch(at: int, req: Request)
    ensures Requests([Dispatched(at, req)]) == [req] && Backoffs([Dispatched(at, req)]) == []
    ensures DispatchTimes([Dispatched(at, req)]) == [at]
  {
    assert [Dispatched(at, req)][1..] == [];
  }

  lemma TraceOfBackoff(ms: int)
    ensures Requests([BackedOff(ms)]) == [] && Backoffs([BackedOff(ms)]) == [ms]
    ensures DispatchTimes([BackedOff(ms)]) == []
  {
    assert [BackedOff(ms)][1..] == [];
  }

  /** The trace of one attempt before the rest. */
  lemma TraceOfStep(at: int, req: Request, ms: int, rest: seq<Event>)
    ensures Requests([Dispatched(at, req)]) == [req] && Backoffs([Dispatched(at, req)]) == []
    ensures DispatchTimes([Dispatched(at, req)]) == [at]
    ensures Requests([Dispatched(at, req), BackedOff(ms)] + rest) == [req] + Requests(rest)
    ensures Backoffs([Dispatched(at, req), BackedOff(ms)] + rest) == [ms] + Backoffs(rest)
    ensures DispatchTimes([Dispatched(at, req), BackedOff(ms)] + rest) == [at] + DispatchTimes(rest)
  {
    var d, b := [Dispatched(at, req)], [BackedOff(ms)];
    TraceOfDispatch(at, req);
    TraceOfBackoff(ms);
    assert [Dispatched(at, req), BackedOff(ms)] + rest == d + (b + rest);
    TraceAppend(d, b + rest);
    TraceAppend(b, rest);
    assert [] + Requests(rest) == Requests(rest);
    assert [] + DispatchTimes(rest) == DispatchTimes(rest);
    assert [] + Backoffs(rest) == Backoffs(rest);
  }

  function Repeat(req: Request, k: nat): (r: seq<Request>)
    ensures |r| == k
  {
    if k == 0 then [] else [req] + Repeat(req, k - 1)
  }

  /** The backoff delays of attempts `from`, `from + 1`, ...: `2^i` seconds. */
  function Schedule(from: nat, k: nat): (r: seq<int>)
    ensures |r| == k
    decreases k
  {
    if k == 0 then [] else [Backoff(from)] + Schedule(from + 1, k - 1)
  }

  /** On the wire, one logical call is the same request sent once per
      attempt, with the backoffs `2^attempt`, `2^(attempt+1)`, ... seconds
      between consecutive sends. */
  lemma AttemptTrace(req: Request, maxRetries: nat, attempt: nat, fetch: nat -> Outcome, n: Net)
    requires attempt <= maxRetries
    ensures var r := Attempt(req, maxRetries, attempt, fetch, n);
            && Requests(r.events) == Repeat(req, r.net.sent - n.sent)
            && Backoffs(r.events) == Schedule(attempt, r.net.sent - n.sent - 1)
  {
    AttemptRequests(req, maxRetries, attempt, fetch, n);
    AttemptBackoffs(req, maxRetries, attempt, fetch, n);
  }

  lemma {:induction false} AttemptRequests(req: Request, maxRetries: nat, attempt: nat, fetch: nat -> Outcome, n: Net)
    requires attempt <= maxRetries
    ensures var r := Attempt(req, maxRetries, attempt, fetch, n);
            Requests(r.events) == Repeat(req, r.net.sent - n.sent)
    decreases maxRetries - attempt
  {
    if attempt < maxRetries && Classify(fetch(n.sent), true).Retry? {
      AttemptRequests(req, maxRetries, attempt + 1, fetch, Next(fetch, n, attempt));
      RequestsWhenRetried(req, maxRetries, attempt, fetch, n);
    } else {
      RequestsWhenStopped(req, maxRetries, attempt, fetch, n);
    }
  }

  lemma RequestsWhenRetried(req: Request, maxRetries: nat, attempt: nat, fetch: nat -> Outcome, n: Net)
    requires attempt < maxRetries && Classify(fetch(n.sent), true).Retry?
    requires var n3 := Next(fetch, n, attempt);
             var r3 := Attempt(req, maxRetries, attempt + 1, fetch, n3);
             Requests(r3.events) == Repeat(req, r3.net.sent - n3.sent)
    ensures var r := Attempt(req, maxRetries, attempt, fetch, n);
            Requests(r.events) == Repeat(req, r.net.sent - n.sent)
  {
    var n3 := Next(fetch, n, attempt);
    var r3 := Attempt(req, maxRetries, attempt + 1, fetch, n3);
    AttemptRetries(req, maxRetries, attempt, fetch, n);
    RequestsOfRetry(EnforceRateLimit(n).now, req, Backoff(attempt), r3.net.sent - n3.sent, r3.events);
  }

  lemma RequestsWhenStopped(req: Request, maxRetries: nat, attempt: nat, fetch: nat -> Outcome, n: Net)
    requires attempt <= maxRetries
    requires !(attempt < maxRetries && Classify(fetch(n.sent), true).Retry?)
    ensures var r := Attempt(req, maxRetries, attempt, fetch, n);
            Requests(r.events) == Repeat(req, r.net.sent - n.sent)
  {
    AttemptStops(req, maxRetries, attempt, fetch, n);
    TraceOfDispatch(EnforceRateLimit(n).now, req);
    assert Repeat(req, 1) == [req];
  }

  lemma {:induction false} AttemptBackoffs(req: Request, maxRetries: nat, attempt: nat, fetch: nat -> Outcome, n: Net)
    requires attempt <= maxRetries
    ensures var r := Attempt(req, maxRetries, attempt, fetch, n);
            Backoffs(r.events) == Schedule(attempt, r.net.sent - n.sent - 1)
    decreases maxRetries - attempt
  {
    if attempt < maxRetries && Classify(fetch(n.sent), true).Retry? {
      AttemptBackoffs(req, maxRetries, attempt + 1, fetch, Next(fetch, n, attempt));
      BackoffsWhenRetried(req, maxRetries, attempt, fetch, n);
    } else {
      AttemptStops(req, maxRetries, attempt, fetch, n);
      TraceOfDispatch(EnforceRateLimit(n).now, req);
    }
  }

  lemma BackoffsWhenRetried(req: Request, maxRetries: nat, attempt: nat, fetch: nat -> Outcome, n: Net)
    requires attempt < maxRetries && Classify(fetch(n.sent), true).Retry?
    requires var n3 := Next(fetch, n, attempt);
             var r3 := Attempt(req, maxRetries, attempt + 1, fetch, n3);
             Backoffs(r3.events) == Schedule(attempt + 1, r3.net.sent - n3.sent - 1)
    ensures var r := Attempt(req, maxRetries, attempt, fetch, n);
            Backoffs(r.events) == Schedule(attempt, r.net.sent - n.sent - 1)
  {
    var n3 := Next(fetch, n, attempt);
    var r3 := Attempt(req, maxRetries, attempt + 1, fetch, n3);
    AttemptRetries(req, maxRetries, attempt, fetch, n);
    BackoffsOfRetry(EnforceRateLimit(n).now, req, attempt, r3.net.sent - n3.sent - 1, r3.events);
  }

  /** A retried attempt puts its request in front of the requests of the
      attempts after it... */
  lemma RequestsOfRetry(at: int, req: Request, ms: int, k: nat, rest: seq<Event>)
    requires Requests(rest) == Repeat(req, k)
    ensures Requests([Dispatched(at, req), BackedOff(ms)] + rest) == Repeat(req, k + 1)
  {
    TraceOfStep(at, req, ms, rest);
  }

  /** ... and its backoff in front of their backoffs. */
  lemma BackoffsOfRetry(at: int, req: Request, attempt: nat, k: nat, rest: seq<Event>)
    requires Backoffs(rest) == Schedule(attempt + 1, k)
    ensures Backoffs([Dispatched(at, req), BackedOff(Backoff(attempt))] + rest) == Schedule(attempt, k + 1)
  {
    TraceOfStep(at, req, Backoff(attempt), rest);
  }

  // ------------------------------------------------- properties of retry

  /** A client error other than 429 is one attempt, no backoff, and the
      formatted message: the expired message for 401, the body (or status
      text) for 400, the generic message otherwise. */
  lemma ClientErrorIsFinal(req: Request, maxRetries: nat, fetch: nat -> Outcome, n: Net)
    requires var o := fetch(n.sent); o.Got? && 400 <= o.reply.status < 500 && o.reply.status != 429
    ensures var r := FetchWithRetry(req, maxRetries, fetch, n);
            var rep := fetch(n.sent).reply;
            && r.net.sent == n.sent + 1
            && r.events == [Dispatched(EnforceRateLimit(n).now, req)]
            && r.result == Failed(HttpError(rep.status, rep.statusText, rep.body))
            && Message(r.result.failure) == FormatErrorMessage(rep.status, rep.statusText, rep.body)
  {
    AttemptStops(req, maxRetries, 0, fetch, n);
  }

  /** A status below 400 (not only 2xx) is success on that attempt. */
  lemma LowStatusIsSuccess(req: Request, maxRetries: nat, attempt: nat, fetch: nat -> Outcome, n: Net)
    requires attempt <= maxRetries
    requires var o := fetch(n.sent); o.Got? && o.reply.status < 400
    ensures var r := Attempt(req, maxRetries, attempt, fetch, n);
            r.result == Done(fetch(n.sent).reply) && r.net.sent == n.sent + 1
  {
    AttemptStops(req, maxRetries, attempt, fetch, n);
  }

  /** Request `i` is answered with a 429 or a 5xx. */
  predicate RetryableStatusAt(fetch: nat -> Outcome, i: nat)
  {
    fetch(i).Got? && (fetch(i).reply.status == 429 || fetch(i).reply.status >= 500)
  }

  /** Every outcome from request `from` on is a 429 or a 5xx. */
  predicate AlwaysRetryableStatus(fetch: nat -> Outcome, from: nat, k: nat)
  {
    forall i :: from <= i < from + k ==> RetryableStatusAt(fetch, i)
  }

  /** A retried attempt ends where the next one ends. */
  lemma RetryableOrNetworkStep(req: Request, maxRetries: nat, attempt: nat, fetch: nat -> Outcome, n: Net)
    requires attempt < maxRetries
    requires Classify(fetch(n.sent), true).Retry?
    ensures var r := Attempt(req, maxRetries, attempt, fetch, n);
            var r3 := Attempt(req, maxRetries, attempt + 1, fetch, Next(fetch, n, attempt));
            r.net == r3.net && r.result == r3.result
  {
    AttemptRetries(req, maxRetries, attempt, fetch, n);
  }

  /** If 429/5xx keeps coming back, every attempt is spent and the last
      status is reported without detail: the rate-limit message for 429,
      the generic one for 5xx. */
  lemma {:induction false} RetryableStatusExhausts(req: Request, maxRetries: nat, attempt: nat, fetch: nat -> Outcome, n: Net)
    requires attempt <= maxRetries
    requires AlwaysRetryableStatus(fetch, n.sent, maxRetries + 1 - attempt)
    ensures Attempt(req, maxRetries, attempt, fetch, n).net.sent == n.sent + maxRetries - attempt + 1
    ensures RetryableStatusAt(fetch, n.sent + maxRetries - attempt)
    ensures var last := fetch(n.sent + maxRetries - attempt).reply;
            Attempt(req, maxRetries, attempt, fetch, n).result == Failed(HttpError(last.status, last.statusText, ""))
    decreases maxRetries - attempt
  {
    var o := fetch(n.sent);
    assert RetryableStatusAt(fetch, n.sent);
    var r := Attempt(req, maxRetries, attempt, fetch, n);
    var last := n.sent + maxRetries - attempt;
    if attempt < maxRetries {
      var n3 := Next(fetch, n, attempt);
      assert Classify(o, true) == Retry;
      assert AlwaysRetryableStatus(fetch, n3.sent, maxRetries - attempt);
      RetryableOrNetworkStep(req, maxRetries, attempt, fetch, n);
      RetryableStatusExhausts(req, maxRetries, attempt + 1, fetch, n3);
      var r3 := Attempt(req, maxRetries, attempt + 1, fetch, n3);
      assert n3.sent + maxRetries - (attempt + 1) == last;
      assert r3.net.sent == n3.sent + maxRetries - (attempt + 1) + 1;
      assert r3.net.sent == last + 1;
      assert RetryableStatusAt(fetch, last);
      assert r3.result == Failed(HttpError(fetch(last).reply.status, fetch(last).reply.statusText, ""));
      assert r.net.sent == last + 1 && r.result == r3.result;
    } else {
      assert Classify(o, false) == Throw(HttpError(o.reply.status, o.reply.statusText, ""));
      AttemptStops(req, maxRetries, attempt, fetch, n);
      assert last == n.sent;
      assert r.net.sent == n.sent + 1;
      assert r.result == Failed(HttpError(o.reply.status, o.reply.statusText, ""));
      assert RetryableStatusAt(fetch, last) && fetch(last) == o;
    }
  }

  /** Every outcome from request `from` on is a rejection the loop does not
      recognise as its own. */
  predicate AlwaysNetworkError(fetch: nat -> Outcome, from: nat, k: nat)
  {
    forall i :: from <= i < from + k ==> NetworkErrorAt(fetch, i)
  }

  /** Request `i` is rejected with a message the loop does not recognise. */
  predicate NetworkErrorAt(fetch: nat -> Outcome, i: nat)
  {
    fetch(i).NetErr? && !IsFormatted(fetch(i).msg)
  }

  /** Network errors are retried on the same schedule, and after the last
      attempt the most recent one is rethrown. */
  lemma {:induction false} NetworkErrorExhausts(req: Request, maxRetries: nat, attempt: nat, fetch: nat -> Outcome, n: Net)
    requires attempt <= maxRetries
    requires AlwaysNetworkError(fetch, n.sent, maxRetries + 1 - attempt)
    ensures Attempt(req, maxRetries, attempt, fetch, n).net.sent == n.sent + maxRetries - attempt + 1
    ensures NetworkErrorAt(fetch, n.sent + maxRetries - attempt)
    ensures Attempt(req, maxRetries, attempt, fetch, n).result
         == Failed(Rejected(fetch(n.sent + maxRetries - attempt).msg))
    decreases maxRetries - attempt
  {
    var o := fetch(n.sent);
    assert NetworkErrorAt(fetch, n.sent);
    var r := Attempt(req, maxRetries, attempt, fetch, n);
    var last := n.sent + maxRetries - attempt;
    if attempt < maxRetries {
      var n3 := Next(fetch, n, attempt);
      assert Classify(o, true) == Retry;
      assert AlwaysNetworkError(fetch, n3.sent, maxRetries - attempt);
      RetryableOrNetworkStep(req, maxRetries, attempt, fetch, n);
      NetworkErrorExhausts(req, maxRetries, attempt + 1, fetch, n3);
      var r3 := Attempt(req, maxRetries, attempt + 1, fetch, n3);
      assert n3.sent + maxRetries - (attempt + 1) == last;
      assert r3.net.sent == n3.sent + maxRetries - (attempt + 1) + 1;
      assert r3.net.sent == last + 1;
      assert NetworkErrorAt(fetch, last);
      assert r3.result == Failed(Rejected(fetch(last).msg));
      assert r.net.sent == last + 1 && r.result == Failed(Rejected(fetch(last).msg));
    } else {
      assert Classify(o, false) == Throw(Rejected(o.msg));
      AttemptStops(req, maxRetries, attempt, fetch, n);
      assert last == n.sent;
      assert r.net.sent == n.sent + 1;
      assert r.result == Failed(Rejected(o.msg));
      assert NetworkErrorAt(fetch, last) && fetch(last) == o;
    }
  }

  /** A rejection whose message carries one of the four prefixes is rethrown
      on the spot. */
  lemma FormattedNetworkErrorIsFinal(req: Request, maxRetries: nat, fetch: nat -> Outcome, n: Net)
    requires fetch(n.sent).NetErr? && IsFormatted(fetch(n.sent).msg)
    ensures var r := FetchWithRetry(req, maxRetries, fetch, n);
            r.net.sent == n.sent + 1 && r.result == Failed(Rejected(fetch(n.sent).msg))
  {
    AttemptStops(req, maxRetries, 0, fetch, n);
  }

  function Sum(xs: seq<int>): int
  {
    if |xs| == 0 then 0 else xs[0] + Sum(xs[1..])
  }

  lemma {:induction false} ScheduleSum(from: nat, k: nat)
    ensures Sum(Schedule(from, k)) == (Pow2(from + k) - Pow2(from)) * 1000
    decreases k
  {
    if k > 0 {
      ScheduleSum(from + 1, k - 1);
      assert Schedule(from, k)[1..] == Schedule(from + 1, k - 1);
    }
  }

  /** With the default budget a logical call makes at most four physical
      attempts and sleeps at most 1 + 2 + 4 = 7 seconds in backoff. */
  lemma FetchWithRetryBudget(req: Request, fetch: nat -> Outcome, n: Net)
    ensures var r := FetchWithRetry(req, MaxRetries, fetch, n);
            && r.net.sent - n.sent <= 4
            && Sum(Backoffs(r.events)) <= 7000
  {
    var r := FetchWithRetry(req, MaxRetries, fetch, n);
    AttemptTrace(req, MaxRetries, 0, fetch, n);
    DefaultScheduleBound(r.net.sent - n.sent - 1);
  }

  lemma DefaultScheduleBound(k: nat)
    requires k <= MaxRetries
    ensures Sum(Schedule(0, k)) <= 7000
  {
    ScheduleSum(0, k);
    assert Pow2(1) == 2 && Pow2(2) == 4 && Pow2(3) == 8;
  }

  // --------------------------------------------------- dispatch spacing

  predicate Spaced(ts: seq<int>)
  {
    forall i :: 0 <= i < |ts| - 1 ==> ts[i] + MinRequestIntervalMs <= ts[i + 1]
  }

  /** The rate limiter's invariant over the dispatches of a process so far:
      the clock is not behind the last dispatch, consecutive dispatches are
      at least one interval apart, and `lastRequestTime` is the last
      dispatch time (or 0 before the first; the clock is positive). */
  predicate RateInvariant(n: Net, history: seq<Event>)
  {
    var ts := DispatchTimes(history);
    && 0 < n.now && 0 <= n.lastRequestTime <= n.now
    && Spaced(ts)
    && (|ts| == 0 ==> n.lastRequestTime == 0)
    && (|ts| > 0 ==> n.lastRequestTime == ts[|ts| - 1] && n.lastRequestTime > 0)
  }

  /** A process starts with no dispatches and `lastRequestTime = 0`. */
  lemma StartIsRated(now: int)
    requires now > 0
    ensures RateInvariant(Net(now, 0, 0), [])
  {
  }

  /** One send, preceded by the rate limiter, and then any sleep keep the
      invariant. */
  lemma SendKeepsSpacing(req: Request, fetch: nat -> Outcome, n: Net, history: seq<Event>, ms: nat)
    requires RateInvariant(n, history)
    ensures var n2 := Send(fetch, n);
            RateInvariant(n2.(now := n2.now + ms), history + [Dispatched(n2.lastRequestTime, req)])
  {
    var n2 := Send(fetch, n);
    TraceAppend(history, [Dispatched(n2.lastRequestTime, req)]);
    TraceOfStep(n2.lastRequestTime, req, 0, []);
  }

  /** However the outcomes fall, the dispatches of a logical call keep the
      invariant: no two requests of a process are closer than
      `MinRequestIntervalMs`. */
  lemma {:induction false} AttemptKeepsSpacing(req: Request, maxRetries: nat, attempt: nat, fetch: nat -> Outcome,
                                               n: Net, history: seq<Event>)
    requires attempt <= maxRetries
    requires RateInvariant(n, history)
    ensures var r := Attempt(req, maxRetries, attempt, fetch, n);
            RateInvariant(r.net, history + r.events)
    decreases maxRetries - attempt
  {
    var d := Dispatched(EnforceRateLimit(n).now, req);
    if Classify(fetch(n.sent), attempt < maxRetries).Retry? {
      var ms := Backoff(attempt);
      var n3 := Next(fetch, n, attempt);
      var r := Attempt(req, maxRetries, attempt + 1, fetch, n3);
      AttemptRetries(req, maxRetries, attempt, fetch, n);
      RetryKeepsSpacing(req, fetch, n, history, attempt);
      AttemptKeepsSpacing(req, maxRetries, attempt + 1, fetch, n3, history + [d, BackedOff(ms)]);
      AppendAssoc(history, [d, BackedOff(ms)], r.events);
    } else {
      AttemptStops(req, maxRetries, attempt, fetch, n);
      SendKeepsSpacing(req, fetch, n, history, 0);
    }
  }

  /** A retried attempt, its dispatch and its backoff keep the invariant. */
  lemma RetryKeepsSpacing(req: Request, fetch: nat -> Outcome, n: Net, history: seq<Event>, attempt: nat)
    requires RateInvariant(n, history)
    ensures RateInvariant(Next(fetch, n, attempt), history + [Dispatched(EnforceRateLimit(n).now, req), BackedOff(Backoff(attempt))])
  {
    var at := EnforceRateLimit(n).now;
    var step := [Dispatched(at, req), BackedOff(Backoff(attempt))];
    TraceAppend(history, step);
    TraceOfStep(at, req, Backoff(attempt), []);
    assert step + [] == step;
  }

  // --------------------------------------------------- article protocol

  const DraftSavePrefix: string := BaseUrl + "/text_notes/draft_save?id="
  const DraftSaveSuffix: string := "&is_temp_saved=false"

  /** The URL a request goes to. */
  function Url(e: Endpoint): (u: string)
    ensures StartsWith(u, BaseUrl + "/text_notes")
  {
    match e
    case TextNotes => BaseUrl + "/text_notes"
    case DraftSave(id) => DraftSavePrefix + IntToString(id) + DraftSaveSuffix
  }

  /** Different endpoints have different URLs: the draft-save URL names the
      article unambiguously. */
  lemma UrlInjective(e1: Endpoint, e2: Endpoint)
    requires Url(e1) == Url(e2)
    ensures e1 == e2
  {
    var p := DraftSavePrefix;
    if e1.DraftSave? && e2.DraftSave? {
      var a := IntToString(e1.articleId);
      var b := IntToString(e2.articleId);
      assert |a| == |b|;
      assert Url(e1)[|p|..|p| + |a|] == a;
      assert Url(e2)[|p|..|p| + |b|] == b;
      IntToStringInjective(e1.articleId, e2.articleId);
    }
  }

  /** The `Cookie` header a request carries. */
  function CookieHeader(req: Request): string
  {
    FormatCookieHeader(req.cookies)
  }

  datatype Created = Created(articleId: int, articleKey: string)

  /** `!createData?.data?.id || !createData?.data?.key` fails, read off the
      parsed response; the error quotes the response as `stringify`
      renders it. */
  function ExtractCreated(json: Json, stringify: Json -> string): (r: Res<Created>)
    ensures r.Done? <==> (json.Parsed? && json.data.Some? && json.data.value.id.Some? && json.data.value.id.value != 0
                          && json.data.value.key.Some? && json.data.value.key.value != "")
    ensures r.Done? ==> r.value == Created(json.data.value.id.value, json.data.value.key.value)
    ensures json.NotJson? ==> r == Failed(NotJsonBody)
    ensures json.Parsed? && r.Failed? ==> r.failure == NoIdOrKey(stringify(json))
  {
    match json
    case NotJson => Failed(NotJsonBody)
    case Parsed(data) =>
      if data.Some? && data.value.id.Some? && data.value.id.value != 0
         && data.value.key.Some? && data.value.key.value != ""
      then Done(Created(data.value.id.value, data.value.key.value))
      else Failed(NoIdOrKey(stringify(json)))
  }

  datatype CreateRun = CreateRun(result: Res<Created>, net: Net, events: seq<Event>)

  function CreateRequest(title: string, cookies: Cookies): Request
  {
    Request(TextNotes, cookies, CreateBody(title))
  }

  /** `createArticle({ title, cookies })`: one logical request for an empty
      article; the id and key come back as the response carried them, or it
      fails. */
  function CreateArticle(title: string, cookies: Cookies, fetch: nat -> Outcome, stringify: Json -> string, n: Net): (r: CreateRun)
    ensures n.sent < r.net.sent <= n.sent + MaxRetries + 1
    ensures r.result.Done? ==> fetch(r.net.sent - 1).Got? && var rep := fetch(r.net.sent - 1).reply;
                             rep.status < 400 && ExtractCreated(rep.json, stringify) == r.result
  {
    AttemptOutcome(CreateRequest(title, cookies), MaxRetries, 0, fetch, n);
    var f := FetchWithRetry(CreateRequest(title, cookies), MaxRetries, fetch, n);
    match f.result
    case Failed(e) => CreateRun(Failed(e), f.net, f.events)
    case Done(rep) => CreateRun(ExtractCreated(rep.json, stringify), f.net, f.events)
  }

  /** Every request `createArticle` puts on the wire is the same create
      request, once per attempt. */
  lemma CreateArticleTrace(title: string, cookies: Cookies, fetch: nat -> Outcome, stringify: Json -> string, n: Net)
    ensures var r := CreateArticle(title, cookies, fetch, stringify, n);
            Requests(r.events) == Repeat(CreateRequest(title, cookies), r.net.sent - n.sent)
  {
    AttemptTrace(CreateRequest(title, cookies), MaxRetries, 0, fetch, n);
  }

  /** `status = 'draft'` as a default parameter. */
  function StatusOrDraft(status: Option<string>): string
  {
    status.GetOr("draft")
  }

  /** The `draft_save` payload: body, name and status always; the eyecatch
      only for a truthy image URL. */
  function UpdatePayload(htmlContent: string, title: string, imageUrl: Option<string>, status: Option<string>): (p: Payload)
    ensures p.UpdateBody? && p.body == htmlContent && p.name == title
    ensures status.Some? ==> p.status == status.value
    ensures status.None? ==> p.status == "draft"
    ensures p.eyecatch.Some? <==> imageUrl.Some? && imageUrl.value != ""
    ensures p.eyecatch.Some? ==> p.eyecatch == imageUrl
  {
    var url := if imageUrl.Some? && imageUrl.value != "" then imageUrl else None;
    UpdateBody(htmlContent, title, StatusOrDraft(status), url)
  }

  function UpdateRequest(articleId: int, htmlContent: string, title: string, imageUrl: Option<string>,
                         status: Option<string>, cookies: Cookies): Request
  {
    Request(DraftSave(articleId), cookies, UpdatePayload(htmlContent, title, imageUrl, status))
  }

  datatype UpdateRun = UpdateRun(result: Res<()>, net: Net, events: seq<Event>)

  /** `updateArticle({...})`: a full replacement of the draft in one logical
      request; the response body is not read, so any status below 400 is
      success. */
  function UpdateArticle(articleId: int, htmlContent: string, title: string, imageUrl: Option<string>,
                         status: Option<string>, cookies: Cookies, fetch: nat -> Outcome, n: Net): (r: UpdateRun)
    ensures n.sent < r.net.sent <= n.sent + MaxRetries + 1
    ensures r.result.Done? <==> fetch(r.net.sent - 1).Got? && fetch(r.net.sent - 1).reply.status < 400
  {
    AttemptOutcome(UpdateRequest(articleId, htmlContent, title, imageUrl, status, cookies), MaxRetries, 0, fetch, n);
    var f := FetchWithRetry(UpdateRequest(articleId, htmlContent, title, imageUrl, status, cookies), MaxRetries, fetch, n);
    match f.result
    case Failed(e) => UpdateRun(Failed(e), f.net, f.events)
    case Done(_) => UpdateRun(Done(()), f.net, f.events)
  }

  /** Every request `updateArticle` puts on the wire is the same draft-save
      request, once per attempt. */
  lemma UpdateArticleTrace(articleId: int, htmlContent: string, title: string, imageUrl: Option<string>,
                           status: Option<string>, cookies: Cookies, fetch: nat -> Outcome, n: Net)
    ensures var r := UpdateArticle(articleId, htmlContent, title, imageUrl, status, cookies, fetch, n);
            var req := UpdateRequest(articleId, htmlContent, title, imageUrl, status, cookies);
            Requests(r.events) == Repeat(req, r.net.sent - n.sent)
  {
    AttemptTrace(UpdateRequest(articleId, htmlContent, title, imageUrl, status, cookies), MaxRetries, 0, fetch, n);
  }

  datatype Posted = Posted(success: bool, articleId: int, articleKey: string, noteUrl: string, status: string)

  datatype PostRun = PostRun(result: Res<Posted>, net: Net, events: seq<Event>)

  function NoteUrl(username: string, articleKey: string): string
  {
    "https://note.com/" + username + "/n/" + articleKey
  }

  /** `postArticle({...})`: create once, update the created article once,
      then build the public URL. */
  function PostArticle(htmlContent: string, title: string, imageUrl: Option<string>, status: Option<string>,
                       cookies: Cookies, username: string, fetch: nat -> Outcome, stringify: Json -> string, n: Net): (r: PostRun)
  {
    var c := CreateArticle(title, cookies, fetch, stringify, n);
    match c.result
    case Failed(f) => PostRun(Failed(f), c.net, c.events)
    case Done(created) =>
      var u := UpdateArticle(created.articleId, htmlContent, title, imageUrl, status, cookies, fetch, c.net);
      match u.result
      case Failed(f) => PostRun(Failed(f), u.net, c.events + u.events)
      case Done(_) =>
        var posted := Posted(true, created.articleId, created.articleKey, NoteUrl(username, created.articleKey),
                             StatusOrDraft(status));
        PostRun(Done(posted), u.net, c.events + u.events)
  }

  /** The two-step protocol as seen on the wire: the create request, sent
      once per attempt of one logical call; then, only when create returned
      an id and key, the update request for that id carrying the body, title
      and status; a success echoes the status and builds the URL from the
      key. */
  lemma PostArticleProtocol(htmlContent: string, title: string, imageUrl: Option<string>, status: Option<string>,
                            cookies: Cookies, username: string, fetch: nat -> Outcome, stringify: Json -> string, n: Net)
    ensures var r := PostArticle(htmlContent, title, imageUrl, status, cookies, username, fetch, stringify, n);
            var c := CreateArticle(title, cookies, fetch, stringify, n);
            var k := c.net.sent - n.sent;
            var wire := Requests(r.events);
            && 1 <= k <= MaxRetries + 1 && k <= |wire|
            && wire[..k] == Repeat(CreateRequest(title, cookies), k)
            && (c.result.Failed? ==> |wire| == k && r.result == Failed(c.result.failure))
            && (c.result.Done? ==>
                  && 1 <= |wire| - k <= MaxRetries + 1
                  && wire[k..] == Repeat(UpdateRequest(c.result.value.articleId, htmlContent, title, imageUrl, status, cookies),
                                         |wire| - k))
            && (r.result.Done? ==>
                  && c.result.Done?
                  && r.result.value == Posted(true, c.result.value.articleId, c.result.value.articleKey,
                                              NoteUrl(username, c.result.value.articleKey), StatusOrDraft(status)))
  {
    var c := CreateArticle(title, cookies, fetch, stringify, n);
    var k := c.net.sent - n.sent;
    CreateArticleTrace(title, cookies, fetch, stringify, n);
    assert |Requests(c.events)| == k;
    if c.result.Done? {
      var u := UpdateArticle(c.result.value.articleId, htmlContent, title, imageUrl, status, cookies, fetch, c.net);
      UpdateArticleTrace(c.result.value.articleId, htmlContent, title, imageUrl, status, cookies, fetch, c.net);
      var r := PostArticle(htmlContent, title, imageUrl, status, cookies, username, fetch, stringify, n);
      assert r.events == c.events + u.events;
      TraceAppend(c.events, u.events);
      var wire := Requests(c.events) + Requests(u.events);
      assert |Requests(u.events)| == u.net.sent - c.net.sent == |wire| - k;
      assert wire[..k] == Requests(c.events);
      assert wire[k..] == Requests(u.events);
    }
  }
}

=== FILE: playwright_publisher.dfy ===
/** `publishWithImages` of lib/playwright-publisher.mjs: it drives the
    note.com editor in a headless browser — log in, open a draft or a new
    article, set the header image and title of a new article, clear the
    body, paste each text section as HTML and upload each image section
    through the editor menu, save the draft — and reads the article's
    public URL off the editor URL.

    The browser is a parameter: a `Page` says at which step, if any, it
    first throws and with what message, and which URL the editor shows
    after saving. What the model records is the sequence of `Action`s the
    publisher asks of the browser. */
module PlaywrightPublisher {
  import opened Results
  import opened Strings
  import opened Scan
  import opened MdSplitter
  import MdToHtml
  import NoteApi
  import Auth

  const CredentialsMissing: string := "NOTE_EMAIL / NOTE_PASSWORD が未設定です"
  const UsernameMissing: string := "NOTE_USERNAME が未設定です"

  /** What the publisher asks of the browser, in order. */
  datatype Action =
    | Launch                                 // import Playwright, launch Chromium
    | OpenPage                               // clipboard-enabled context, page, 30 s default timeout
    | LogIn(email: string, password: string) // the login form, then the redirect wait
    | OpenDraft(url: string)
    | CreateNote                             // `notes/new`, then the wait for the editor
    | SetHeaderImage(path: string)
    | SetTitle(title: string)
    | ClearBody
    | PasteHtml(html: string)
    | InsertImage(index: nat, path: string)  // `index` is `imageIdx` after its increment
    | SaveDraft
    | Close

  // ------------------------------------------------------------- the body

  /** How far `imageIdx` moves past a section. */
  function Bump(s: Section): nat
  {
    if s.Image? then 1 else 0
  }

  /** `sections.filter(s => s.type === 'image').length` */
  function ImageCount(sections: seq<Section>): (n: nat)
    ensures n <= |sections|
  {
    if |sections| == 0 then 0 else Bump(sections[0]) + ImageCount(sections[1..])
  }

  /** The paths of the image sections, in order. */
  function ImagePaths(sections: seq<Section>): (paths: seq<string>)
    ensures |paths| == ImageCount(sections)
  {
    if |sections| == 0 then []
    else (if sections[0].Image? then [sections[0].path] else []) + ImagePaths(sections[1..])
  }

  /** The image uploads of a trace: their numbers and paths, in order. */
  function Uploads(actions: seq<Action>): seq<(nat, string)>
  {
    if |actions| == 0 then []
    else (if actions[0].InsertImage? then [(actions[0].index, actions[0].path)] else []) + Uploads(actions[1..])
  }

  lemma {:induction false} UploadsAppend(a: seq<Action>, b: seq<Action>)
    ensures Uploads(a + b) == Uploads(a) + Uploads(b)
  {
    if |a| == 0 {
      assert a + b == b;
    } else {
      assert (a + b)[0] == a[0] && (a + b)[1..] == a[1..] + b;
      UploadsAppend(a[1..], b);
      var head := if a[0].InsertImage? then [(a[0].index, a[0].path)] else [];
      AppendAssoc(head, Uploads(a[1..]), Uploads(b));
    }
  }

  /** Paths numbered consecutively from `from`. */
  function Numbered(paths: seq<string>, from: nat): (r: seq<(nat, string)>)
    ensures |r| == |paths|
  {
    if |paths| == 0 then [] else [(from, paths[0])] + Numbered(paths[1..], from + 1)
  }

  /** The `k`-th numbered path carries number `from + k`. */
  lemma {:induction false} NumberedAt(paths: seq<string>, from: nat, k: nat)
    requires k < |paths|
    ensures Numbered(paths, from)[k] == (from + k, paths[k])
  {
    if k > 0 {
      NumberedAt(paths[1..], from + 1, k - 1);
    }
  }

  lemma NumberedCons(path: string, rest: seq<string>, from: nat)
    ensures Numbered([path] + rest, from) == [(from, path)] + Numbered(rest, from + 1)
  {
    assert ([path] + rest)[1..] == rest;
  }

  /** The section loop only pastes and uploads. */
  predicate IsBodyAction(a: Action)
  {
    a.PasteHtml? || a.InsertImage?
  }

  /** What one pass of the section loop appends, given the section and
      `imageIdx` before it. */
  type Handler = (Section, nat) -> seq<Action>

  /** The section loop from `imageIdx == n` on, whatever a pass does. */
  function Walk(sections: seq<Section>, n: nat, handle: Handler): seq<Action>
  {
    if |sections| == 0 then [] else handle(sections[0], n) + Walk(sections[1..], n + Bump(sections[0]), handle)
  }

  lemma {:induction false} WalkAppend(a: seq<Section>, b: seq<Section>, n: nat, handle: Handler)
    ensures Walk(a + b, n, handle) == Walk(a, n, handle) + Walk(b, n + ImageCount(a), handle)
  {
    if |a| == 0 {
      assert a + b == b;
    } else {
      assert (a + b)[0] == a[0] && (a + b)[1..] == a[1..] + b;
      WalkAppend(a[1..], b, n + Bump(a[0]), handle);
      AppendAssoc(handle(a[0], n), Walk(a[1..], n + Bump(a[0]), handle),
                  Walk(b, n + Bump(a[0]) + ImageCount(a[1..]), handle));
    }
  }

  /** The uploads of the loop: the first section's, then the rest's. */
  lemma UploadsWalkCons(sections: seq<Section>, n: nat, handle: Handler)
    requires |sections| > 0
    ensures Uploads(Walk(sections, n, handle))
            == Uploads(handle(sections[0], n)) + Uploads(Walk(sections[1..], n + Bump(sections[0]), handle))
  {
    UploadsAppend(handle(sections[0], n), Walk(sections[1..], n + Bump(sections[0]), handle));
  }

  /** The numbered image paths: the first section's, if it is an image, then
      the rest's, numbered on. */
  lemma NumberedPathsCons(sections: seq<Section>, from: nat)
    requires |sections| > 0
    ensures Numbered(ImagePaths(sections), from)
            == (if sections[0].Image? then [(from, sections[0].path)] else [])
               + Numbered(ImagePaths(sections[1..]), from + Bump(sections[0]))
  {
    var rest := ImagePaths(sections[1..]);
    if sections[0].Image? {
      assert ImagePaths(sections) == [sections[0].path] + rest;
      NumberedCons(sections[0].path, rest, from);
    } else {
      assert ImagePaths(sections) == rest;
    }
  }

  lemma {:induction false} WalkKinds(sections: seq<Section>, n: nat, handle: Handler)
    requires forall s, m, k :: 0 <= k < |handle(s, m)| ==> IsBodyAction(handle(s, m)[k])
    ensures forall k :: 0 <= k < |Walk(sections, n, handle)| ==> IsBodyAction(Walk(sections, n, handle)[k])
  {
    if |sections| > 0 {
      WalkKinds(sections[1..], n + Bump(sections[0]), handle);
      var head := handle(sections[0], n);
      var tail := Walk(sections[1..], n + Bump(sections[0]), handle);
      assert Walk(sections, n, handle) == head + tail;
    }
  }

  /** One pass of the section loop when `imageIdx` is `n`: a text section
      is pasted as its HTML unless that trims to nothing (is all blanks, by
      `Strings.TrimEmptyIffAllSpace`); an image section is uploaded as image
      `n + 1`. */
  function SectionActions(s: Section, n: nat, html: string -> string): seq<Action>
  {
    match s
    case Text(content) => if AllSpace(html(content)) then [] else [PasteHtml(html(content))]
    case Image(_, path) => [InsertImage(n + 1, path)]
  }

  function Handle(html: string -> string): Handler
  {
    (s: Section, n: nat) => SectionActions(s, n, html)
  }

  /** The actions of the section loop from `imageIdx == n` on. */
  function BodyActions(sections: seq<Section>, n: nat, html: string -> string): seq<Action>
  {
    Walk(sections, n, Handle(html))
  }

  /** One more pass of the loop, at `idx`. */
  lemma WalkStep(sections: seq<Section>, idx: nat, n: nat, handle: Handler)
    requires idx < |sections|
    ensures Walk(sections[idx..], n, handle)
            == handle(sections[idx], n) + Walk(sections[idx + 1..], n + Bump(sections[idx]), handle)
    ensures ImageCount(sections[idx..]) == Bump(sections[idx]) + ImageCount(sections[idx + 1..])
  {
    assert sections[idx..][0] == sections[idx] && sections[idx..][1..] == sections[idx + 1..];
  }

  /** The body of the `for` loop: what one section adds to the editor and
      the image counter after it. */
  method HandleSection(section: Section, imageIdx: nat, html: string -> string) returns (added: seq<Action>, next: nat)
    ensures added == SectionActions(section, imageIdx, html)
    ensures next == imageIdx + Bump(section)
  {
    match section {
      case Text(content) =>
        var h := html(content);
        TrimEmptyIffAllSpace(h);
        if Trim(h) == "" {
          added := [];
        } else {
          added := [PasteHtml(h)];
        }
        next := imageIdx;
      case Image(_, path) =>
        next := imageIdx + 1;
        added := [InsertImage(next, path)];
    }
  }

  /** The `for` loop over the sections, with its image counter. */
  method ProcessSections(sections: seq<Section>, html: string -> string) returns (actions: seq<Action>, imageIdx: nat)
    ensures actions == BodyActions(sections, 0, html)
    ensures imageIdx == ImageCount(sections)
  {
    actions := [];
    imageIdx := 0;
    var idx := 0;
    while idx < |sections|
      invariant idx <= |sections|
      invariant actions + Walk(sections[idx..], imageIdx, Handle(html)) == BodyActions(sections, 0, html)
      invariant imageIdx + ImageCount(sections[idx..]) == ImageCount(sections)
    {
      var added, next := HandleSection(sections[idx], imageIdx, html);
      LoopStep(sections, idx, imageIdx, actions, added, html);
      actions := actions + added;
      imageIdx := next;
      idx := idx + 1;
    }
    assert sections[idx..] == [];
  }

  /** One pass of the loop keeps its invariants. */
  lemma LoopStep(sections: seq<Section>, idx: nat, n: nat, actions: seq<Action>, added: seq<Action>,
                 html: string -> string)
    requires idx < |sections|
    requires actions + Walk(sections[idx..], n, Handle(html)) == BodyActions(sections, 0, html)
    requires added == SectionActions(sections[idx], n, html)
    ensures (actions + added) + Walk(sections[idx + 1..], n + Bump(sections[idx]), Handle(html))
            == BodyActions(sections, 0, html)
    ensures ImageCount(sections[idx..]) == Bump(sections[idx]) + ImageCount(sections[idx + 1..])
  {
    var h := Handle(html);
    WalkStep(sections, idx, n, h);
    assert h(sections[idx], n) == added;
    AppendAssoc(actions, added, Walk(sections[idx + 1..], n + Bump(sections[idx]), h));
  }

  /** Each section is handled once, in order: the loop over `a + b` is the
      loop over `a` followed by the loop over `b`, whose image numbers go
      on from where `a` left them. */
  lemma SectionsInOrder(a: seq<Section>, b: seq<Section>, n: nat, html: string -> string)
    ensures BodyActions(a + b, n, html) == BodyActions(a, n, html) + BodyActions(b, n + ImageCount(a), html)
  {
    var h := Handle(html);
    WalkAppend(a, b, n, h);
    assert BodyActions(a + b, n, html) == Walk(a + b, n, h);
  }

  lemma SectionUploads(s: Section, n: nat, html: string -> string)
    ensures Uploads(SectionActions(s, n, html)) == (if s.Image? then [(n + 1, s.path)] else [])
  {
    var acts := SectionActions(s, n, html);
    if |acts| > 0 {
      assert acts[1..] == [];
    }
  }

  /** Every image section is uploaded exactly once, in order, and the
      counter numbers them `n + 1`, `n + 2`, ...: the last number is the
      image count the publisher announces. */
  lemma {:induction false} ImagesNumberedInOrder(sections: seq<Section>, n: nat, html: string -> string)
    ensures Uploads(BodyActions(sections, n, html)) == Numbered(ImagePaths(sections), n + 1)
  {
    if |sections| > 0 {
      var s := sections[0];
      ImagesNumberedInOrder(sections[1..], n + Bump(s), html);
      UploadsWalkCons(sections, n, Handle(html));
      NumberedPathsCons(sections, n + 1);
      SectionUploads(s, n, html);
      assert Handle(html)(s, n) == SectionActions(s, n, html);
    }
  }

  lemma BodyActionsKinds(sections: seq<Section>, n: nat, html: string -> string)
    ensures forall k :: 0 <= k < |BodyActions(sections, n, html)| ==> IsBodyAction(BodyActions(sections, n, html)[k])
  {
    forall s, m, k | 0 <= k < |Handle(html)(s, m)|
      ensures IsBodyAction(Handle(html)(s, m)[k])
    {
    }
    WalkKinds(sections, n, Handle(html));
  }

  /** The HTML of a text section: `mdToHtml(section.content)`. */
  function Render(inline: string -> string): string -> string
  {
    md => MdToHtml.MdToHtml(md, inline)
  }

  /** A text section of blanks only renders to nothing and is skipped; any
      other text section whose HTML is not blank is pasted once, as that
      HTML. */
  lemma BlankTextSkipped(content: string, n: nat, inline: string -> string)
    ensures AllSpace(content) ==> SectionActions(Text(content), n, Render(inline)) == []
    ensures SectionActions(Text(content), n, Render(inline)) == [] <==> Trim(MdToHtml.MdToHtml(content, inline)) == ""
    ensures Trim(MdToHtml.MdToHtml(content, inline)) != "" ==>
              SectionActions(Text(content), n, Render(inline)) == [PasteHtml(MdToHtml.MdToHtml(content, inline))]
  {
    var h := MdToHtml.MdToHtml(content, inline);
    assert Render(inline)(content) == h;
    TrimEmptyIffAllSpace(h);
    if AllSpace(content) {
      MdToHtml.MdToHtmlAllBlank(content, inline);
    }
  }

  // --------------------------------------------------------- the article URL

  /** `[a-f0-9]` */
  predicate IsHexDigit(c: char)
  {
    '0' <= c <= '9' || 'a' <= c <= 'f'
  }

  const KeyMarker: string := "notes/n"

  /** `editorUrl.match(/notes\/(n[a-f0-9]+)/)?.[1]`: the leftmost `notes/n`
      followed by hex digits gives the key `n` and all those digits. */
  function NoteKey(editorUrl: string): (key: Option<string>)
    ensures key.Some? ==> |key.value| >= 2 && key.value[0] == 'n'
                          && forall k :: 1 <= k < |key.value| ==> IsHexDigit(key.value[k])
  {
    match FindRun(editorUrl, 0, KeyMarker, IsHexDigit)
    case Some(q) => Some("n" + RunAfter(editorUrl, q, KeyMarker, IsHexDigit))
    case None => None
  }

  /** `noteKey ? https://note.com/{username}/n/{noteKey} : editorUrl` */
  function NoteUrlOf(editorUrl: string, username: string): (url: string)
    ensures NoteKey(editorUrl).None? ==> url == editorUrl
  {
    match NoteKey(editorUrl)
    case Some(key) => NoteApi.NoteUrl(username, key)
    case None => editorUrl
  }

  const EditorOrigin: string := "https://editor.note.com/"

  /** What a `notes/n` marker at `p` means character by character. */
  lemma KeyMarkerChars(s: string, p: nat)
    ensures RunAt(s, p, KeyMarker, IsHexDigit)
            ==> p + 7 < |s| && s[p] == 'n' && s[p + 4] == 's' && s[p + 5] == '/' && IsHexDigit(s[p + 7])
  {
    if RunAt(s, p, KeyMarker, IsHexDigit) {
      assert s[p..p + 7][0] == s[p] && s[p..p + 7][4] == s[p + 4] && s[p..p + 7][5] == s[p + 5];
    }
  }

  /** The editor's origin holds no `notes/n` marker, whatever follows it. */
  lemma NoKeyMarkerInOrigin(rest: string, p: nat)
    requires p < |EditorOrigin|
    ensures !RunAt(EditorOrigin + rest, p, KeyMarker, IsHexDigit)
  {
    var s := EditorOrigin + rest;
    KeyMarkerChars(s, p);
    if p == 15 {
      assert s[19] == EditorOrigin[19];
      assert EditorOrigin[19] == '.';
    } else {
      EditorOriginLetters(p);
      assert s[p] == EditorOrigin[p];
    }
  }

  lemma EditorOriginLetters(p: nat)
    requires p < |EditorOrigin| && p != 15
    ensures EditorOrigin[p] != 'n'
  {
    if p < 8 {
      assert EditorOrigin[..8] == "https://";
      assert EditorOrigin[p] == EditorOrigin[..8][p];
    } else if p < 15 {
      assert EditorOrigin[8..15] == "editor.";
      assert EditorOrigin[p] == EditorOrigin[8..15][p - 8];
    } else {
      assert EditorOrigin[16..] == "ote.com/";
      assert EditorOrigin[p] == EditorOrigin[16..][p - 16];
    }
  }

  /** An editor URL `https://editor.note.com/notes/{key}...` with a key `n`
      and hex digits, followed by anything that does not start with a hex
      digit, gives the public URL of that key. */
  lemma EditorUrlGivesNoteUrl(key: string, tail: string, username: string)
    requires |key| >= 2 && key[0] == 'n' && forall k :: 1 <= k < |key| ==> IsHexDigit(key[k])
    requires tail == "" || !IsHexDigit(tail[0])
    ensures NoteKey(EditorOrigin + ("notes/" + key + tail)) == Some(key)
    ensures NoteUrlOf(EditorOrigin + ("notes/" + key + tail), username) == NoteApi.NoteUrl(username, key)
  {
    var rest := "notes/" + key + tail;
    var s := EditorOrigin + rest;
    var q := |EditorOrigin|;
    assert s[q..q + 7] == KeyMarker by {
      assert s[q..q + 7] == rest[..7];
      assert rest[..7] == "notes/" + [key[0]];
    }
    assert s[q + 7] == key[1];
    forall p | 0 <= p < q
      ensures !RunAt(s, p, KeyMarker, IsHexDigit)
    {
      NoKeyMarkerInOrigin(rest, p);
    }
    assert RunAt(s, q, KeyMarker, IsHexDigit);
    assert FindRun(s, 0, KeyMarker, IsHexDigit) == Some(q) by {
      FindRunFrom(s, q);
    }
    var e := q + 6 + |key|;
    forall k | q + 7 <= k < e
      ensures IsHexDigit(s[k])
    {
      assert s[k] == key[k - q - 6];
    }
    if e < |s| {
      assert s[e] == tail[0];
    }
    RunEndUnique(s, q + 8, IsHexDigit, e);
    assert s[q + 7..e] == key[1..];
    assert "n" + key[1..] == key;
  }

  lemma FindRunFrom(s: string, q: nat)
    requires q <= |s| && RunAt(s, q, KeyMarker, IsHexDigit)
    requires forall p :: 0 <= p < q ==> !RunAt(s, p, KeyMarker, IsHexDigit)
    ensures FindRun(s, 0, KeyMarker, IsHexDigit) == Some(q)
  {
  }

  // ------------------------------------------------------------- the run

  /** Truthiness of an optional string parameter (`if (draftUrl)`). */
  predicate Given(v: Option<string>)
  {
    Auth.IsSet(v)
  }

  /** Everything asked of the browser on a run that does not fail. */
  function Steps(email: string, password: string, title: string, sections: seq<Section>,
                 headerImagePath: Option<string>, draftUrl: Option<string>, html: string -> string): seq<Action>
  {
    [Launch, OpenPage, LogIn(email, password)]
    + (if Given(draftUrl) then [OpenDraft(draftUrl.value)] else [CreateNote])
    + (if !Given(draftUrl) && Given(headerImagePath) then [SetHeaderImage(headerImagePath.value)] else [])
    + (if !Given(draftUrl) && title != "" then [SetTitle(title)] else [])
    + [ClearBody]
    + BodyActions(sections, 0, html)
    + [SaveDraft]
  }

  /** The browser's side: the step (an index into `Steps`) at which it first
      throws and the message, if any; and `page.url()` after saving. */
  datatype Page = Page(failAt: Option<(nat, string)>, editorUrl: string)

  datatype Published = Published(noteUrl: string, editorUrl: string)

  datatype Run = Run(result: Result<Published>, actions: seq<Action>)

  /** Runs the steps against the page. A failure at step `k` has attempted
      steps `0..k`; it reaches `browser.close()` when `k >= closeFrom`. */
  function Perform(steps: seq<Action>, page: Page, username: string, closeFrom: nat): (r: Run)
    requires |steps| > 0 && steps[0] == Launch
    ensures |r.actions| > 0 && r.actions[0] == Launch && Launch in r.actions
    ensures r.result.Ok? || (page.failAt.Some? && page.failAt.value.0 >= closeFrom)
            ==> r.actions[|r.actions| - 1] == Close
    ensures r.result.Ok? ==> |r.actions| > |steps|
    ensures r.result.Err? ==> page.failAt.Some? && page.failAt.value.0 < |steps|
                              && |r.actions| >= page.failAt.value.0 + 1
  {
    if page.failAt.Some? && page.failAt.value.0 < |steps| then
      var k := page.failAt.value.0;
      Run(Err(page.failAt.value.1), steps[..k + 1] + (if k >= closeFrom then [Close] else []))
    else
      Run(Ok(Published(NoteUrlOf(page.editorUrl, username), page.editorUrl)), steps + [Close])
  }

  /** The publisher with the browser closed for failures from step
      `closeFrom` on. */
  function PublishFrom(env: Auth.Env, title: string, body: string, headerImagePath: Option<string>, imageBase: string,
                       draftUrl: Option<string>, resolve: (string, string) -> string, inline: string -> string,
                       page: Page, closeFrom: nat): Run
  {
    if !Auth.IsSet(env.email) || !Auth.IsSet(env.password) then Run(Err(CredentialsMissing), [])
    else if !Auth.IsSet(env.username) then Run(Err(UsernameMissing), [])
    else
      var sections := SplitAtImages(body, imageBase, resolve);
      var steps := Steps(env.email.value, env.password.value, title, sections, headerImagePath, draftUrl, Render(inline));
      Perform(steps, page, env.username.value, closeFrom)
  }

  /** `publishWithImages` as written: the context, the page and the default
      timeout are set up before the `try`, so a failure there skips the
      `finally` that closes the browser. */
  function PublishWithImagesAsWritten(env: Auth.Env, title: string, body: string, headerImagePath: Option<string>,
                                      imageBase: string, draftUrl: Option<string>, resolve: (string, string) -> string,
                                      inline: string -> string, page: Page): (r: Run)
    ensures !Auth.IsSet(env.email) || !Auth.IsSet(env.password) ==> r == Run(Err(CredentialsMissing), [])
    ensures Auth.IsSet(env.email) && Auth.IsSet(env.password) && !Auth.IsSet(env.username)
            ==> r == Run(Err(UsernameMissing), [])
    ensures Launch in r.actions <==> Auth.IsSet(env.email) && Auth.IsSet(env.password) && Auth.IsSet(env.username)
    ensures Launch in r.actions ==> r.actions[0] == Launch
    ensures Launch in r.actions ==>
              (r.actions[|r.actions| - 1] == Close
               <==> !(r.result.Err? && page.failAt.Some? && page.failAt.value.0 < 2))
    ensures Launch in r.actions && r.result.Err? && page.failAt.Some? && page.failAt.value.0 == 1
            ==> Close !in r.actions
  {
    PublishFrom(env, title, body, headerImagePath, imageBase, draftUrl, resolve, inline, page, 2)
  }

  /** A browser that launched and then failed to open its page is left
      running. */
  lemma PageSetupFailureLeaksBrowser(env: Auth.Env, title: string, body: string, headerImagePath: Option<string>,
                                     imageBase: string, draftUrl: Option<string>, resolve: (string, string) -> string,
                                     inline: string -> string, msg: string, editorUrl: string)
    requires Auth.IsSet(env.email) && Auth.IsSet(env.password) && Auth.IsSet(env.username)
    ensures var r := PublishWithImagesAsWritten(env, title, body, headerImagePath, imageBase, draftUrl, resolve, inline,
                                                Page(Some((1, msg)), editorUrl));
            r == Run(Err(msg), [Launch, OpenPage]) && Launch in r.actions && Close !in r.actions
  {
  }

  /** `publishWithImages` with the `try` opened right after the launch:
      every failure after the browser exists closes it. */
  function PublishWithImages(env: Auth.Env, title: string, body: string, headerImagePath: Option<string>,
                             imageBase: string, draftUrl: Option<string>, resolve: (string, string) -> string,
                             inline: string -> string, page: Page): (r: Run)
    ensures !Auth.IsSet(env.email) || !Auth.IsSet(env.password) ==> r == Run(Err(CredentialsMissing), [])
    ensures Auth.IsSet(env.email) && Auth.IsSet(env.password) && !Auth.IsSet(env.username)
            ==> r == Run(Err(UsernameMissing), [])
    ensures Launch in r.actions <==> Auth.IsSet(env.email) && Auth.IsSet(env.password) && Auth.IsSet(env.username)
    ensures Launch in r.actions ==> r.actions[0] == Launch
    ensures Launch in r.actions && r.actions != [Launch] ==> r.actions[|r.actions| - 1] == Close
    ensures r.actions == [Launch] ==> r.result.Err? && page.failAt.Some? && page.failAt.value.0 == 0
  {
    PublishFrom(env, title, body, headerImagePath, imageBase, draftUrl, resolve, inline, page, 1)
  }

  /** A run that does not fail performs every step, in order, then closes
      the browser, and reports the URL read off the editor. */
  lemma PublishSucceeds(env: Auth.Env, title: string, body: string, headerImagePath: Option<string>,
                        imageBase: string, draftUrl: Option<string>, resolve: (string, string) -> string,
                        inline: string -> string, page: Page)
    requires Auth.IsSet(env.email) && Auth.IsSet(env.password) && Auth.IsSet(env.username)
    requires page.failAt.None?
    ensures var r := PublishWithImages(env, title, body, headerImagePath, imageBase, draftUrl, resolve, inline, page);
            var sections := SplitAtImages(body, imageBase, resolve);
            && r.result == Ok(Published(NoteUrlOf(page.editorUrl, env.username.value), page.editorUrl))
            && r.actions == Steps(env.email.value, env.password.value, title, sections, headerImagePath, draftUrl,
                                  Render(inline)) + [Close]
  {
  }

  /** The header image is set only for a new article with a header image
      path, and always then. */
  lemma HeaderImageOnlyForNewArticles(email: string, password: string, title: string, sections: seq<Section>,
                                      headerImagePath: Option<string>, draftUrl: Option<string>,
                                      html: string -> string, path: string)
    ensures SetHeaderImage(path) in Steps(email, password, title, sections, headerImagePath, draftUrl, html)
            <==> !Given(draftUrl) && Given(headerImagePath) && headerImagePath.value == path
  {
    BodyActionsKinds(sections, 0, html);
    var body := BodyActions(sections, 0, html);
    assert forall k :: 0 <= k < |body| ==> body[k] != SetHeaderImage(path);
  }

  /** The title is typed only for a new article with a non-empty title, and
      always then. */
  lemma TitleOnlyForNewArticles(email: string, password: string, title: string, sections: seq<Section>,
                                headerImagePath: Option<string>, draftUrl: Option<string>,
                                html: string -> string, t: string)
    ensures SetTitle(t) in Steps(email, password, title, sections, headerImagePath, draftUrl, html)
            <==> !Given(draftUrl) && title != "" && title == t
  {
    BodyActionsKinds(sections, 0, html);
    var body := BodyActions(sections, 0, html);
    assert forall k :: 0 <= k < |body| ==> body[k] != SetTitle(t);
  }
}

=== FILE: results.dfy ===
/** Failure-carrying values shared by every module of the publisher model.
    The publisher throws plain JavaScript `Error`s whose only payload is the
    message text, so a failure here is exactly that text. */
module Results {

  datatype Option<+T> = None | Some(value: T) {
    function GetOr(default: T): T
    {
      match this
      case Some(v) => v
      case None => default
    }
  }

  /** `Err(msg)` stands for `throw new Error(msg)`. */
  datatype Result<+T> = Ok(value: T) | Err(msg: string) {
    predicate IsFailure() { Err? }

    function PropagateFailure<U>(): Result<U>
      requires Err?
    {
      Err(msg)
    }

    function Extract(): T
      requires Ok?
    {
      value
    }
  }
}

=== FILE: scan.dfy ===
/** Character-level building blocks for the regular expressions the
    publisher uses: maximal runs of a character class, leftmost search for
    "literal prefix followed by a run", line starts in multiline mode, and
    the left-to-right scan of `String.prototype.replace` with a global regex
    and an empty replacement. */
module Scan {
  import opened Results
  import opened Strings

  /** End of the maximal run of `cls` characters that starts at `i`
      (a greedy `[...]*`). */
  function RunEnd(s: string, i: nat, cls: char -> bool): (e: nat)
    requires i <= |s|
    ensures i <= e <= |s|
    ensures forall k :: i <= k < e ==> cls(s[k])
    ensures e == |s| || !cls(s[e])
    decreases |s| - i
  {
    if i < |s| && cls(s[i]) then RunEnd(s, i + 1, cls) else i
  }

  /** The run end is the only position with those two properties. */
  lemma RunEndUnique(s: string, i: nat, cls: char -> bool, e: nat)
    requires i <= e <= |s|
    requires forall k :: i <= k < e ==> cls(s[k])
    requires e == |s| || !cls(s[e])
    ensures RunEnd(s, i, cls) == e
  {
  }

  /** Runs are found the same way inside a longer string. */
  lemma {:induction false} RunEndShift(x: string, y: string, i: nat, cls: char -> bool)
    requires i <= |y|
    ensures RunEnd(x + y, |x| + i, cls) == |x| + RunEnd(y, i, cls)
    decreases |y| - i
  {
    if i < |y| {
      assert (x + y)[|x| + i] == y[i];
      if cls(y[i]) {
        RunEndShift(x, y, i + 1, cls);
      }
    }
  }

  /** `^` in multiline mode: the start of the input or just after a line
      terminator. */
  predicate AtLineStart(s: string, p: nat)
  {
    p == 0 || (p <= |s| && IsLineTerminator(s[p - 1]))
  }

  /** The literal `prefix` occurs at `q` and is followed by at least one
      `cls` character. */
  predicate RunAt(s: string, q: nat, prefix: string, cls: char -> bool)
  {
    q + |prefix| < |s| && s[q..q + |prefix|] == prefix && cls(s[q + |prefix|])
  }

  /** Leftmost position at or after `from` where `prefix` followed by a
      `cls` run occurs: how an unanchored regex `prefix([cls]+)` is found. */
  function FindRun(s: string, from: nat, prefix: string, cls: char -> bool): (r: Option<nat>)
    requires from <= |s|
    ensures r.Some? ==> from <= r.value && RunAt(s, r.value, prefix, cls)
    ensures r.Some? ==> forall q :: from <= q < r.value ==> !RunAt(s, q, prefix, cls)
    ensures r.None? ==> forall q :: from <= q <= |s| ==> !RunAt(s, q, prefix, cls)
    decreases |s| - from
  {
    if RunAt(s, from, prefix, cls) then Some(from)
    else if from == |s| then None
    else FindRun(s, from + 1, prefix, cls)
  }

  /** The group `([cls]+)` captured by the match that `FindRun` found. */
  function RunAfter(s: string, q: nat, prefix: string, cls: char -> bool): (g: string)
    requires RunAt(s, q, prefix, cls)
    ensures |g| >= 1 && forall k :: 0 <= k < |g| ==> cls(g[k])
    ensures q + |prefix| + |g| <= |s|
    ensures q + |prefix| + |g| == |s| || !cls(s[q + |prefix| + |g|])
  {
    var e := RunEnd(s, q + |prefix| + 1, cls);
    s[q + |prefix|..e]
  }

  /** `s.slice(p).replace(re, '')` where `re` is global and `m(s, q)` is the
      end of the match of `re` that starts at `q`, if one does. An empty
      match keeps the character, as JavaScript advances past it. */
  function RemoveFrom(s: string, p: nat, m: (string, nat) -> Option<nat>): (r: string)
    requires p <= |s|
    ensures |r| <= |s| - p
    ensures (forall q :: p <= q < |s| ==> m(s, q).None?) ==> r == s[p..]
    decreases |s| - p
  {
    if p == |s| then ""
    else match m(s, p)
      case Some(e) =>
        if p < e <= |s| then RemoveFrom(s, e, m) else [s[p]] + RemoveFrom(s, p + 1, m)
      case None => [s[p]] + RemoveFrom(s, p + 1, m)
  }

  /** Removing matches never adds an occurrence of any character. */
  lemma {:induction false} RemoveFromCount(s: string, p: nat, m: (string, nat) -> Option<nat>, c: char)
    requires p <= |s|
    ensures Count(RemoveFrom(s, p, m), c) <= Count(s[p..], c)
    decreases |s| - p
  {
    if p < |s| {
      assert s[p..] == [s[p]] + s[p + 1..];
      CountAppend([s[p]], s[p + 1..], c);
      match m(s, p)
      case Some(e) =>
        if p < e <= |s| {
          RemoveFromCount(s, e, m, c);
          assert s[p..] == s[p..e] + s[e..];
          CountAppend(s[p..e], s[e..], c);
        } else {
          RemoveFromCount(s, p + 1, m, c);
          CountAppend([s[p]], RemoveFrom(s, p + 1, m), c);
        }
      case None =>
        RemoveFromCount(s, p + 1, m, c);
        CountAppend([s[p]], RemoveFrom(s, p + 1, m), c);
    }
  }
}

=== FILE: strings.dfy ===
/** The JavaScript string primitives the publisher leans on, stated
    character by character: `String.prototype.split` on one character,
    `Array.prototype.join`, the `trim` family with ECMAScript's whitespace set,
    `startsWith`, and the decimal rendering `${n}` of an integer. */
module Strings {

  /** ECMAScript LineTerminator: what `.` in a regex refuses and what `^`/`$`
      recognise in multiline mode. */
  predicate IsLineTerminator(c: char)
  {
    c == '\n' || c == '\r' || c == '\U{2028}' || c == '\U{2029}'
  }

  /** What the regex `.` matches: anything but a line terminator. */
  predicate IsLineChar(c: char)
  {
    !IsLineTerminator(c)
  }

  /** ECMAScript WhiteSpace plus LineTerminator: the set `trim` removes and
      the regex class `\s` matches. */
  predicate IsSpace(c: char)
  {
    || IsLineTerminator(c)
    || c == '\t' || c == '\U{000B}' || c == '\U{000C}' || c == ' '
    || c == '\U{00A0}' || c == '\U{1680}' || ('\U{2000}' <= c <= '\U{200A}')
    || c == '\U{202F}' || c == '\U{205F}' || c == '\U{3000}' || c == '\U{FEFF}'
  }

  predicate IsDigit(c: char) { '0' <= c <= '9' }
  predicate IsLower(c: char) { 'a' <= c <= 'z' }
  predicate IsUpper(c: char) { 'A' <= c <= 'Z' }
  predicate IsLetter(c: char) { IsLower(c) || IsUpper(c) }
  /** `[A-Za-z0-9]` */
  predicate IsAlnum(c: char) { IsLetter(c) || IsDigit(c) }

  predicate StartsWith(s: string, prefix: string)
  {
    |prefix| <= |s| && s[..|prefix|] == prefix
  }

  predicate AllSpace(s: string)
  {
    forall i :: 0 <= i < |s| ==> IsSpace(s[i])
  }

  /** Does `c` occur in `s` at or after position `from`? */
  predicate OccursFrom(s: string, c: char, from: nat)
  {
    exists i :: from <= i < |s| && s[i] == c
  }

  // ------------------------------------------------------------ sequences

  /** Two sequence identities, stated once so that proofs about the
      publisher's lists can use them without re-deriving them. */
  lemma HeadTail<T>(s: seq<T>)
    requires |s| > 0
    ensures [s[0]] + s[1..] == s
  {
  }

  lemma AppendAssoc<T>(a: seq<T>, b: seq<T>, c: seq<T>)
    ensures a + b + c == a + (b + c)
  {
  }

  // ---------------------------------------------------------------- trim

  /** `s.trimStart()` */
  function TrimStart(s: string): (r: string)
    ensures |r| <= |s|
  {
    if |s| > 0 && IsSpace(s[0]) then TrimStart(s[1..]) else s
  }

  /** `trimStart` drops exactly the leading whitespace: what it keeps is a
      suffix that does not start with whitespace. */
  lemma {:induction false} TrimStartShape(s: string)
    ensures TrimStart(s) == s[|s| - |TrimStart(s)|..]
    ensures AllSpace(s[..|s| - |TrimStart(s)|])
    ensures |TrimStart(s)| > 0 ==> !IsSpace(TrimStart(s)[0])
  {
    if |s| > 0 && IsSpace(s[0]) {
      TrimStartShape(s[1..]);
      var k := |s| - |TrimStart(s)|;
      assert s[..k] == [s[0]] + s[1..][..k - 1];
    }
  }

  /** `s.trimEnd()` */
  function TrimEnd(s: string): (r: string)
    ensures |r| <= |s|
  {
    if |s| > 0 && IsSpace(s[|s| - 1]) then TrimEnd(s[..|s| - 1]) else s
  }

  /** `trimEnd` drops exactly the trailing whitespace: what it keeps is a
      prefix that does not end with whitespace. */
  lemma {:induction false} TrimEndShape(s: string)
    ensures TrimEnd(s) == s[..|TrimEnd(s)|]
    ensures AllSpace(s[|TrimEnd(s)|..])
    ensures |TrimEnd(s)| > 0 ==> !IsSpace(TrimEnd(s)[|TrimEnd(s)| - 1])
  {
    if |s| > 0 && IsSpace(s[|s| - 1]) {
      TrimEndShape(s[..|s| - 1]);
      var k := |TrimEnd(s)|;
      assert s[k..] == s[..|s| - 1][k..] + [s[|s| - 1]];
    }
  }

  /** How many leading whitespace characters `trim` drops. */
  function TrimOffset(s: string): nat
  {
    |s| - |TrimStart(s)|
  }

  /** `s.trim()`: the input with its maximal leading and trailing whitespace
      removed. */
  function Trim(s: string): string
  {
    TrimEnd(TrimStart(s))
  }

  /** What `trim` leaves: a slice of the input with no whitespace at either
      end. */
  lemma TrimShape(s: string)
    ensures TrimOffset(s) + |Trim(s)| <= |s| && Trim(s) == s[TrimOffset(s)..TrimOffset(s) + |Trim(s)|]
    ensures |Trim(s)| > 0 ==> !IsSpace(Trim(s)[0]) && !IsSpace(Trim(s)[|Trim(s)| - 1])
  {
    TrimStartShape(s);
    TrimEndShape(TrimStart(s));
  }

  /** Nothing is left by `trim` exactly when the input is all whitespace. */
  lemma TrimEmptyIffAllSpace(s: string)
    ensures Trim(s) == "" <==> AllSpace(s)
  {
    var t := TrimStart(s);
    TrimStartShape(s);
    TrimEndShape(t);
    assert s == s[..|s| - |t|] + t;
    if Trim(s) == "" {
      assert AllSpace(t[0..]);
      assert |t| == 0;
    } else if |t| > 0 {
      assert t[0] == s[|s| - |t|];
    }
  }

  /** A string with no surrounding whitespace is its own trim. */
  lemma TrimIdentity(s: string)
    requires |s| > 0 ==> !IsSpace(s[0]) && !IsSpace(s[|s| - 1])
    ensures Trim(s) == s
  {
  }

  // ---------------------------------------------------------- split / join

  /** `s.split(d)` for a one-character separator: the pieces between
      consecutive occurrences of `d`, always at least one. */
  function Split(s: string, d: char): (r: seq<string>)
    ensures |r| >= 1
    ensures forall i :: 0 <= i < |r| ==> d !in r[i]
  {
    if |s| == 0 then [""]
    else
      var rest := Split(s[1..], d);
      if s[0] == d then [""] + rest
      else [[s[0]] + rest[0]] + rest[1..]
  }

  /** `parts.join(sep)`; an empty array joins to the empty string. */
  function Join(parts: seq<string>, sep: string): string
  {
    if |parts| == 0 then ""
    else if |parts| == 1 then parts[0]
    else parts[0] + sep + Join(parts[1..], sep)
  }

  /** A join is at least as long as its first part. */
  lemma JoinPrefix(parts: seq<string>, sep: string)
    requires |parts| >= 1
    ensures |Join(parts, sep)| >= |parts[0]|
  {
  }

  function Count(s: string, c: char): nat
  {
    if |s| == 0 then 0 else (if s[0] == c then 1 else 0) + Count(s[1..], c)
  }

  lemma CountAppend(a: string, b: string, c: char)
    ensures Count(a + b, c) == Count(a, c) + Count(b, c)
  {
    if |a| > 0 {
      assert (a + b)[0] == a[0];
      assert (a + b)[1..] == a[1..] + b;
      CountAppend(a[1..], b, c);
      assert Count(a + b, c) == (if a[0] == c then 1 else 0) + Count(a[1..] + b, c);
    } else {
      assert a + b == b;
    }
  }

  lemma CountAbsent(s: string, c: char)
    requires c !in s
    ensures Count(s, c) == 0
  {
    if |s| > 0 {
      assert c !in s[1..];
      CountAbsent(s[1..], c);
    }
  }

  /** Joining the pieces of a split restores the original string. */
  lemma {:induction false} JoinSplit(s: string, d: char)
    ensures Join(Split(s, d), [d]) == s
  {
    if |s| > 0 {
      var rest := Split(s[1..], d);
      JoinSplit(s[1..], d);
      if s[0] == d {
        assert Split(s, d) == [""] + rest;
        assert ([""] + rest)[1..] == rest;
      } else {
        var r := Split(s, d);
        assert r == [[s[0]] + rest[0]] + rest[1..];
        if |rest| == 1 {
          assert Join(r, [d]) == [s[0]] + rest[0];
        } else {
          assert r[1..] == rest[1..];
          assert Join(rest, [d]) == rest[0] + [d] + Join(rest[1..], [d]);
        }
      }
    }
  }

  lemma {:induction false} SplitPrefix(x: string, y: string, d: char)
    requires d !in x
    ensures Split(x + y, d) == [x + Split(y, d)[0]] + Split(y, d)[1..]
  {
    if |x| > 0 {
      assert (x + y)[1..] == x[1..] + y;
      assert d !in x[1..];
      SplitPrefix(x[1..], y, d);
      var sy := Split(y, d);
      var rest := Split((x + y)[1..], d);
      assert rest == [x[1..] + sy[0]] + sy[1..];
      assert (x + y)[0] == x[0];
      assert Split(x + y, d) == [[x[0]] + rest[0]] + rest[1..];
      assert rest[1..] == sy[1..];
      assert [x[0]] + (x[1..] + sy[0]) == x + sy[0];
    } else {
      var sy := Split(y, d);
      assert x + y == y;
      assert x + sy[0] == sy[0];
      assert [sy[0]] + sy[1..] == sy;
    }
  }

  /** Splitting a join of separator-free pieces gives the pieces back. */
  lemma {:induction false} SplitJoin(parts: seq<string>, d: char)
    requires |parts| >= 1
    requires forall i :: 0 <= i < |parts| ==> d !in parts[i]
    ensures Split(Join(parts, [d]), d) == parts
  {
    if |parts| == 1 {
      SplitPrefix(parts[0], "", d);
      assert parts[0] + "" == parts[0];
    } else {
      var tail := Join(parts[1..], [d]);
      SplitJoin(parts[1..], d);
      assert Join(parts, [d]) == parts[0] + ([d] + tail);
      SplitPrefix(parts[0], [d] + tail, d);
      assert ([d] + tail)[1..] == tail;
      assert Split([d] + tail, d) == [""] + parts[1..];
      assert parts[0] + "" == parts[0];
    }
  }

  /** There is one more piece than there are separators. */
  lemma {:induction false} SplitCount(s: string, d: char)
    ensures |Split(s, d)| == Count(s, d) + 1
  {
    if |s| > 0 {
      SplitCount(s[1..], d);
    }
  }

  /** The number of `d`-separated pieces of a join of `d`-free pieces. */
  lemma JoinCount(parts: seq<string>, d: char)
    requires |parts| >= 1
    requires forall i :: 0 <= i < |parts| ==> d !in parts[i]
    ensures Count(Join(parts, [d]), d) + 1 == |parts|
  {
    SplitJoin(parts, d);
    SplitCount(Join(parts, [d]), d);
  }

  // ----------------------------------------------------------- lower case

  /** `toLowerCase` restricted to ASCII letters; every other character is
      kept. */
  function AsciiLower(s: string): (r: string)
    ensures |r| == |s|
    ensures forall i :: 0 <= i < |s| ==> !IsUpper(r[i])
    ensures forall i :: 0 <= i < |s| && !IsUpper(s[i]) ==> r[i] == s[i]
  {
    if |s| == 0 then ""
    else
      var c := s[0];
      [if IsUpper(c) then (c as int + 32) as char else c] + AsciiLower(s[1..])
  }

  // -------------------------------------------------------- decimal text

  function DigitChar(d: nat): char
    requires d < 10
  {
    "0123456789"[d]
  }

  /** `${n}` for a non-negative integer: no leading zeros, only digits. */
  function NatToString(n: nat): (r: string)
    ensures |r| >= 1
    ensures forall i :: 0 <= i < |r| ==> IsDigit(r[i])
    ensures |r| > 1 ==> r[0] != '0'
    decreases n
  {
    if n < 10 then [DigitChar(n)] else NatToString(n / 10) + [DigitChar(n % 10)]
  }

  /** `${i}` for any integer. */
  function IntToString(i: int): (r: string)
    ensures |r| >= 1
    ensures (r[0] == '-') <==> i < 0
  {
    if i < 0 then "-" + NatToString(-i) else NatToString(i)
  }

  function DigitValue(c: char): nat
    requires IsDigit(c)
  {
    c as int - '0' as int
  }

  /** Reading back the decimal text: the inverse of `NatToString`. */
  function ParseNat(s: string): nat
    requires forall i :: 0 <= i < |s| ==> IsDigit(s[i])
  {
    if |s| == 0 then 0 else ParseNat(s[..|s| - 1]) * 10 + DigitValue(s[|s| - 1])
  }

  /** Different integers render differently. */
  lemma IntToStringInjective(a: int, b: int)
    requires IntToString(a) == IntToString(b)
    ensures a == b
  {
    var s := IntToString(a);
    assert (s[0] == '-') == (a < 0) == (b < 0);
    if a < 0 {
      assert s == "-" + NatToString(-a) == "-" + NatToString(-b);
      assert s[1..] == NatToString(-a) == NatToString(-b);
      NatToStringInjective(-a, -b);
    } else {
      NatToStringInjective(a, b);
    }
  }

  lemma NatToStringInjective(a: nat, b: nat)
    requires NatToString(a) == NatToString(b)
    ensures a == b
  {
    ParseNatToString(a);
    ParseNatToString(b);
  }

  lemma {:induction false} ParseNatToString(n: nat)
    ensures ParseNat(NatToString(n)) == n
    decreases n
  {
    if n >= 10 {
      var r := NatToString(n);
      ParseNatToString(n / 10);
      assert r[..|r| - 1] == NatToString(n / 10);
    }
  }
}
